=== FILE: README.md ===
# facelook-backend core, modelled in Dafny

facelook-backend is the NestJS/TypeORM server of a clothing shop with
virtual try-on. It has a catalog of products whose stock and colours are
aggregated from their variants. Carts hold one line per variation. Orders
are built from the cart and confirmed against a payment gateway, which
draws stock down all-or-nothing. The server also runs a virtual try-on
pipeline: a submission gate, a polling loop, and public URLs that are
percent-encoded. Around these sit favourites, addresses with a single
default, a role guard, user registration and staff creation, one-time
passwords, home-screen banners, and the upload filename helpers.

This project models that core as pure functions over immutable tables:

- Each database table is a `seq` of rows in insertion order.
- Every operation returns the new tables, or a `Result` error that carries
  the HTTP exception kind and message the service throws.
- Money is `real` and time is an integer number of milliseconds.
- Hashing, encoding, HTTP replies, random draws and the clock are
  parameters.

One module per source area:

| module | file | models |
|---|---|---|
| `Common` | common.dfy | `Result`/`Option`, errors, filters, sums, ids, number printing |
| `Sorting` | sorting.dfy | stable insertion sort by a key, skip/take pagination |
| `SqlLike` | sql_like.dfy | SQL `LIKE` matching as product search uses it |
| `Catalog` | catalog.dfy | `products.service.ts`: findAll, search, findTrending, findOne, update, delete |
| `VariantSync` | variant_sync.dfy | `product-variant.subscriber.ts`: syncStock and the insert/update/remove triggers |
| `Cart` | cart.dfy | `cart.service.ts` |
| `Addresses` | addresses.dfy | `addresses.service.ts` |
| `Orders` | orders.dfy | `orders.service.ts` |
| `Payments` | payments.dfy | `payments.service.ts`: the PhonePe request envelope |
| `Favorites` | favorites.dfy | `favorites.service.ts` |
| `Roles` | roles.dfy | `roles.guard.ts` |
| `Users` | users.dfy | `users.service.ts` |
| `UsersAdmin` | users_admin.dfy | `users-admin.controller.ts` |
| `Otp` | otp.dfy | `otp.service.ts`, with expiry timers as explicit events |
| `Banners` | banners.dfy | `banners.service.ts` |
| `UriEncoding` | uri_encoding.dfy | `encodeURIComponent`/`decodeURIComponent` (section 2.1 of RFC 3986, as ECMA-262 defines them) and `getPublicUrl` |
| `TryOn` | tryon.dfy | `try-on.service.ts`: uploads record, generate gate, error mapping, history, deletes |
| `TryOnPoll` | tryon_poll.dfy | the `pollForCompletion` tick and runs of ticks |
| `Uploads` | uploads.dfy | the upload interceptors and URL builders of `try-on.controller.ts` and `admin-product.controller.ts` |

## Model

| member | source | states |
|---|---|---|
| Catalog.FindProduct | src/products/products.service.ts:65-66 | finds a product exactly when one with that id exists, and returns that product |
| Catalog.FindOne | src/products/products.service.ts:65-69 | succeeds iff the id exists; otherwise NotFound |
| Catalog.ParseGender | src/products/product.entity.ts:4-9 | reading a gender value back is the inverse of writing it, and nothing else is a gender |
| Catalog.FilterQuery | src/products/products.service.ts:24-31 | keeps exactly the non-archived products matching every supplied filter, the gender compared as its stored text; falsy filters are ignored |
| Catalog.FindAll | src/products/products.service.ts:15-42 | fails exactly when the gender is not an enum value (the database's enum error, with the text given) or the skip or limit is negative; page 1 and limit 10 by default; total counts every match; the page is exactly the window of the sorted matches that starts `(page - 1) * limit` in and holds `limit` of them (all the rest for limit 0, none past the end) |
| Catalog.UnknownGenderMatchesNothing | src/products/products.service.ts:27 | a gender that is not an enum value matches no product |
| Catalog.NoMatchNoRows | src/products/products.service.ts:24-31 | when no product matches the query, the filter keeps none |
| Catalog.ControllerQuery | src/products/products.controller.ts:37-48 | page and limit default to 1 and 20 and are always passed, so the service's limit default is unused over HTTP; no brand is passed; the other filters pass through raw |
| Catalog.FindAllSortedMatches | src/products/products.service.ts:24-39 | every product on a page is an unarchived product matching every filter, and the page is in the requested sort order |
| Catalog.FilterIgnoresPage | src/products/products.service.ts:24-31 | the filter reads only the filter fields of the query, never its page |
| Catalog.ListingIgnoresPage | src/products/products.service.ts:24-37 | the sorted matches are the same whichever page is asked for |
| Catalog.PageAt | src/products/products.service.ts:17-39 | position `m < limit` of page `p + 1` holds match `p * limit + m` of the sorted listing whenever the listing reaches that far |
| Catalog.FindAllReachesEveryMatch | src/products/products.service.ts:17-39 | with a positive limit every match appears on some page: match `k` is at position `m` of page `p + 1` with `k = p * limit + m`, `m < limit` |
| Catalog.PageIndexOffset | src/products/products.service.ts:17 | page index and offset are the quotient and remainder of a position by the limit |
| Catalog.SkipOfPage | src/products/products.service.ts:17 | page `p + 1` skips `p * limit` matches |
| Catalog.SearchFilter | src/products/products.service.ts:44-52 | keeps exactly the products the case-insensitive `LIKE` clause selects |
| Catalog.Search | src/products/products.service.ts:44-55 | exactly the first min(20, hits) hits, in table order (the query has no ORDER BY) |
| Catalog.SearchIsCaseInsensitiveContains | src/products/products.service.ts:47-51 | a keyword without wildcards is a hit iff it is not archived and its name, description or brand contains the keyword, ignoring case |
| Catalog.TrendingFilter | src/products/products.service.ts:58-59 | keeps exactly the trending products, archived ones included |
| Catalog.NewestFirstDescending | src/products/products.service.ts:61 | a list sorted by the newest-update key has non-increasing `updatedAt` |
| Catalog.FindTrending | src/products/products.service.ts:57-63 | min(10, trending) trending products, none more often than among the trending rows (a sub-multiset), newest update first |
| Catalog.TrendingIsNewest | src/products/products.service.ts:57-63 | a trending product left out of the ten is updated no later than the tenth one shown |
| Sorting.Top | src/products/products.service.ts:58-62 | `order` then `take`: the first n rows by key, sorted, a sub-multiset of the input, all of it when it fits, of length min(n, rows) |
| Sorting.TopLeavesOutNoSmaller | src/products/products.service.ts:58-62 | a row left out of the first n has a key no smaller than the n-th row kept |
| Catalog.ApplyPatch | src/products/products.service.ts:105 | for each of name, description, price, gender, category, brand, images, trending and archived: a supplied value overwrites, an omitted one keeps the old value; id, stock, colours and creation time never change |
| Catalog.ReplaceProduct | src/products/products.service.ts:106 | saving replaces the row with that id and leaves the others as they were |
| Catalog.Update | src/products/products.service.ts:103-107 | NotFound for an unknown id; otherwise only that product changes, to the patched product |
| Catalog.RemoveProduct | src/products/products.service.ts:110 | exactly the rows with other ids remain |
| Catalog.VariantsOutside | src/products/products.service.ts:110 | the variants left after the delete cascades are exactly those of other products |
| Catalog.Delete | src/products/products.service.ts:109-114 | NotFound for an unknown id; the foreign-key error when an order item holds one of its variants or a try-on record names it; otherwise the product is gone, with its variants, and every other product remains |
| Catalog.DeleteRefusedWhileOrdered | src/orders/order-item.entity.ts:14-15 | a product one of whose variants was ordered cannot be deleted; with no references it can |
| SqlLike.PercentMatchesAll | src/products/products.service.ts:49 | the pattern `%` matches every string |
| SqlLike.PrefixPattern | src/products/products.service.ts:49 | `p%`, with p free of wildcards, matches exactly the strings that start with p |
| SqlLike.LeadingPercent | src/products/products.service.ts:49 | `%q` matches s iff q matches some suffix of s |
| SqlLike.InfixIsContains | src/products/products.service.ts:49-51 | `%k%`, with k free of wildcards, matches exactly the strings containing k |
| SqlLike.LowerAppend | src/products/products.service.ts:49 | lower-casing distributes over concatenation |
| SqlLike.CaseInsensitiveSearch | src/products/products.service.ts:49-51 | the search clause on one field is "contains, ignoring case" |
| VariantSync.IndexOf | src/products/subscribers/product-variant.subscriber.ts:52 | the first position of a colour |
| VariantSync.IndexOfPrefix | src/products/subscribers/product-variant.subscriber.ts:52 | a colour's first position is the same in any prefix that already contains it |
| VariantSync.DistinctFacts | src/products/subscribers/product-variant.subscriber.ts:51-52 | the colour list has no repeats, holds exactly the variants' colours, and keeps first-occurrence order |
| VariantSync.SetAggregates | src/products/subscribers/product-variant.subscriber.ts:55-58 | only the product with that id is written, and only its stock and colours |
| VariantSync.SyncStock | src/products/subscribers/product-variant.subscriber.ts:37-58 | a falsy id is a no-op; otherwise the product's stock becomes the sum of its variants' stock (0 with none) and its colours their distinct colours; no other product changes, and no other field of this one apart from the unmodelled `updatedAt` stamp (see Left out) |
| VariantSync.SyncIdempotent | src/products/subscribers/product-variant.subscriber.ts:37-58 | syncing twice equals syncing once |
| VariantSync.InsertVariant | src/products/subscribers/product-variant.subscriber.ts:19-21 | an insert succeeds iff the SKU is unused and the product exists (or is unset), and appends the row; the re-sync's effect is stated by InsertPreservesSynced |
| VariantSync.UpdateVariant | src/products/subscribers/product-variant.subscriber.ts:24-28 | the row is replaced; which product is re-synced is stated by UpdateInPlacePreservesSynced and MovedVariantLeavesStaleStock |
| VariantSync.RemoveVariant | src/products/subscribers/product-variant.subscriber.ts:31-34 | the row is removed, the rest keeping order; the re-sync's effect is stated by RemovePreservesSynced |
| VariantSync.SumConcat | src/products/subscribers/product-variant.subscriber.ts:41-52 | stock sums and colour lists split over concatenation |
| VariantSync.SingleOther | src/products/subscribers/product-variant.subscriber.ts:41-52 | a variant of another product adds no stock and no colour |
| VariantSync.AggregatesOfOthers | src/products/subscribers/product-variant.subscriber.ts:41-52 | variants of other products do not affect a product's aggregates |
| VariantSync.NoneOf | src/products/subscribers/product-variant.subscriber.ts:48 | a product with no variants has stock 0 and no colours |
| VariantSync.ResyncRestores | src/products/subscribers/product-variant.subscriber.ts:37-58 | if a change moves no other product's aggregates, re-syncing its product restores consistency |
| VariantSync.InsertPreservesSynced | src/products/subscribers/product-variant.subscriber.ts:19-21 | after an insert every product's aggregates again match its variants |
| VariantSync.InsertKeepsKeys | src/products/subscribers/product-variant.subscriber.ts:19-21 | an insert keeps SKUs unique and product references valid |
| VariantSync.RemovePreservesSynced | src/products/subscribers/product-variant.subscriber.ts:31-34 | after a removal every product's aggregates again match its variants |
| VariantSync.UpdateInPlacePreservesSynced | src/products/subscribers/product-variant.subscriber.ts:24-28 | an update that keeps the variant's product keeps every product consistent |
| VariantSync.SampleCatalogSynced | src/products/subscribers/product-variant.subscriber.ts:37-58 | the sample catalog is consistent |
| VariantSync.MovedVariantLeavesStaleStock | src/products/subscribers/product-variant.subscriber.ts:24-28 | moving a variant to another product leaves the old product's stock stale |
| VariantSync.UpdateVariantResyncBoth | src/products/subscribers/product-variant.subscriber.ts:24-28 | the corrected trigger replaces the row as the update does |
| VariantSync.UpdateResyncBothPreservesSynced | src/products/subscribers/product-variant.subscriber.ts:24-28 | re-syncing both the old and the new product keeps every product consistent, whatever the update |
| VariantSync.UpdateVariantAsWritten | src/products/subscribers/product-variant.subscriber.ts:24-28 | as written, the id read is undefined: the row is replaced and no product changes |
| VariantSync.RemoveVariantAsWritten | src/products/subscribers/product-variant.subscriber.ts:31-34 | as written, the row is removed and no product changes |
| VariantSync.StockUpdateAsWrittenLeavesStaleStock | src/products/subscribers/product-variant.subscriber.ts:24-38 | as written, lowering a variant's stock from 5 to 3 leaves its product at 5; the trigger that reads the id re-syncs it to 3 |
| Cart.FindLine | src/cart/cart.service.ts:28-35 | the first line with the key, or none exactly when no line has it |
| Cart.InsertLine | src/cart/cart.service.ts:44-55 | an insert succeeds iff it violates no unique key, where NULLs never clash (src/cart/cart.entity.ts:8) |
| Cart.AddOrUpdateAsWritten | src/cart/cart.service.ts:17-56 | NotFound exactly for an unknown product; whenever neither size nor colour is "" it behaves exactly as Cart.AddOrUpdate |
| Cart.AddOrUpdate | src/cart/cart.service.ts:17-56 | NotFound iff the product is unknown; on a cart with unique keys it succeeds iff both the request and the held total fit the product's aggregate stock; keys stay unique; only the requested variation's held quantity grows, by exactly the request |
| Cart.HeldAppend | src/cart/cart.service.ts:44-55 | appending a line adds its quantity to its own key only |
| Cart.HeldUpdate | src/cart/cart.service.ts:37-43 | changing one line's quantity changes only its key's total, by the difference |
| Cart.HeldUnique | src/cart/cart.entity.ts:8 | with unique keys, a key's total is its one line's quantity |
| Cart.HeldAbsent | src/cart/cart.service.ts:44 | a key with no line holds nothing |
| Cart.AddFacts | src/cart/cart.service.ts:17-56 | the add's outcome and effect, stated for a given lookup key |
| Cart.AddChangesOneKey | src/cart/cart.service.ts:37-53 | a successful add grows exactly one key's total and keeps the bound |
| Cart.LinesOf | src/cart/cart.service.ts:59-64 | the cart rows behind the summary items |
| Cart.Join | src/cart/cart.service.ts:59-64 | each row is joined with its product; this fails iff some row's product is missing |
| Cart.GetCartSummary | src/cart/cart.service.ts:58-78 | the items are exactly the user's rows, newest first; totalAmount sums price × quantity over non-archived products; totalItems sums all quantities |
| Cart.SummaryFacts | src/cart/cart.service.ts:58-78 | the summary's contract, proved once for its definition |
| Cart.SortedSummaryFacts | src/cart/cart.service.ts:58-78 | any newest-first permutation of the user's rows gives the same summary totals |
| Cart.JoinedRows | src/cart/cart.service.ts:59-64 | a successful join keeps row order and attaches each row's own product |
| Cart.JoinedNewestFirst | src/cart/cart.service.ts:63 | joining keeps the newest-first order |
| Cart.SummaryTotals | src/cart/cart.service.ts:67-75 | the item totals equal the sums over the rows |
| Cart.RemoveCartItem | src/cart/cart.service.ts:102-105 | NotFound iff no row with that id is the user's; otherwise exactly that row goes |
| Cart.UpdateQuantity | src/cart/cart.service.ts:80-100 | NotFound unless the row is the caller's; quantity ≤ 0 removes the row; a positive quantity succeeds iff the row is the caller's, its product exists and the stock covers the quantity, and then only that row's quantity changes; BadRequest only when the stock is short |
| Cart.FindById | src/cart/cart.service.ts:81-84 | the row with that id owned by the user, if any |
| Cart.ClearCart | src/cart/cart.service.ts:107-109 | every row of that user goes and every other user's row stays |
| Cart.ClearedCartIsEmpty | src/cart/cart.service.ts:58-109 | after a clear, the user's summary is empty with zero totals |
| Cart.EmptySizeAddedTwiceFails | src/cart/cart.service.ts:28-53 | as written, adding the same item with size "" twice fails on the second add |
| Cart.EmptySizeAddedTwiceAccumulates | src/cart/cart.service.ts:28-53 | with the lookup on the stored key, the second add increments the one line to 2 |
| Addresses.CountOwned | src/addresses/addresses.service.ts:16 | zero iff the user has no address |
| Addresses.ClearDefaults | src/addresses/addresses.service.ts:22 | clears the default flag on that user's addresses only |
| Addresses.Create | src/addresses/addresses.service.ts:15-31 | appends one address with a fresh id; it is default iff it is the user's first or the form asks for it; a new default clears that user's other defaults only |
| Addresses.CreateKeepsOneDefault | src/addresses/addresses.service.ts:21-30 | create keeps "at most one default address per user" |
| Addresses.FirstAddressIsDefault | src/addresses/addresses.service.ts:16-19 | a user's first address is default whatever the form says |
| Addresses.FindOne | src/addresses/addresses.service.ts:41-48 | finds an address only when it has that id and belongs to that user |
| Addresses.SetDefault | src/addresses/addresses.service.ts:50-59 | NotFound unless the user owns it; afterwards it is that user's only default, and other users are untouched |
| Addresses.SetDefaultKeepsOneDefault | src/addresses/addresses.service.ts:55-58 | setDefault keeps "at most one default per user" |
| Addresses.Delete | src/addresses/addresses.service.ts:61-63 | the foreign-key error when the user's own address was shipped to by an order; otherwise removes exactly that address, and is a silent no-op when the user has none with that id |
| Addresses.DeleteRefusedWhileShipped | src/orders/order.entity.ts:27-28 | an address an order was shipped to cannot be deleted; one no order uses can |
| Addresses.FindAll | src/addresses/addresses.service.ts:33-38 | exactly the user's addresses, defaults first, then newest first |
| Addresses.GroupsListed | src/addresses/addresses.service.ts:36 | defaults, then non-defaults, each newest first, is the listing order |
| Orders.FindOrder | src/orders/orders.service.ts:126 | the order with that id, if any |
| Orders.ShippingThresholdCliff | src/orders/orders.service.ts:58 | free shipping above 500 makes a 510 order cheaper than a 500 one |
| Orders.MatchVariant | src/orders/orders.service.ts:36-39 | a variant of that product with equal size and colour, or none exactly when no variant fits |
| Orders.BuildItems | src/orders/orders.service.ts:35-55 | succeeds iff every line has a fitting variant with enough stock; each item snapshots name, size, colour, quantity and price, and points at that variant |
| Orders.FirstSegment | src/orders/orders.service.ts:82 | the text before the first '-' |
| Orders.OrderNumber | src/orders/orders.service.ts:82 | "ORD-" followed by the upper-cased first segment of the uuid |
| Orders.CreateOrderFromCart | src/orders/orders.service.ts:25-87 | NotFound iff the address is not the user's; BadRequest for an empty cart; succeeds iff every line is available and the number is free; a new PENDING order for that user, address and payment type, numbered "ORD-" plus the uuid's first group upper-cased, due five days on, with the priced totals and one timeline entry; each item snapshots its cart row and points at the variant of the row's product with the row's size and colour; stock and cart untouched |
| Orders.SummarySize | src/orders/orders.service.ts:29-35 | the summary has one item per cart row of the user |
| Orders.CreateOrderOutcome | src/orders/orders.service.ts:26-42 | the create's error cases and success condition, for its definition |
| Orders.AfterAddress | src/orders/orders.service.ts:29-55 | once the address is found, the outcome depends on the summary, availability and the order number only |
| Orders.CreateOrderContents | src/orders/orders.service.ts:44-86 | a created order has the contents the contract names |
| Orders.BuiltFromCart | src/orders/orders.service.ts:35-86 | the order assembled from the user's cart summary and its matched items has those contents, each item pointing at its matched variant |
| Orders.NewOrderShape | src/orders/orders.service.ts:58-86 | PENDING for the given user, address and payment type, due five days on, numbered from the uuid, with one (PENDING, "Order Created") entry; shipping 0 iff items total > 500, else 50; tax 0.18 × items total; total is the sum of the three |
| Orders.OrderTotal | src/orders/orders.service.ts:44-58 | the items total is Σ price × quantity over all the user's rows, archived products included |
| Orders.ItemsCost | src/orders/orders.service.ts:44-45 | snapshotted item prices sum to the rows' cost |
| Orders.OrderTotalMatchesCartWhenNothingArchived | src/cart/cart.service.ts:67-73 | with no archived product in the cart, the order's items total equals the cart's totalAmount |
| Orders.SameCostUnarchived | src/cart/cart.service.ts:70-72 | on non-archived products the cart's amount and the order's cost agree |
| Orders.VariantIndex | src/orders/orders.service.ts:132 | the variant with that id, if any |
| Orders.Decrement | src/orders/orders.service.ts:131-138 | a successful decrement keeps every variant and its id in place |
| Orders.DecrementEffect | src/orders/orders.service.ts:131-138 | each variant's stock goes down by the total quantity the order asks of it, and nothing else changes |
| Orders.DemandAt | src/orders/orders.service.ts:131-138 | the demand on a variant splits into the first item and the rest |
| Orders.DemandNonNegative | src/orders/orders.service.ts:131-138 | demand is non-negative and zero exactly for variants no item names |
| Orders.DecrementSucceedsIff | src/orders/orders.service.ts:131-159 | the decrement succeeds iff every item's variant exists and each variant's stock covers its total demand; otherwise nothing is changed |
| Orders.DecrementMissing | src/orders/orders.service.ts:132-134 | a missing variant fails the decrement |
| Orders.DecrementShort | src/orders/orders.service.ts:133-134 | a short variant fails the decrement |
| Orders.DecrementStep | src/orders/orders.service.ts:131-138 | one item's decrement keeps the success condition for the rest |
| Orders.DecrementCovered | src/orders/orders.service.ts:131-138 | the decrement proceeds from the first item to the rest |
| Orders.StepIff | src/orders/orders.service.ts:131-138 | taking one item's quantity keeps "every variant exists and covers its demand" |
| Orders.ResolvableStep | src/orders/orders.service.ts:132 | variant existence is unaffected by stock changes |
| Orders.FulfillableStep | src/orders/orders.service.ts:133-136 | coverage after taking one item's quantity equals coverage of the rest |
| Orders.SameIds | src/orders/orders.service.ts:132 | tables with the same ids resolve the same items |
| Orders.ConfirmPaymentOf | src/orders/orders.service.ts:116-163 | NotFound iff the order is missing; a non-PENDING order is returned with nothing changed; a PENDING one succeeds iff stock covers it, then the stock is lowered, the status becomes PLACED with the payment id, one (PLACED, "Payment Confirmed") entry is appended, and the user's cart is emptied |
| Orders.ConfirmFacts | src/orders/orders.service.ts:116-163 | the confirmation's contract, for its definition |
| Orders.ConfirmIdempotent | src/orders/orders.service.ts:128 | confirming again after a success changes nothing |
| Orders.FirstIndexSame | src/orders/orders.service.ts:126 | tables with the same ids find an order at the same place |
| Orders.DecrementKeepsSynced | src/products/subscribers/product-variant.subscriber.ts:24-28 | the stock decrement, with the trigger re-syncing after each save, keeps products consistent with their variants |
| Orders.DecrementUnfold | src/orders/orders.service.ts:131-138 | a successful decrement's first step |
| Orders.TakeKeepsSynced | src/orders/orders.service.ts:136 | one saved variant decrement keeps products consistent |
| Orders.UpdateInPlaceKeepsKeys | src/orders/orders.service.ts:136 | saving a variant under the same product keeps keys valid |
| Orders.VerifyAndCompleteOrder | src/orders/orders.service.ts:171-194 | NotFound for a missing order; PLACED is reported as already paid; other non-PENDING statuses as they are; PENDING and unpaid stays PENDING; PENDING and paid confirms with the transaction id as payment id |
| Orders.UpdatePaymentInfo | src/orders/orders.service.ts:167-169 | only that order's transaction id is set |
| Orders.UpdateStatusAsWritten | src/orders/orders.service.ts:90-113 | as written, every call fails: NotFound for a missing order, an error from the missing timeline repository otherwise |
| Orders.UpdateStatus | src/orders/orders.service.ts:90-113 | NotFound iff missing; any status is accepted; DELIVERED alone stamps the delivery time; one entry is appended, "Order status updated to <status>" by default; nothing else changes |
| Orders.FindOne | src/orders/orders.service.ts:240-263 | the order when it exists and is the user's; NotFound if missing, Forbidden if someone else's |
| Orders.Events | src/orders/orders.service.ts:273-278 | one completed event per timeline entry, in order |
| Orders.EntriesOf | src/orders/orders.service.ts:273-278 | the timeline entries a list of events shows, position by position |
| Orders.GetTrackingDetails | src/orders/orders.service.ts:265-280 | the same errors as findOne; otherwise what Orders.TrackingOf shows of the order |
| Orders.TrackingOf | src/orders/orders.service.ts:265-280 | the order's id, number, status and estimated delivery, and its timeline as a permutation of the entries, oldest first, each marked completed |
| Orders.SortedTimelineShown | src/orders/orders.service.ts:250-279 | any oldest-first arrangement of an order's timeline, shown as completed events, is what the tracking reply promises of that order |
| Orders.TrackingShowsLatestUpdate | src/orders/orders.service.ts:90-280 | after a status update, tracking shows the new status with the update's entry last |
| Orders.LastIsUnique | src/orders/orders.service.ts:251-253 | the newest entry of a timeline is the one appended last |
| Payments.Paise | src/payments/payments.service.ts:23 | the amount in paise is 100 times the amount |
| Payments.XVerify | src/payments/payments.service.ts:40 | the header is the digest, then "###", then the salt index |
| Payments.FindSeparator | src/payments/payments.service.ts:40 | the first "###" in a header |
| Payments.XVerifySplits | src/payments/payments.service.ts:40 | a digest without '#' can be read back from the header together with the salt index |
| Payments.HexHeaderSplits | src/payments/payments.service.ts:39-40 | the same, stated for any digest |
| Payments.PayHashInput | src/payments/payments.service.ts:38 | the hashed text is the base64 payload, "/pg/v1/pay", then the salt key |
| Payments.PayRequest | src/payments/payments.service.ts:15-52 | the body is the encoded payload, the URL ends in "/pg/v1/pay", and the header carries the hash of the pay input |
| Payments.InitiatePayment | src/payments/payments.service.ts:16-61 | succeeds iff the gateway answers with a redirect; the transaction id is "TXN_" + uuid; any failure is an InternalServerError "PhonePe Init Error: …" |
| Payments.StatusPath | src/payments/payments.service.ts:67-73 | "/pg/v1/status/<merchant>/<txn>" |
| Payments.StatusRequest | src/payments/payments.service.ts:66-81 | the URL ends in the status path; the header splits at "###" into the digest of that path plus the salt key and the salt index |
| Payments.CheckPaymentStatus | src/payments/payments.service.ts:83-86 | paid iff the reply code is "PAYMENT_SUCCESS"; an error is unpaid |
| Favorites.CountMarks | src/favorites/favorites.service.ts:47-52 | positive iff a favourite for that user and product exists |
| Favorites.FindFavorite | src/favorites/favorites.service.ts:27-29 | the first favourite for that pair, or none exactly when there is none |
| Favorites.ToggleFavorite | src/favorites/favorites.service.ts:17-44 | NotFound when the product is missing or archived; otherwise "removed" iff it was favoured; the pair's state flips and every other favourite stays |
| Favorites.RemovedPair | src/favorites/favorites.service.ts:33 | removing a favourite affects only its pair, which is then gone |
| Favorites.ToggleKeepsUnique | src/favorites/favorites.service.ts:27-43 | toggling keeps at most one favourite per pair |
| Favorites.RemoveKeepsUnique | src/favorites/favorites.service.ts:33 | removing keeps pairs unique |
| Favorites.AppendKeepsUnique | src/favorites/favorites.service.ts:37-41 | adding an absent pair keeps pairs unique |
| Favorites.ToggleTwiceRestores | src/favorites/favorites.service.ts:27-43 | toggling twice gives back the same favoured pairs, and the very table when the pair was absent |
| Favorites.OtherPairsAgree | src/favorites/favorites.service.ts:27-43 | tables that agree off one pair and on it agree everywhere |
| Favorites.AddedThenRemoved | src/favorites/favorites.service.ts:31-43 | an added favourite is removed by the next toggle, restoring the table |
| Favorites.Listed | src/favorites/favorites.service.ts:59-66 | exactly the user's favourites of non-archived products, newest first |
| Favorites.FindPaginatedByUser | src/favorites/favorites.service.ts:54-72 | total counts every listed favourite; the page is exactly the window of the newest-first listing that starts `(page - 1) * limit` in and holds `limit` of them |
| Favorites.PageFrom | src/favorites/favorites.service.ts:67-71 | a page is the window of the list starting `skip` in, of the length the limit allows, and stays newest first |
| Favorites.SliceNewestFirst | src/favorites/favorites.service.ts:66-68 | a slice of a newest-first list is newest first |
| Roles.ParseRole | src/users/user.entity.ts:6-13 | reading a role value back is the inverse of writing it |
| Roles.RequiredRoles | src/auth/roles.guard.ts:18-21 | the handler's roles override the class's |
| Roles.CanActivate | src/auth/roles.guard.ts:16-45 | allowed iff no roles are required or the user's role is listed; no user is Unauthorized; an unlisted role is Forbidden with the list |
| Roles.Guard | src/auth/roles.guard.ts:18-44 | handler roles alone decide; no decorator lets everyone in; an empty list refuses every user |
| Users.Insert | src/users/users.service.ts:45-82 | saving succeeds iff the phone and e-mail are unused; it appends the account with a fresh id and keeps contacts unique |
| Users.CreateWithPhone | src/users/users.service.ts:45-59 | BadRequest iff the phone is taken; otherwise an unverified USER with that phone |
| Users.CreateWithEmail | src/users/users.service.ts:61-82 | Conflict on a taken e-mail, checked first, then on a taken phone; otherwise an unverified USER storing only the password's hash |
| Users.FindByEmail | src/users/users.service.ts:103-106 | the first account with that e-mail, none exactly when there is none |
| Users.ValidateUser | src/users/users.service.ts:102-113 | the account iff it exists, has a password, and the password matches its hash |
| Users.RegisterThenLogin | src/users/users.service.ts:61-113 | a registered user can log in with the password used |
| Users.CreateStaffAccount | src/users/users.service.ts:122-134 | Conflict on a taken e-mail; otherwise a verified account with the form's role and the hashed password |
| Users.FindAll | src/users/users.service.ts:136-142 | all users without a role; exactly the users of that role with one |
| Users.SeedSuperAdmin | src/users/users.service.ts:20-41 | creates the super-admin only when its e-mail is absent |
| Users.SeedIdempotent | src/users/users.service.ts:24-26 | seeding twice equals seeding once |
| Users.ApplyPatch | src/users/users.service.ts:115-116 | every supplied field overwrites and every omitted one keeps its value; the id never changes |
| Users.FindById | src/users/users.service.ts:93-100 | the account with that id, or none exactly when it is missing |
| Users.Update | src/users/users.service.ts:115-118 | NotFound for a missing id; the duplicate-key error when a new phone number or e-mail is another account's; succeeds iff none of these, and then only that account changes, by the patch; an empty patch returns the account unchanged, since the `updatedAt` stamp keeps the update non-empty |
| Users.UpdateKeepsContactsUnique | src/users/users.service.ts:115-118 | a successful update keeps phone numbers and e-mails unique |
| Users.Delete | src/users/users.service.ts:144-146 | the foreign-key error for an existing user who has placed an order; otherwise exactly the accounts with other ids remain |
| Users.DeleteRefusedWithOrders | src/orders/order.entity.ts:24-25 | a user with orders cannot be deleted; one without can |
| UsersAdmin.CreateStaffAs | src/users/users-admin.controller.ts:31-39 | super-admins and admins only; only a super-admin may create a super-admin |
| UsersAdmin.AdminCreatesBelowSuperAdmin | src/users/users-admin.controller.ts:35-38 | an admin can create any other role with unused contacts |
| UsersAdmin.ListUsers | src/users/users-admin.controller.ts:42-46 | super-admin, admin and support only; the role-filtered list |
| UsersAdmin.UpdateUser | src/users/users-admin.controller.ts:49-58 | super-admins only; exactly Users.Update with the password dropped, so the password never changes; a password-only body returns the account unchanged |
| UsersAdmin.ToggleBanStatus | src/users/users-admin.controller.ts:61-68 | super-admins and admins only; with the flag, succeeds iff the account exists and changes only the verified flag; without it, the NOT NULL refusal for an existing account and NotFound otherwise |
| UsersAdmin.DeleteUser | src/users/users-admin.controller.ts:71-75 | succeeds iff the caller is a super-admin and Users.Delete succeeds; then removes the account with that id |
| Otp.OtpCode | src/otp/otp.service.ts:15 | the code is six digits, in [100000, 999999] |
| Otp.SendOtp | src/otp/otp.service.ts:14-17 | stores the code for the phone, replacing any earlier one, leaves other phones alone, and schedules one deletion five minutes on |
| Otp.VerifyOtp | src/otp/otp.service.ts:27-30 | true iff a code is stored for the phone and equals the given text |
| Otp.Saved | src/otp/otp.service.ts:28 | the stored code, absent when none is stored |
| Otp.VerifyOtpAsWritten | src/users/users.controller.ts:46-49 | with an `otp` in the body, as VerifyOtp; without one, true iff no code is stored for the phone |
| Otp.MissingOtpAcceptedWithoutCode | src/users/users.controller.ts:46-57 | as written, omitting `otp` passes for a phone never sent a code and for one whose code has expired |
| Otp.VerifyOtpChecked | src/users/users.controller.ts:46-49 | corrected, a missing `otp` is refused, and acceptance needs the stored code |
| Otp.CheckedAgreesWhenPresent | src/users/users.controller.ts:46-49 | the corrected check never accepts a missing code and agrees with the original whenever one is sent |
| Otp.Expiring | src/otp/otp.service.ts:17 | the phones whose timers are due |
| Otp.Advance | src/otp/otp.service.ts:17 | due timers delete their phone's entry, whatever code it now holds |
| Otp.SendThenVerify | src/otp/otp.service.ts:14-30 | a code just sent is accepted and no other text is |
| Otp.EarlierTimerDeletesNewerCode | src/otp/otp.service.ts:15-17 | as written, a resend's code is deleted by the first send's timer |
| Otp.ResentCodeLastsOneMinute | src/otp/otp.service.ts:15-17 | a code resent after four minutes lives one minute |
| Otp.SendFixed | src/otp/otp.service.ts:14-17 | the corrected store keeps each code with its own expiry |
| Otp.VerifyFixed | src/otp/otp.service.ts:27-30 | accepted iff latest and not yet expired |
| Otp.FixedCodeLivesFullLifetime | src/otp/otp.service.ts:17 | corrected, the latest code is accepted for exactly its five minutes |
| Otp.FixedAgreesOnSingleSend | src/otp/otp.service.ts:14-30 | with one send the corrected store and the original agree at every time |
| Banners.Create | src/banners/banner.entity.ts:17-24 | appends a banner with a fresh id; redirect "/", active and display order 0 unless given |
| Banners.FindAllAdmin | src/banners/banners.service.ts:29-33 | every banner, by display order ascending |
| Banners.FindAllActive | src/banners/banners.service.ts:21-26 | exactly the active banners, by display order ascending |
| Banners.ActiveIsAdminWhenAllActive | src/banners/banners.service.ts:21-33 | with every banner active both lists hold the same banners |
| Banners.Assign | src/banners/banners.service.ts:38 | supplied fields overwrite and the others stay |
| Banners.FindBanner | src/banners/banners.service.ts:36-43 | the first banner with that id, or none exactly when there is none |
| Banners.Update | src/banners/banners.service.ts:35-40 | NotFound for an unknown id; otherwise only that banner changes, in the supplied fields |
| Banners.Remove | src/banners/banners.service.ts:42-46 | NotFound for an unknown id; otherwise exactly that banner goes, the rest keeping order |
| Banners.CreateThenRemove | src/banners/banners.service.ts:15-46 | removing a banner just created restores the table |
| UriEncoding.HexDigit | src/try-on/try-on.service.ts:49 | the upper-case hex digit of a value below 16 |
| UriEncoding.HexValue | src/try-on/try-on.service.ts:49 | the value of a hex digit, either case |
| UriEncoding.HexDigitValue | src/try-on/try-on.service.ts:49 | reading a written hex digit gives back its value |
| UriEncoding.Escape | src/try-on/try-on.service.ts:49 | a byte as "%XY" |
| UriEncoding.Utf8 | src/try-on/try-on.service.ts:49 | a code point's UTF-8 bytes, one to four, with the standard lead and continuation ranges |
| UriEncoding.Escapes | src/try-on/try-on.service.ts:49 | three characters per byte |
| UriEncoding.EncodeChar | src/try-on/try-on.service.ts:49 | unreserved characters stay; others become their escaped UTF-8 bytes |
| UriEncoding.EncodeURIComponent | src/try-on/try-on.service.ts:49 | never shorter, and '/' is always escaped |
| UriEncoding.EncodeAppend | src/try-on/try-on.service.ts:49 | encoding distributes over concatenation |
| UriEncoding.EncodeThree | src/try-on/try-on.service.ts:49 | the same, over three parts |
| UriEncoding.UnreservedUnchanged | src/try-on/try-on.service.ts:49 | text of unreserved characters is left as it is |
| UriEncoding.ByteAt | src/try-on/try-on.service.ts:49 | reads one escaped byte |
| UriEncoding.Cont | src/try-on/try-on.service.ts:49 | reads one escaped continuation byte |
| UriEncoding.DecodeOne | src/try-on/try-on.service.ts:49 | decoding consumes at least one character |
| UriEncoding.EscapeRead | src/try-on/try-on.service.ts:49 | an escaped byte reads back |
| UriEncoding.EscapesRead | src/try-on/try-on.service.ts:49 | the first escaped byte of a run reads back |
| UriEncoding.DecodeOneEncoded | src/try-on/try-on.service.ts:49 | decoding an encoded character gives it back, with its length |
| UriEncoding.ContRead | src/try-on/try-on.service.ts:49 | a continuation byte reads back |
| UriEncoding.DecodeAscii | src/try-on/try-on.service.ts:49 | one-byte characters decode back |
| UriEncoding.DecodeTwo | src/try-on/try-on.service.ts:49 | two-byte characters decode back |
| UriEncoding.Utf8Three | src/try-on/try-on.service.ts:49 | three-byte encodings have their ranges and payload |
| UriEncoding.Utf8Four | src/try-on/try-on.service.ts:49 | four-byte encodings have their ranges and payload |
| UriEncoding.EscapesDrop | src/try-on/try-on.service.ts:49 | dropping k escaped bytes drops 3k characters |
| UriEncoding.ContAt | src/try-on/try-on.service.ts:49 | the k-th escaped byte reads back |
| UriEncoding.DecodeThree | src/try-on/try-on.service.ts:49 | three-byte characters decode back |
| UriEncoding.DecodeFour | src/try-on/try-on.service.ts:49 | four-byte characters decode back |
| UriEncoding.DecodeCons | src/try-on/try-on.service.ts:49 | decoding proceeds character by character |
| UriEncoding.DecodeEncode | src/try-on/try-on.service.ts:49 | decoding an encoded string gives it back |
| UriEncoding.Split | src/try-on/try-on.service.ts:49 | at least one segment, none containing '/' |
| UriEncoding.EncodeEach | src/try-on/try-on.service.ts:49 | each segment encoded in place |
| UriEncoding.JoinSplit | src/try-on/try-on.service.ts:49 | joining the segments with '/' gives back the path |
| UriEncoding.SegmentsEncodeInPlace | src/try-on/try-on.service.ts:49 | encoding each segment and joining keeps every '/' where it was |
| UriEncoding.SplitJoin | src/try-on/try-on.service.ts:49 | splitting joined segments gives them back |
| UriEncoding.DecodeEncodePath | src/try-on/try-on.service.ts:49 | decoding the encoded path gives back the path |
| UriEncoding.ReplaceStep | src/try-on/try-on.service.ts:52 | the replace passes a character other than '%' through |
| UriEncoding.EscapeIsNotSlash | src/try-on/try-on.service.ts:52 | the escape of any byte other than '/' is not "%2F" |
| UriEncoding.ReplaceThree | src/try-on/try-on.service.ts:52 | the replace passes an escape other than "%2F" through |
| UriEncoding.ReplaceEscape | src/try-on/try-on.service.ts:52 | an escaped byte other than '/' passes through |
| UriEncoding.ReplaceEscapes | src/try-on/try-on.service.ts:52 | a run of such escapes passes through |
| UriEncoding.ReplaceIsNoOp | src/try-on/try-on.service.ts:49-52 | replacing "%2F" after per-segment encoding changes nothing |
| UriEncoding.CleanPath | src/try-on/try-on.service.ts:45 | the path starts with '/' |
| UriEncoding.PublicUrlShape | src/try-on/try-on.service.ts:37-55 | "" stays "", an http URL stays as it is; otherwise the base, then the '/'-led path with each segment encoded in place, which decodes back to the path |
| UriEncoding.SpaceEscaped | src/try-on/try-on.service.ts:47-49 | a space is "%20" |
| UriEncoding.SpaceInFileName | src/try-on/try-on.service.ts:47-49 | "White Tee.jpg" becomes "White%20Tee.jpg" |
| TryOn.SaveUserUploads | src/try-on/try-on.service.ts:58-65 | appends one REFERENCE record of the user holding the given URLs |
| TryOn.HandleFalError | src/try-on/try-on.service.ts:234-249 | always an error: 422 with a list gives BadRequest "AI Validation Error: <first msg>"; "Exhausted balance" gives 503; anything else BadRequest |
| TryOn.ActiveJob | src/try-on/try-on.service.ts:73-75 | a PROCESSING record of the user, or none exactly when there is none |
| TryOn.GenerateTryOn | src/try-on/try-on.service.ts:68-140 | BadRequest without FAL_KEY; BadRequest while a job under three minutes old runs; otherwise a stale job is failed and, on acceptance, one GENERATED/PROCESSING record with the request id and garment URLs is created |
| TryOn.AfterGateChanges | src/try-on/try-on.service.ts:77-82 | the gate changes only the user's PROCESSING record, to FAILED |
| TryOn.GenerateKeepsOneActive | src/try-on/try-on.service.ts:68-140 | at most one PROCESSING record per user is kept |
| TryOn.ListKind | src/try-on/try-on.service.ts:252-265 | exactly the user's records of one type, newest first |
| TryOn.GetGeneratedHistory | src/try-on/try-on.service.ts:252-258 | the user's GENERATED records as a permutation, each exactly as often as stored, newest first |
| TryOn.GetUserUploads | src/try-on/try-on.service.ts:260-265 | the user's REFERENCE records as a permutation, each exactly as often as stored, newest first |
| TryOn.FindOwned | src/try-on/try-on.service.ts:269-276 | a record matching id, owner and type, or none exactly when there is none |
| TryOn.DeleteOwned | src/try-on/try-on.service.ts:268-280 | removes a record only when id, owner and type all match; otherwise NotFound |
| TryOn.DeleteUpload | src/try-on/try-on.service.ts:268-273 | succeeds iff the user owns a REFERENCE record with that id, and then exactly that record goes, the rest keeping order; else NotFound "Image not found" |
| TryOn.DeleteGenerated | src/try-on/try-on.service.ts:275-280 | succeeds iff the user owns a GENERATED record with that id, and then exactly that record goes, the rest keeping order; else NotFound "Try-on record not found" |
| TryOn.DeleteKeepsOthers | src/try-on/try-on.service.ts:271-278 | every other record stays |
| TryOnPoll.ResultUrl | src/try-on/try-on.service.ts:167-168 | the first image URL of the payload or the data, if any |
| TryOnPoll.Classify | src/try-on/try-on.service.ts:160-228 | COMPLETED (or images without status) finishes, COMPLETED only with an image; FAILED finishes; "in progress" 400 and 404 are skipped; other answers wait; any other error fails |
| TryOnPoll.TickAsWritten | src/try-on/try-on.service.ts:149-230 | as written, an answered tick at 60 attempts writes TIMEOUT last, even after a result; skipped ticks never stop |
| TryOnPoll.TickFixed | src/try-on/try-on.service.ts:149-230 | corrected, one write per stop: the result if finished, else TIMEOUT at the bound |
| TryOnPoll.ApplyWrites | src/try-on/try-on.service.ts:171-189 | the last write decides the status |
| TryOnPoll.Step | src/try-on/try-on.service.ts:150 | every tick counts one attempt |
| TryOnPoll.Run | src/try-on/try-on.service.ts:149-230 | a stopped poll stays as it is, and each reply counts at most one attempt |
| TryOnPoll.RunAppend | src/try-on/try-on.service.ts:149-230 | a run over two reply lists is the run over the first, continued |
| TryOnPoll.Repeat | src/try-on/try-on.service.ts:149 | n copies of one reply |
| TryOnPoll.NotFoundNeverStops | src/try-on/try-on.service.ts:222-223 | as written, 404 replies only count attempts |
| TryOnPoll.NotFoundPollsForever | src/try-on/try-on.service.ts:186-223 | as written, any number of 404s never stops the poll |
| TryOnPoll.QueuedWaits | src/try-on/try-on.service.ts:160-186 | queued answers under the bound change nothing but the count |
| TryOnPoll.CompletedOnLastTickTimesOut | src/try-on/try-on.service.ts:163-190 | as written, a result on tick 60 ends as TIMEOUT |
| TryOnPoll.FixedStopsInTime | src/try-on/try-on.service.ts:186-190 | corrected, the poll stops by attempt 60 |
| TryOnPoll.FixedPollEnds | src/try-on/try-on.service.ts:186-190 | corrected, polling from the start ends within 60 ticks |
| TryOnPoll.FixedKeepsFinalAnswer | src/try-on/try-on.service.ts:163-184 | corrected, a finishing reply's status and image are final |
| TryOnPoll.FixedCompletedOnLastTick | src/try-on/try-on.service.ts:163-190 | corrected, a result on tick 60 is kept as COMPLETED |
| TryOnPoll.StoppedIsSettled | src/try-on/try-on.service.ts:164-188 | a stopped poll never shows PROCESSING |
| Uploads.StripTrailingSlashes | src/products/admin-product/admin-product.controller.ts:21 | a prefix without trailing '/' |
| Uploads.LastIndexOf | src/products/admin-product/admin-product.controller.ts:21 | the last position of a character, or none exactly when absent |
| Uploads.BaseName | src/products/admin-product/admin-product.controller.ts:21 | the last path component, without '/' |
| Uploads.ExtName | src/products/admin-product/admin-product.controller.ts:21 | "" or a '.' and then no '.' or '/'; a suffix of the base name; "" without a dot |
| Uploads.ExtOfDotted | src/products/admin-product/admin-product.controller.ts:21 | the extension of "stem.ext" is ".ext" |
| Uploads.Affixes | src/try-on/try-on.controller.ts:39 | a concatenation starts with its first part and ends with its last |
| Uploads.EndsWithTrans | src/try-on/try-on.controller.ts:39 | suffix of a suffix is a suffix |
| Uploads.EndsWithAppend | src/try-on/try-on.controller.ts:67 | prepending keeps a suffix |
| Uploads.StartsWithPrepend | src/try-on/try-on.controller.ts:67 | prepending extends a prefix |
| Uploads.ReferenceUrlShape | src/try-on/try-on.controller.ts:36-67 | "/uploads/try-on/user-ref-…" ending in the original's extension |
| Uploads.Screen | src/try-on/try-on.controller.ts:33-47 | accepted iff at most the maximum and every file passes the filter; a rejected file within the limit is "Only image files are allowed!" |
| Uploads.ScreenFrom | src/try-on/try-on.controller.ts:33-47 | the screen, from a position on |
| Uploads.ReferenceUrls | src/try-on/try-on.controller.ts:67 | one URL per file, in order |
| Uploads.UploadUserImages | src/try-on/try-on.controller.ts:32-70 | succeeds iff 1 to 5 files all with jpg/jpeg/png mimetypes; "No files uploaded" for none; one REFERENCE record with one "/uploads/try-on/user-ref-…" URL per file |
| Uploads.PrefixUserImages | src/try-on/try-on.controller.ts:75-79 | URLs starting with '/' get the base prefixed; others stay; length and order kept |
| Uploads.GenerateFromController | src/try-on/try-on.controller.ts:73-82 | garment URLs pass through untouched; a '/'-led user image is prefixed with the base |
| Uploads.BeforeFirstDot | src/products/admin-product/admin-product.controller.ts:20 | the text before the first '.' |
| Uploads.Sanitize | src/products/admin-product/admin-product.controller.ts:20 | every non-alphanumeric character becomes '-' |
| Uploads.HexToken | src/products/admin-product/admin-product.controller.ts:22 | the hex form of 0..16 is one or two alphanumeric characters, two only for 16 |
| Uploads.RandomName | src/products/admin-product/admin-product.controller.ts:22 | four tokens make 4 to 8 alphanumeric characters |
| Uploads.JoinedName | src/products/admin-product/admin-product.controller.ts:23 | "stem-random.ext" has the expected parts and length |
| Uploads.EditFileNameShape | src/products/admin-product/admin-product.controller.ts:19-24 | the name is the sanitised stem, '-', 4 to 8 random characters, then the extension |
| Uploads.AcceptedBySuffix | src/products/admin-product/admin-product.controller.ts:45 | acceptance depends only on the ending |
| Uploads.NoDotNotAccepted | src/products/admin-product/admin-product.controller.ts:45 | a name without '.' is refused |
| Uploads.ExtensionKept | src/products/admin-product/admin-product.controller.ts:21-23 | the stored name keeps the original's extension |
| Uploads.StoredNameAccepted | src/products/admin-product/admin-product.controller.ts:19-45 | an accepted original gives an accepted stored name |
| Uploads.BareExtName | src/products/admin-product/admin-product.controller.ts:21 | ".png" has no extension, as Node reads it |
| Uploads.NoExtNoDot | src/products/admin-product/admin-product.controller.ts:19-24 | without an extension the stored name has no '.' |
| Uploads.BareExtensionDropped | src/products/admin-product/admin-product.controller.ts:19-45 | an accepted bare ".png" is stored without any extension |
| Uploads.ImageUrlShape | src/products/admin-product/admin-product.controller.ts:72 | appUrl + "/uploads/" + the stored name, ending in the extension |
| Uploads.ImageUrls | src/products/admin-product/admin-product.controller.ts:72 | one URL per file, in order |
| Uploads.ProductImages | src/products/admin-product/admin-product.controller.ts:35-75 | accepted iff at most 10 files all ending in jpg/jpeg/png/webp; then one URL per file, in order; [] for none |
| Uploads.ArchiveProduct | src/products/admin-product/admin-product.controller.ts:107-110 | DELETE archives: NotFound for an unknown id; otherwise only that product becomes archived |

## Left out

- HTTP, the ORM and the query builder are replaced by pure functions over sequences. Foreign-key behaviour appears where a delete depends on it: the relations without an `ON DELETE` rule (an order's user and shipping address, an order item's variant, a try-on record's product) make Users.Delete, Addresses.Delete and Catalog.Delete fail while a referencing row exists; the referencing rows are given as sets of ids. The cascading relations (addresses, carts, favourites and try-on records of a user; a product's variants, carts and favourites; an order's items and timeline) are not otherwise modelled.
- Transactions and concurrency are not modelled. confirmPayment is all-or-nothing because it is a function, and the race between two concurrent confirmations is out of scope.
- Money is exact `real`. The source's floating-point arithmetic (prices, the 0.18 tax rate, `amount * 100`) and its rounding are not modelled.
- Time is an integer count of milliseconds. The estimated delivery date is `now` plus five days of milliseconds; `setDate` calendar arithmetic and time zones are not modelled.
- Users.Update: accounts carry no `createdAt` or `updatedAt` column, so the `updatedAt` stamp every update writes, including an empty one, is not visible in the model.
- External calls are parameters or oracle inputs: SHA-256, base64, JSON serialisation, bcrypt, uuid, `Math.random`, the fal.ai and PhonePe replies, and the clock. Each parameter gives the value the call returns.
- The Twilio SMS send and all logging are left out.
- Database ids are the next free number (`Common.NextId`) rather than a sequence, so deleted ids are never reused.
- DTO validation is a precondition of the members it guards, for example quantity ≥ 1 on add-to-cart and non-empty title and image URL on banners.
- The orders service imports its status enum from order.entity.ts, which lacks PLACED. The model uses the statuses of src/orders/order.enums.ts.
- src/orders/order.entity.ts is out of step with the orders service: it declares no itemsTotal, shippingCost, taxAmount, paymentType, estimatedDeliveryDate, deliveredAt or timeline relation and exports no PaymentType, all of which the service reads or writes. The model follows the service and gives Orders.Order those fields.
- Common.Lower lowers ASCII letters only; PostgreSQL's LOWER on other letters is not modelled.
- SqlLike.Like has no escape character: the default backslash escape of PostgreSQL's LIKE is not modelled, so for a keyword holding a backslash the model's match set differs from the database's.
- Uploads.Sanitize works per Dafny `char` (a Unicode scalar value); JavaScript's per-UTF-16-unit replacement, which turns a character outside the Basic Multilingual Plane into two '-', is not modelled: for such names the model's file name is one character shorter.
- VariantSync.SyncStock: `manager.update(Product, …)` also stamps the product's `@UpdateDateColumn`, which the model leaves unchanged. So after a variant change, or a stock decrement at payment, Catalog.FindTrending's ordering key is older in the model than in the database.
- VariantSync.SyncStock: the model reads the colours of the product's variants. The source looks them up with `manager.find(ProductVariant, { where: { productId } })`, which filters on a property ProductVariant does not declare, and the query may be refused rather than run. The re-syncing members therefore model the trigger's evident intent on both counts.
- VariantSync.InsertVariant, VariantSync.UpdateVariant, VariantSync.RemoveVariant, Orders.DecrementKeepsSynced and Orders.TakeKeepsSynced model the triggers as if they read the variant's product id; as written they read an undeclared property (see Findings), and that no-op is modelled separately by VariantSync.UpdateVariantAsWritten and VariantSync.RemoveVariantAsWritten.
- `findAllByUser` (src/orders/orders.service.ts:196-237) is not modelled.
- `findByPhoneNumber`, the category, brand and colour listings, and `products.create` are not modelled.
- `findAllVariants` and `addVariant` are called by admin-product.controller.ts but defined nowhere, so they are not modelled.
- The upload size limit of 5 MB is not modelled; files have no size.
- The 400 error in the poll loop builds a final message that is never stored, so it is left out. A reply without `detail` or `message` would crash `errorMessage.toString()`; that crash is not modelled.
- Attaching `addresses = []` to a new user, and the serializer hiding passwords, are presentation only and left out.
- The AdminJS panel is not modelled. Its owner filter compares against "SUPERADMIN" while the stored role value is "superadmin".
- Ties in sort keys are ordered by the stable insertion sort; the database's order for ties is unspecified.
- Orders.Decrement: its contract states only that ids and positions are kept; what it does to stock is stated by Orders.DecrementEffect and Orders.DecrementSucceedsIff.
- Orders.ConfirmPaymentOf: the success iff assumes item quantities ≥ 1 and unique variant ids, both of which the database guarantees.
- Catalog.FindAll: the controller parses page and limit with ParseIntPipe, so they reach the service as integers; its BadRequest for a non-integer is not modelled. minPrice and maxPrice also arrive as raw query strings, and the model takes them as parsed numbers. So it does not model the database error for non-numeric text, or that the string "0" is truthy and still applies its bound.
- Uploads.GenerateFromController: the model image is stated only for a '/'-led first user image under an http base.
- UriEncoding.EncodeURIComponent: lone surrogates are out of range of Dafny's `char`, so the URIError they raise is not modelled.

## Findings

| source | as written | input that shows it | evidently intended | confidence | as-written member | corrected member |
|---|---|---|---|---|---|---|
| src/orders/orders.service.ts:15,101-108 | `timelineRepo` is declared but never injected, so `this.timelineRepo.create` throws for every existing order | any existing order id and any status | append a timeline entry, save the order | not executed | Orders.UpdateStatusAsWritten | Orders.UpdateStatus |
| src/try-on/try-on.service.ts:186-190,197-201,222-223 | the attempt bound is checked only on ticks that do not throw, and TIMEOUT is written after a result in the same tick | an endless run of 404 replies; or 59 queued replies then COMPLETED with a URL | stop after 60 attempts whatever the replies, and keep a result reached on the last tick | not executed | TryOnPoll.NotFoundPollsForever | TryOnPoll.FixedPollEnds |
| src/try-on/try-on.service.ts:163-190 | a COMPLETED reply on attempt 60 is overwritten by TIMEOUT | 59 queued replies, then COMPLETED with an image | the record ends COMPLETED with the image | not executed | TryOnPoll.CompletedOnLastTickTimesOut | TryOnPoll.FixedCompletedOnLastTick |
| src/products/subscribers/product-variant.subscriber.ts:20,26,32 | the triggers read `productId`, which ProductVariant does not declare (it has only the `product` relation), so the id is undefined and `syncStock` returns at once | lower the only variant of product 1 from stock 5 to 3 | re-sync the variant's product after every change | not executed; plausible, since TypeORM may still populate an undeclared column property in some load paths | VariantSync.StockUpdateAsWrittenLeavesStaleStock | VariantSync.UpdateInPlacePreservesSynced |
| src/products/subscribers/product-variant.subscriber.ts:24-28 | even when the id is read, only the new product is re-synced on update | move the only variant of product 1 (stock 5) to product 2 | re-sync both the old and the new product | not executed; contingent on the id being read | VariantSync.MovedVariantLeavesStaleStock | VariantSync.UpdateResyncBothPreservesSynced |
| src/cart/cart.service.ts:28-53 | the lookup reads `size \|\| IsNull()`, so an empty size is searched as NULL while "" is stored | add the same product with size "" and a colour twice | the second add increments the existing line | not executed | Cart.EmptySizeAddedTwiceFails | Cart.EmptySizeAddedTwiceAccumulates |
| src/otp/otp.service.ts:15-17 | every send schedules a deletion and none is cancelled, so an earlier timer deletes a newer code | send at 0 ms, resend at 240000 ms, verify at 300000 ms | each code lives its own five minutes | not executed | Otp.EarlierTimerDeletesNewerCode | Otp.FixedCodeLivesFullLifetime |
| src/otp/otp.service.ts:27-30 | `savedOtp === otp` is `undefined === undefined` when the body omits `otp` and no code is stored, and verify-otp then logs the phone in | POST verify-otp with only a phone number that was never sent a code | refuse a request without a code | not executed | Otp.MissingOtpAcceptedWithoutCode | Otp.CheckedAgreesWhenPresent |

=== FILE: addresses.dfy ===
/** A user's shipping addresses, of which at most one is the default. */
module Addresses {
  import opened Common
  import opened Sorting

  /** The postal fields an address is created with. `addressLabel` is the
      entity's `label` column; `label` is a reserved word in Dafny. */
  datatype PostalFields = PostalFields(
    addressLabel: string,
    street: string,
    city: string,
    state: string,
    country: string,
    zipCode: string,
    phoneNumber: string)

  datatype Address = Address(id: nat, userId: nat, fields: PostalFields, isDefault: bool, createdAt: int)

  /** The create request; an omitted `isDefault` is `None`. */
  datatype CreateAddress = CreateAddress(fields: PostalFields, isDefault: Option<bool>)

  function AddressId(a: Address): nat {
    a.id
  }

  /** At most one default address per user. */
  predicate OneDefault(addrs: seq<Address>) {
    forall i, j :: 0 <= i < j < |addrs| && addrs[i].userId == addrs[j].userId ==>
      !(addrs[i].isDefault && addrs[j].isDefault)
  }

  function CountOwned(addrs: seq<Address>, userId: nat): (n: nat)
    ensures n == 0 <==> forall i :: 0 <= i < |addrs| ==> addrs[i].userId != userId
  {
    if |addrs| == 0 then 0
    else
      assert forall i :: 1 <= i < |addrs| ==> addrs[i] == addrs[1..][i - 1];
      (if addrs[0].userId == userId then 1 else 0) + CountOwned(addrs[1..], userId)
  }

  /** `update({ user }, { isDefault: false })` */
  function ClearDefaults(addrs: seq<Address>, userId: nat): (r: seq<Address>)
    ensures |r| == |addrs|
    ensures forall i :: 0 <= i < |addrs| ==>
              r[i] == (if addrs[i].userId == userId then addrs[i].(isDefault := false) else addrs[i])
  {
    if |addrs| == 0 then []
    else
      [if addrs[0].userId == userId then addrs[0].(isDefault := false) else addrs[0]]
      + ClearDefaults(addrs[1..], userId)
  }

  /** `create`: a user's first address is always the default; a default
      address takes the default flag from the user's other addresses. */
  function Create(addrs: seq<Address>, userId: nat, dto: CreateAddress, now: int): (r: (seq<Address>, Address))
    ensures var (table, a) := r;
            && |table| == |addrs| + 1 && table[|addrs|] == a
            && a.userId == userId && a.fields == dto.fields && a.createdAt == now
            && (forall i :: 0 <= i < |addrs| ==> addrs[i].id != a.id)
            && (a.isDefault <==> CountOwned(addrs, userId) == 0 || dto.isDefault == Some(true))
            && (forall i :: 0 <= i < |addrs| ==>
                  table[i] == (if a.isDefault && addrs[i].userId == userId then addrs[i].(isDefault := false) else addrs[i]))
  {
    var isDefault := if CountOwned(addrs, userId) == 0 then true else dto.isDefault == Some(true);
    var base := if isDefault then ClearDefaults(addrs, userId) else addrs;
    var a := Address(NextId(addrs, AddressId), userId, dto.fields, isDefault, now);
    (base + [a], a)
  }

  lemma CreateKeepsOneDefault(addrs: seq<Address>, userId: nat, dto: CreateAddress, now: int)
    requires OneDefault(addrs)
    ensures OneDefault(Create(addrs, userId, dto, now).0)
  {
    var (table, a) := Create(addrs, userId, dto, now);
    forall i, j | 0 <= i < j < |table| && table[i].userId == table[j].userId
      ensures !(table[i].isDefault && table[j].isDefault)
    {
      if j < |addrs| {
        assert addrs[i].userId == addrs[j].userId;
      }
    }
  }

  /** The first address a user creates is their default. */
  lemma FirstAddressIsDefault(addrs: seq<Address>, userId: nat, dto: CreateAddress, now: int)
    requires forall i :: 0 <= i < |addrs| ==> addrs[i].userId != userId
    ensures Create(addrs, userId, dto, now).1.isDefault
  {
  }

  /** `findOne(addressId, userId)`: the address only when the user owns it. */
  function FindOne(addrs: seq<Address>, addressId: int, userId: nat): (r: Option<nat>)
    ensures r.Some? ==> r.value < |addrs| && addrs[r.value].id == addressId && addrs[r.value].userId == userId
    ensures r.None? <==> forall i :: 0 <= i < |addrs| ==> !(addrs[i].id == addressId && addrs[i].userId == userId)
  {
    if |addrs| == 0 then None
    else if addrs[0].id == addressId && addrs[0].userId == userId then Some(0)
    else
      match FindOne(addrs[1..], addressId, userId)
      case Some(i) => Some(i + 1)
      case None =>
        assert forall i :: 1 <= i < |addrs| ==> addrs[i] == addrs[1..][i - 1];
        None
  }

  /** `setDefault`: the owned address becomes the user's only default. */
  function SetDefault(addrs: seq<Address>, userId: nat, addressId: int): (r: Result<seq<Address>>)
    ensures r.Err? <==> FindOne(addrs, addressId, userId).None?
    ensures r.Err? ==> r.error == NotFound("Address not found")
    ensures r.Ok? ==> |r.value| == |addrs|
    ensures r.Ok? ==> forall i :: 0 <= i < |addrs| ==>
              && r.value[i].userId == addrs[i].userId && r.value[i].id == addrs[i].id
              && r.value[i].fields == addrs[i].fields
              && (addrs[i].userId != userId ==> r.value[i] == addrs[i])
              && (addrs[i].userId == userId ==> (r.value[i].isDefault <==> i == FindOne(addrs, addressId, userId).value))
  {
    match FindOne(addrs, addressId, userId)
    case None => Err(NotFound("Address not found"))
    case Some(i) =>
      var cleared := ClearDefaults(addrs, userId);
      Ok(cleared[i := addrs[i].(isDefault := true)])
  }

  lemma SetDefaultKeepsOneDefault(addrs: seq<Address>, userId: nat, addressId: int)
    requires OneDefault(addrs)
    requires SetDefault(addrs, userId, addressId).Ok?
    ensures OneDefault(SetDefault(addrs, userId, addressId).value)
  {
    var r := SetDefault(addrs, userId, addressId).value;
    forall i, j | 0 <= i < j < |r| && r[i].userId == r[j].userId
      ensures !(r[i].isDefault && r[j].isDefault)
    {
      assert addrs[i].userId == addrs[j].userId;
    }
  }

  /** `delete`: removes the address if the user owns it; otherwise nothing
      changes and no error is raised. An order's `shippingAddress` column
      references the address with no `ON DELETE` rule, so the database
      refuses to delete an address some order was shipped to; `shippedTo`
      holds the ids of those addresses. */
  function Delete(addrs: seq<Address>, userId: nat, addressId: int, shippedTo: set<nat>): (r: Result<seq<Address>>)
    ensures r.Err? <==> FindOne(addrs, addressId, userId).Some? && addressId >= 0 && addressId as nat in shippedTo
    ensures r.Err? ==> r.error == ForeignKeyViolation
    ensures r.Ok? ==> forall a :: a in r.value <==> a in addrs && !(a.id == addressId && a.userId == userId)
    ensures FindOne(addrs, addressId, userId).None? ==> r == Ok(addrs)
  {
    if FindOne(addrs, addressId, userId).Some? && addressId >= 0 && addressId as nat in shippedTo then
      Err(ForeignKeyViolation)
    else
      var keep := (a: Address) => !(a.id == addressId && a.userId == userId);
      var r := Filter(addrs, keep);
      assert FindOne(addrs, addressId, userId).None? ==> r == addrs by {
        if FindOne(addrs, addressId, userId).None? {
          FilterAll(addrs, keep);
        }
      }
      Ok(r)
  }

  /** An address no order was shipped to can always be deleted; one that an
      order was shipped to cannot, while the orders exist. */
  lemma DeleteRefusedWhileShipped(addrs: seq<Address>, userId: nat, i: nat)
    requires i < |addrs| && addrs[i].userId == userId
    ensures Delete(addrs, userId, addrs[i].id, {addrs[i].id}) == Err(ForeignKeyViolation)
    ensures Delete(addrs, userId, addrs[i].id, {}).Ok?
    ensures addrs[i] !in Delete(addrs, userId, addrs[i].id, {}).value
  {
    assert FindOne(addrs, addrs[i].id, userId).Some?;
  }

  // ---------------------------------------------------------------------
  // Listing
  // ---------------------------------------------------------------------

  function NewestFirst(): Address -> real {
    (a: Address) => -(a.createdAt as real)
  }

  /** `ORDER BY isDefault DESC, createdAt DESC` */
  predicate ListedBefore(a: Address, b: Address) {
    (a.isDefault && !b.isDefault) || (a.isDefault == b.isDefault && a.createdAt >= b.createdAt)
  }

  /** `findAll(userId)`: the user's addresses, the default first, then
      newest first. */
  function FindAll(addrs: seq<Address>, userId: nat): (r: seq<Address>)
    ensures multiset(r) == multiset(Filter(addrs, (a: Address) => a.userId == userId))
    ensures forall i, j :: 0 <= i < j < |r| ==> ListedBefore(r[i], r[j])
  {
    var mine := Filter(addrs, (a: Address) => a.userId == userId);
    var (d, o) := Partition(mine, (a: Address) => a.isDefault);
    var defaults := SortBy(d, NewestFirst());
    var others := SortBy(o, NewestFirst());
    SameElements(defaults, d);
    SameElements(others, o);
    GroupsListed(defaults, others);
    defaults + others
  }

  lemma GroupsListed(defaults: seq<Address>, others: seq<Address>)
    requires forall a :: a in defaults ==> a.isDefault
    requires forall a :: a in others ==> !a.isDefault
    requires SortedBy(defaults, NewestFirst()) && SortedBy(others, NewestFirst())
    ensures forall i, j :: 0 <= i < j < |defaults + others| ==> ListedBefore((defaults + others)[i], (defaults + others)[j])
  {
    var r := defaults + others;
    forall i, j | 0 <= i < j < |r| ensures ListedBefore(r[i], r[j]) {
      if j < |defaults| {
        assert NewestFirst()(defaults[i]) <= NewestFirst()(defaults[j]);
      } else if i >= |defaults| {
        assert NewestFirst()(others[i - |defaults|]) <= NewestFirst()(others[j - |defaults|]);
      } else {
        assert r[i] in defaults && r[j] in others;
      }
    }
  }
}

=== FILE: banners.dfy ===
/** Home-screen banners: created with column defaults, listed by display
    order (only the active ones for the app, all of them for admins), and
    updated or removed by id. */
module Banners {
  import opened Common
  import opened Sorting

  datatype Banner = Banner(
    id: nat,
    title: string,
    subtitle: Option<string>,
    imageUrl: string,
    redirectUrl: string,
    isActive: bool,
    displayOrder: int,
    createdAt: int,
    updatedAt: int)

  /** The create form; absent optional fields take the column defaults. */
  datatype CreateBanner = CreateBanner(
    title: string,
    subtitle: Option<string>,
    imageUrl: string,
    redirectUrl: Option<string>,
    isActive: Option<bool>,
    displayOrder: Option<int>)

  /** The form's validation: title and image URL are non-empty. */
  predicate ValidCreate(dto: CreateBanner) {
    dto.title != "" && dto.imageUrl != ""
  }

  function BannerId(b: Banner): nat {
    b.id
  }

  function Or<T>(o: Option<T>, default: T): T {
    if o.Some? then o.value else default
  }

  /** `create`: the form's fields, with redirect "/", active, and display
      order 0 where the form leaves them out. */
  function Create(banners: seq<Banner>, dto: CreateBanner, now: int): (r: (seq<Banner>, Banner))
    requires ValidCreate(dto)
    ensures r.0 == banners + [r.1]
    ensures forall i :: 0 <= i < |banners| ==> banners[i].id != r.1.id
    ensures r.1.title == dto.title && r.1.subtitle == dto.subtitle && r.1.imageUrl == dto.imageUrl
    ensures dto.redirectUrl.None? ==> r.1.redirectUrl == "/"
    ensures dto.isActive.None? ==> r.1.isActive
    ensures dto.displayOrder.None? ==> r.1.displayOrder == 0
    ensures dto.redirectUrl.Some? ==> r.1.redirectUrl == dto.redirectUrl.value
    ensures dto.isActive.Some? ==> r.1.isActive == dto.isActive.value
    ensures dto.displayOrder.Some? ==> r.1.displayOrder == dto.displayOrder.value
  {
    var b := Banner(NextId(banners, BannerId), dto.title, dto.subtitle, dto.imageUrl,
                    Or(dto.redirectUrl, "/"), Or(dto.isActive, true), Or(dto.displayOrder, 0), now, now);
    (banners + [b], b)
  }

  function ByDisplayOrder(): Banner -> real {
    (b: Banner) => b.displayOrder as real
  }

  /** `findAllAdmin`: every banner, by display order ascending. */
  function FindAllAdmin(banners: seq<Banner>): (r: seq<Banner>)
    ensures multiset(r) == multiset(banners)
    ensures forall i, j :: 0 <= i < j < |r| ==> r[i].displayOrder <= r[j].displayOrder
  {
    var sorted := SortBy(banners, ByDisplayOrder());
    assert forall i, j :: 0 <= i < j < |sorted| ==> ByDisplayOrder()(sorted[i]) <= ByDisplayOrder()(sorted[j]);
    sorted
  }

  /** `findAllActive`: the active banners only, all of them, by display
      order ascending. */
  function FindAllActive(banners: seq<Banner>): (r: seq<Banner>)
    ensures forall b :: b in r <==> b in banners && b.isActive
    ensures multiset(r) == multiset(Filter(banners, (b: Banner) => b.isActive))
    ensures forall i, j :: 0 <= i < j < |r| ==> r[i].displayOrder <= r[j].displayOrder
  {
    var active := Filter(banners, (b: Banner) => b.isActive);
    var sorted := FindAllAdmin(active);
    SameElements(sorted, active);
    sorted
  }

  /** The app's list is the admin's list with the hidden banners taken out:
      the same banners, when every banner is active. */
  lemma ActiveIsAdminWhenAllActive(banners: seq<Banner>)
    requires forall i :: 0 <= i < |banners| ==> banners[i].isActive
    ensures multiset(FindAllActive(banners)) == multiset(FindAllAdmin(banners))
  {
    FilterAll(banners, (b: Banner) => b.isActive);
  }

  /** The fields an update may send; `None` for a field left out. */
  datatype BannerPatch = BannerPatch(
    title: Option<string>,
    subtitle: Option<string>,
    imageUrl: Option<string>,
    redirectUrl: Option<string>,
    isActive: Option<bool>,
    displayOrder: Option<int>)

  /** `Object.assign(banner, attrs)`: each supplied field overwrites, the
      others stay; saving stamps `updatedAt`. */
  function Assign(b: Banner, p: BannerPatch, now: int): (r: Banner)
    ensures r.id == b.id && r.createdAt == b.createdAt && r.updatedAt == now
    ensures r.title == Or(p.title, b.title) && r.imageUrl == Or(p.imageUrl, b.imageUrl)
    ensures r.subtitle == (if p.subtitle.Some? then p.subtitle else b.subtitle)
    ensures r.redirectUrl == Or(p.redirectUrl, b.redirectUrl)
    ensures r.isActive == Or(p.isActive, b.isActive) && r.displayOrder == Or(p.displayOrder, b.displayOrder)
  {
    b.(title := Or(p.title, b.title),
       subtitle := if p.subtitle.Some? then p.subtitle else b.subtitle,
       imageUrl := Or(p.imageUrl, b.imageUrl),
       redirectUrl := Or(p.redirectUrl, b.redirectUrl),
       isActive := Or(p.isActive, b.isActive),
       displayOrder := Or(p.displayOrder, b.displayOrder),
       updatedAt := now)
  }

  predicate HasBanner(banners: seq<Banner>, id: int) {
    exists i :: 0 <= i < |banners| && banners[i].id == id
  }

  function FindBanner(banners: seq<Banner>, id: int): (r: Option<nat>)
    ensures r.Some? ==> r.value < |banners| && banners[r.value].id == id
    ensures r.Some? ==> forall i :: 0 <= i < r.value ==> banners[i].id != id
    ensures r.None? <==> !HasBanner(banners, id)
  {
    if |banners| == 0 then None
    else if banners[0].id == id then Some(0)
    else
      match FindBanner(banners[1..], id)
      case Some(i) =>
        assert forall k :: 1 <= k <= i ==> banners[k] == banners[1..][k - 1];
        Some(i + 1)
      case None =>
        assert forall k :: 1 <= k < |banners| ==> banners[k] == banners[1..][k - 1];
        None
  }

  /** `update`: an unknown id is not found; otherwise only that banner
      changes, and only in the supplied fields. */
  function Update(banners: seq<Banner>, id: int, p: BannerPatch, now: int): (r: Result<(seq<Banner>, Banner)>)
    ensures r.Ok? <==> HasBanner(banners, id)
    ensures r.Err? ==> r.error == NotFound("Banner not found")
    ensures r.Ok? ==> var k := FindBanner(banners, id).value;
              && |r.value.0| == |banners|
              && r.value.1 == Assign(banners[k], p, now)
              && r.value.0[k] == r.value.1
              && (forall i :: 0 <= i < |banners| && i != k ==> r.value.0[i] == banners[i])
  {
    match FindBanner(banners, id)
    case None => Err(NotFound("Banner not found"))
    case Some(k) =>
      var b := Assign(banners[k], p, now);
      Ok((banners[k := b], b))
  }

  /** `remove`: an unknown id is not found; otherwise exactly the banner
      found is taken out and the rest keep their order. */
  function Remove(banners: seq<Banner>, id: int): (r: Result<seq<Banner>>)
    ensures r.Ok? <==> HasBanner(banners, id)
    ensures r.Err? ==> r.error == NotFound("Banner not found")
    ensures r.Ok? ==> var k := FindBanner(banners, id).value;
              && |r.value| == |banners| - 1
              && multiset(r.value) + multiset{banners[k]} == multiset(banners)
              && r.value == banners[..k] + banners[k + 1..]
  {
    match FindBanner(banners, id)
    case None => Err(NotFound("Banner not found"))
    case Some(k) =>
      assert banners == banners[..k] + [banners[k]] + banners[k + 1..];
      Ok(banners[..k] + banners[k + 1..])
  }

  /** A created banner can be found by its new id and removed again,
      giving back the table as it was. */
  lemma {:induction false} CreateThenRemove(banners: seq<Banner>, dto: CreateBanner, now: int)
    requires ValidCreate(dto)
    ensures var c := Create(banners, dto, now);
            Remove(c.0, c.1.id) == Ok(banners)
  {
    var c := Create(banners, dto, now);
    assert c.0[|banners|].id == c.1.id;
    assert HasBanner(c.0, c.1.id);
    assert forall i :: 0 <= i < |banners| ==> c.0[i].id != c.1.id;
    var k := FindBanner(c.0, c.1.id).value;
    assert k == |banners|;
    assert c.0[..k] == banners;
    assert c.0[k + 1..] == [];
    var r := Remove(c.0, c.1.id);
    assert r.Ok? && r.value == c.0[..k] + c.0[k + 1..];
    assert c.0[..k] + c.0[k + 1..] == banners;
  }
}

=== FILE: cart.dfy ===
/** The shopping cart: one row per user, product, size and colour, with a
    quantity checked against the product's aggregate stock. */
module Cart {
  import opened Common
  import opened Sorting
  import opened Catalog

  /** A cart row. `size`/`color` are nullable columns: `None` is SQL NULL,
      which is what an omitted field in the request stores. */
  datatype CartLine = CartLine(
    id: nat,
    userId: nat,
    productId: nat,
    quantity: int,
    size: Option<string>,
    color: Option<string>,
    createdAt: int)

  /** The add-to-cart request body after validation. */
  datatype AddToCart = AddToCart(productId: int, quantity: int, size: Option<string>, color: Option<string>)

  /** The columns of the `UNIQUE (user, product, size, color)` constraint. */
  datatype LineKey = LineKey(userId: nat, productId: int, size: Option<string>, color: Option<string>)

  function KeyOf(l: CartLine): LineKey {
    LineKey(l.userId, l.productId, l.size, l.color)
  }

  function LineId(l: CartLine): nat {
    l.id
  }

  /** No two rows share a key: one row per variation of a product. */
  predicate KeyUnique(lines: seq<CartLine>) {
    forall i, j :: 0 <= i < j < |lines| ==> KeyOf(lines[i]) != KeyOf(lines[j])
  }

  predicate IdsUnique(lines: seq<CartLine>) {
    forall i, j :: 0 <= i < j < |lines| ==> lines[i].id != lines[j].id
  }

  /** Units of the variation `k` in the table, over all its rows. */
  function Held(lines: seq<CartLine>, k: LineKey): int {
    if |lines| == 0 then 0
    else (if KeyOf(lines[0]) == k then lines[0].quantity else 0) + Held(lines[1..], k)
  }

  // ---------------------------------------------------------------------
  // Add to cart
  // ---------------------------------------------------------------------

  /** `x || IsNull()` in a `where` clause: a falsy value selects NULL. */
  function OrNull(v: Option<string>): Option<string> {
    if v.Some? && v.value != "" then v else None
  }

  /** The row the service looks for, as written: an empty size or colour
      is searched as NULL although it is stored as "". */
  function LookupKeyAsWritten(userId: nat, dto: AddToCart): LineKey {
    LineKey(userId, dto.productId, OrNull(dto.size), OrNull(dto.color))
  }

  /** The row the service looks for: the key of the row it would create. */
  function LookupKey(userId: nat, dto: AddToCart): LineKey {
    LineKey(userId, dto.productId, dto.size, dto.color)
  }

  /** First row with key `k`. */
  function FindLine(lines: seq<CartLine>, k: LineKey): (r: Option<nat>)
    ensures r.Some? ==> r.value < |lines| && KeyOf(lines[r.value]) == k
    ensures r.None? <==> forall i :: 0 <= i < |lines| ==> KeyOf(lines[i]) != k
  {
    if |lines| == 0 then None
    else if KeyOf(lines[0]) == k then Some(0)
    else
      match FindLine(lines[1..], k)
      case Some(i) => Some(i + 1)
      case None =>
        assert forall i :: 1 <= i < |lines| ==> lines[i] == lines[1..][i - 1];
        None
  }

  /** PostgreSQL treats NULLs as distinct, so two rows violate the unique
      constraint only when all four columns are non-null and equal. */
  predicate Clash(a: LineKey, b: LineKey) {
    a == b && a.size.Some? && a.color.Some?
  }

  /** `INSERT` under the unique constraint. */
  function InsertLine(lines: seq<CartLine>, l: CartLine): (r: Result<seq<CartLine>>)
    ensures r.Ok? <==> forall i :: 0 <= i < |lines| ==> !Clash(KeyOf(lines[i]), KeyOf(l))
    ensures r.Ok? ==> r.value == lines + [l]
    ensures r.Err? ==> r.error.InternalError?
  {
    if exists i :: 0 <= i < |lines| && Clash(KeyOf(lines[i]), KeyOf(l)) then
      Err(InternalError("duplicate key value violates unique constraint"))
    else Ok(lines + [l])
  }

  function AddWithLookup(lines: seq<CartLine>, products: seq<Product>, userId: nat, dto: AddToCart, now: int, key: LineKey)
    : (r: Result<(seq<CartLine>, CartLine)>)
  {
    var product :- FindOne(products, dto.productId);
    if product.stock < dto.quantity then
      Err(BadRequest("Not enough stock. Only " + IntToString(product.stock) + " left."))
    else
      match FindLine(lines, key)
      case Some(i) =>
        var q := lines[i].quantity + dto.quantity;
        if product.stock < q then Err(BadRequest("Cannot add more. Limit reached."))
        else
          var l := lines[i].(quantity := q);
          Ok((lines[i := l], l))
      case None =>
        var l := CartLine(NextId(lines, LineId), userId, product.id, dto.quantity, dto.size, dto.color, now);
        var t :- InsertLine(lines, l);
        Ok((t, l))
  }

  /** `addOrUpdateCart` as written: the lookup turns "" into NULL. */
  function AddOrUpdateAsWritten(lines: seq<CartLine>, products: seq<Product>, userId: nat, dto: AddToCart, now: int)
    : (r: Result<(seq<CartLine>, CartLine)>)
    requires dto.quantity >= 1
    ensures r.Err? && r.error.NotFound? <==> !HasProduct(products, dto.productId)
    ensures dto.size != Some("") && dto.color != Some("") ==> r == AddOrUpdate(lines, products, userId, dto, now)
  {
    AddWithLookup(lines, products, userId, dto, now, LookupKeyAsWritten(userId, dto))
  }

  function StockOf(products: seq<Product>, id: int): int
    requires HasProduct(products, id)
  {
    FindProduct(products, id).value.stock
  }

  /** `addOrUpdateCart`: adds `dto.quantity` units of one variation of a
      product to the user's cart, creating its row on first use, refusing
      to hold more units than the product has in stock. */
  function AddOrUpdate(lines: seq<CartLine>, products: seq<Product>, userId: nat, dto: AddToCart, now: int)
    : (r: Result<(seq<CartLine>, CartLine)>)
    requires dto.quantity >= 1
    ensures r.Err? && r.error.NotFound? <==> !HasProduct(products, dto.productId)
    ensures KeyUnique(lines) && HasProduct(products, dto.productId) ==>
              (r.Ok? <==> var stock := StockOf(products, dto.productId);
                          dto.quantity <= stock && Held(lines, LookupKey(userId, dto)) + dto.quantity <= stock)
    ensures KeyUnique(lines) ==> !(r.Err? && r.error.InternalError?)
    ensures KeyUnique(lines) && r.Ok? ==> KeyUnique(r.value.0)
    ensures r.Ok? ==> forall k :: (Held(r.value.0, k) ==
              Held(lines, k) + (if k == LookupKey(userId, dto) then dto.quantity else 0))
    ensures r.Ok? ==> r.value.1 in r.value.0 && KeyOf(r.value.1) == LookupKey(userId, dto)
    ensures r.Ok? ==> r.value.1.quantity <= StockOf(products, dto.productId)
  {
    AddFacts(lines, products, userId, dto, now);
    AddWithLookup(lines, products, userId, dto, now, LookupKey(userId, dto))
  }

  lemma {:induction false} HeldAppend(lines: seq<CartLine>, l: CartLine, k: LineKey)
    ensures Held(lines + [l], k) == Held(lines, k) + (if KeyOf(l) == k then l.quantity else 0)
    decreases |lines|
  {
    if |lines| == 0 {
      assert [l][1..] == [];
    } else {
      assert (lines + [l])[1..] == lines[1..] + [l];
      HeldAppend(lines[1..], l, k);
    }
  }

  lemma {:induction false} HeldUpdate(lines: seq<CartLine>, i: nat, l: CartLine, k: LineKey)
    requires i < |lines| && KeyOf(l) == KeyOf(lines[i])
    ensures Held(lines[i := l], k) == Held(lines, k) + (if KeyOf(l) == k then l.quantity - lines[i].quantity else 0)
    decreases i
  {
    if i > 0 {
      assert lines[i := l][1..] == lines[1..][i - 1 := l];
      HeldUpdate(lines[1..], i - 1, l, k);
    } else {
      assert lines[i := l][1..] == lines[1..];
    }
  }

  lemma {:induction false} HeldUnique(lines: seq<CartLine>, i: nat)
    requires KeyUnique(lines) && i < |lines|
    ensures Held(lines, KeyOf(lines[i])) == lines[i].quantity
    decreases i
  {
    if i > 0 {
      assert lines[i] == lines[1..][i - 1];
      HeldUnique(lines[1..], i - 1);
    } else {
      forall j | 0 <= j < |lines[1..]| ensures KeyOf(lines[1..][j]) != KeyOf(lines[0]) {
        assert lines[1..][j] == lines[j + 1];
      }
      HeldAbsent(lines[1..], KeyOf(lines[0]));
    }
  }

  lemma {:induction false} HeldAbsent(lines: seq<CartLine>, k: LineKey)
    requires forall i :: 0 <= i < |lines| ==> KeyOf(lines[i]) != k
    ensures Held(lines, k) == 0
    decreases |lines|
  {
    if |lines| > 0 {
      HeldAbsent(lines[1..], k);
    }
  }

  /** The table after a successful add differs from the one before by
      `dto.quantity` units of the requested variation, within stock. */
  ghost predicate AddSucceeded(lines: seq<CartLine>, products: seq<Product>, userId: nat, dto: AddToCart,
                               out: (seq<CartLine>, CartLine))
  {
    && (forall k :: Held(out.0, k) == Held(lines, k) + (if k == LookupKey(userId, dto) then dto.quantity else 0))
    && out.1 in out.0 && KeyOf(out.1) == LookupKey(userId, dto)
    && HasProduct(products, dto.productId)
    && out.1.quantity <= StockOf(products, dto.productId)
    && (KeyUnique(lines) ==> KeyUnique(out.0))
  }

  lemma AddFacts(lines: seq<CartLine>, products: seq<Product>, userId: nat, dto: AddToCart, now: int)
    requires dto.quantity >= 1
    ensures var r := AddWithLookup(lines, products, userId, dto, now, LookupKey(userId, dto));
            && (r.Err? && r.error.NotFound? <==> !HasProduct(products, dto.productId))
            && (KeyUnique(lines) && HasProduct(products, dto.productId) ==>
                  (r.Ok? <==> var stock := StockOf(products, dto.productId);
                              dto.quantity <= stock && Held(lines, LookupKey(userId, dto)) + dto.quantity <= stock))
            && (KeyUnique(lines) ==> !(r.Err? && r.error.InternalError?))
            && (r.Ok? ==> AddSucceeded(lines, products, userId, dto, r.value))
  {
    var key := LookupKey(userId, dto);
    var r := AddWithLookup(lines, products, userId, dto, now, key);
    if r.Ok? {
      AddChangesOneKey(lines, products, userId, dto, now);
    }
    if KeyUnique(lines) && HasProduct(products, dto.productId) {
      match FindLine(lines, key)
      case Some(i) => HeldUnique(lines, i);
      case None => HeldAbsent(lines, key);
    }
  }

  /** What the add does to the table, when it succeeds. */
  lemma AddChangesOneKey(lines: seq<CartLine>, products: seq<Product>, userId: nat, dto: AddToCart, now: int)
    requires AddWithLookup(lines, products, userId, dto, now, LookupKey(userId, dto)).Ok?
    ensures AddSucceeded(lines, products, userId, dto, AddWithLookup(lines, products, userId, dto, now, LookupKey(userId, dto)).value)
  {
    var key := LookupKey(userId, dto);
    var r := AddWithLookup(lines, products, userId, dto, now, key);
    match FindLine(lines, key)
    case Some(i) =>
      forall k ensures Held(r.value.0, k) == Held(lines, k) + (if k == key then dto.quantity else 0) {
        HeldUpdate(lines, i, r.value.1, k);
      }
      assert r.value.0[i] == r.value.1;
    case None =>
      forall k ensures Held(r.value.0, k) == Held(lines, k) + (if k == key then dto.quantity else 0) {
        HeldAppend(lines, r.value.1, k);
      }
      assert r.value.0[|lines|] == r.value.1;
  }

  // ---------------------------------------------------------------------
  // Cart summary
  // ---------------------------------------------------------------------

  /** A row with its eagerly loaded product. */
  datatype CartItem = CartItem(line: CartLine, product: Product)

  datatype Summary = Summary(items: seq<CartItem>, totalAmount: real, totalItems: int)

  function OwnedBy(userId: nat): CartLine -> bool {
    (l: CartLine) => l.userId == userId
  }

  /** `where: { user: { id } }` */
  function UserLines(lines: seq<CartLine>, userId: nat): seq<CartLine> {
    Filter(lines, OwnedBy(userId))
  }

  /** What a row contributes to the total: nothing while its product is archived. */
  function LineAmount(products: seq<Product>): CartLine -> real {
    (l: CartLine) =>
      match FindProduct(products, l.productId)
      case Some(p) => if p.isArchived then 0.0 else p.price * l.quantity as real
      case None => 0.0
  }

  function LineQuantity(l: CartLine): int {
    l.quantity
  }

  function NewestFirst(): CartLine -> real {
    (l: CartLine) => -(l.createdAt as real)
  }

  function LinesOf(items: seq<CartItem>): (r: seq<CartLine>)
    ensures |r| == |items|
    ensures forall i :: 0 <= i < |items| ==> r[i] == items[i].line
  {
    if |items| == 0 then [] else [items[0].line] + LinesOf(items[1..])
  }

  /** Loads each row's product; a row whose product is gone cannot be loaded. */
  function Join(lines: seq<CartLine>, products: seq<Product>): (r: Result<seq<CartItem>>)
    ensures r.Ok? <==> forall i :: 0 <= i < |lines| ==> HasProduct(products, lines[i].productId)
    ensures r.Err? ==> r.error.InternalError?
    ensures r.Ok? ==> LinesOf(r.value) == lines
    ensures r.Ok? ==> forall i :: 0 <= i < |lines| ==>
              r.value[i].product in products && r.value[i].product.id == lines[i].productId
              && Some(r.value[i].product) == FindProduct(products, lines[i].productId)
  {
    if |lines| == 0 then Ok([])
    else
      match FindProduct(products, lines[0].productId)
      case None => Err(InternalError("Cannot read properties of null (reading 'isArchived')"))
      case Some(p) =>
        var rest := Join(lines[1..], products);
        assert forall i :: 1 <= i < |lines| ==> lines[i] == lines[1..][i - 1];
        if rest.Err? then rest
        else
          var items := [CartItem(lines[0], p)] + rest.value;
          assert items[1..] == rest.value;
          assert LinesOf(items) == [lines[0]] + lines[1..];
          Ok(items)
  }

  /** The two `reduce` calls over the loaded items. */
  function ItemsAmount(items: seq<CartItem>): real {
    if |items| == 0 then 0.0
    else (if items[0].product.isArchived then 0.0 else items[0].product.price * items[0].line.quantity as real)
         + ItemsAmount(items[1..])
  }

  function ItemsCount(items: seq<CartItem>): int {
    if |items| == 0 then 0 else items[0].line.quantity + ItemsCount(items[1..])
  }

  /** The user's rows, newest first. */
  function CartOrder(lines: seq<CartLine>, userId: nat): seq<CartLine> {
    SortBy(UserLines(lines, userId), NewestFirst())
  }

  function SummaryFrom(sorted: seq<CartLine>, products: seq<Product>): Result<Summary> {
    var items :- Join(sorted, products);
    Ok(Summary(items, ItemsAmount(items), ItemsCount(items)))
  }

  function SummaryOf(lines: seq<CartLine>, products: seq<Product>, userId: nat): Result<Summary> {
    SummaryFrom(CartOrder(lines, userId), products)
  }

  /** `getCartSummary`: the user's rows newest first with their products;
      `totalAmount` prices every row whose product is not archived and
      `totalItems` counts the units of every row. */
  function GetCartSummary(lines: seq<CartLine>, products: seq<Product>, userId: nat): (r: Result<Summary>)
    ensures r.Ok? <==> forall l :: l in UserLines(lines, userId) ==> HasProduct(products, l.productId)
    ensures r.Err? ==> r.error.InternalError?
    ensures r.Ok? ==> multiset(LinesOf(r.value.items)) == multiset(UserLines(lines, userId))
    ensures r.Ok? ==> forall i, j :: 0 <= i < j < |r.value.items| ==>
              r.value.items[i].line.createdAt >= r.value.items[j].line.createdAt
    ensures r.Ok? ==> r.value.totalAmount == SumReal(UserLines(lines, userId), LineAmount(products))
    ensures r.Ok? ==> r.value.totalItems == SumInt(UserLines(lines, userId), LineQuantity)
  {
    SummaryFacts(lines, products, userId);
    SummaryOf(lines, products, userId)
  }

  lemma SummaryFacts(lines: seq<CartLine>, products: seq<Product>, userId: nat)
    ensures var r := SummaryOf(lines, products, userId);
            && (r.Ok? <==> forall l :: l in UserLines(lines, userId) ==> HasProduct(products, l.productId))
            && (r.Err? ==> r.error.InternalError?)
            && (r.Ok? ==> multiset(LinesOf(r.value.items)) == multiset(UserLines(lines, userId)))
            && (r.Ok? ==> forall i, j :: 0 <= i < j < |r.value.items| ==>
                  r.value.items[i].line.createdAt >= r.value.items[j].line.createdAt)
            && (r.Ok? ==> r.value.totalAmount == SumReal(UserLines(lines, userId), LineAmount(products)))
            && (r.Ok? ==> r.value.totalItems == SumInt(UserLines(lines, userId), LineQuantity))
  {
    SortedSummaryFacts(UserLines(lines, userId), CartOrder(lines, userId), products);
  }

  /** The summary of any newest-first arrangement of the user's rows. */
  lemma SortedSummaryFacts(mine: seq<CartLine>, sorted: seq<CartLine>, products: seq<Product>)
    requires multiset(sorted) == multiset(mine) && SortedBy(sorted, NewestFirst())
    ensures var r := SummaryFrom(sorted, products);
            && (r.Ok? <==> forall l :: l in mine ==> HasProduct(products, l.productId))
            && (r.Err? ==> r.error.InternalError?)
            && (r.Ok? ==> multiset(LinesOf(r.value.items)) == multiset(mine))
            && (r.Ok? ==> forall i, j :: 0 <= i < j < |r.value.items| ==>
                  r.value.items[i].line.createdAt >= r.value.items[j].line.createdAt)
            && (r.Ok? ==> r.value.totalAmount == SumReal(mine, LineAmount(products)))
            && (r.Ok? ==> r.value.totalItems == SumInt(mine, LineQuantity))
  {
    SameElements(sorted, mine);
    var items := Join(sorted, products);
    if items.Ok? {
      JoinedRows(sorted, products, items.value);
      SummaryTotals(sorted, products, items.value);
      SumPermutation(sorted, mine, LineAmount(products), LineQuantity);
      JoinedNewestFirst(sorted, items.value);
    } else {
      var i :| 0 <= i < |sorted| && !HasProduct(products, sorted[i].productId);
      assert sorted[i] in mine;
    }
  }

  /** Each loaded item is its row with that row's product. */
  lemma JoinedRows(ls: seq<CartLine>, products: seq<Product>, items: seq<CartItem>)
    requires Join(ls, products) == Ok(items)
    ensures |items| == |ls|
    ensures forall i :: 0 <= i < |ls| ==> items[i].line == ls[i] && Some(items[i].product) == FindProduct(products, ls[i].productId)
  {
    assert |LinesOf(items)| == |ls|;
    forall i | 0 <= i < |ls| ensures items[i].line == ls[i] {
      assert LinesOf(items)[i] == items[i].line;
    }
  }

  /** Items loaded from newest-first rows are newest first. */
  lemma JoinedNewestFirst(sorted: seq<CartLine>, items: seq<CartItem>)
    requires SortedBy(sorted, NewestFirst())
    requires |items| == |sorted| && forall i :: 0 <= i < |sorted| ==> items[i].line == sorted[i]
    ensures forall i, j :: 0 <= i < j < |items| ==> items[i].line.createdAt >= items[j].line.createdAt
  {
    forall i, j | 0 <= i < j < |items|
      ensures items[i].line.createdAt >= items[j].line.createdAt
    {
      assert NewestFirst()(sorted[i]) <= NewestFirst()(sorted[j]);
    }
  }

  /** The totals over the loaded items are the sums over their rows. */
  lemma {:induction false} SummaryTotals(ls: seq<CartLine>, products: seq<Product>, items: seq<CartItem>)
    requires |items| == |ls|
    requires forall i :: 0 <= i < |ls| ==> items[i].line == ls[i] && Some(items[i].product) == FindProduct(products, ls[i].productId)
    ensures ItemsAmount(items) == SumReal(ls, LineAmount(products))
    ensures ItemsCount(items) == SumInt(ls, LineQuantity)
    decreases |ls|
  {
    if |ls| > 0 {
      assert forall i :: 1 <= i < |ls| ==> items[1..][i - 1] == items[i] && ls[1..][i - 1] == ls[i];
      SummaryTotals(ls[1..], products, items[1..]);
    }
  }

  // ---------------------------------------------------------------------
  // Quantity change and removal
  // ---------------------------------------------------------------------

  predicate Targets(l: CartLine, cartId: int, userId: nat) {
    l.id == cartId && l.userId == userId
  }

  function NotTargeted(cartId: int, userId: nat): CartLine -> bool {
    (l: CartLine) => !Targets(l, cartId, userId)
  }

  /** `removeCartItem`: deletes the user's row with that id; deleting
      nothing is `NotFound`. Another user's row is never touched. */
  function RemoveCartItem(lines: seq<CartLine>, cartId: int, userId: nat): (r: Result<seq<CartLine>>)
    ensures r.Ok? <==> exists i :: 0 <= i < |lines| && Targets(lines[i], cartId, userId)
    ensures r.Err? ==> r.error == NotFound("Cart item not found")
    ensures r.Ok? ==> forall l :: l in r.value <==> l in lines && !Targets(l, cartId, userId)
    ensures r.Ok? ==> |r.value| < |lines|
  {
    var kept := Filter(lines, NotTargeted(cartId, userId));
    assert |kept| == |lines| <==> !exists i :: 0 <= i < |lines| && Targets(lines[i], cartId, userId) by {
      if i :| 0 <= i < |lines| && Targets(lines[i], cartId, userId) {
        FilterDrops(lines, NotTargeted(cartId, userId), i);
      } else {
        FilterAll(lines, NotTargeted(cartId, userId));
      }
    }
    if |kept| == |lines| then Err(NotFound("Cart item not found")) else Ok(kept)
  }

  /** `updateQuantity`: a quantity of 0 or less removes the row (and yields
      no row); otherwise the row's quantity is set, within the product's
      stock. */
  function UpdateQuantity(lines: seq<CartLine>, products: seq<Product>, cartId: int, quantity: int, userId: nat)
    : (r: Result<(seq<CartLine>, Option<CartLine>)>)
    ensures (exists i :: 0 <= i < |lines| && Targets(lines[i], cartId, userId)) || r == Err(NotFound("Cart item not found"))
    ensures quantity <= 0 ==> r == (var d := RemoveCartItem(lines, cartId, userId); if d.Ok? then Ok((d.value, None)) else Err(d.error))
    ensures quantity > 0 && r.Ok? ==> exists i :: (0 <= i < |lines| && Targets(lines[i], cartId, userId) &&
              HasProduct(products, lines[i].productId) && quantity <= StockOf(products, lines[i].productId) &&
              r.value.0 == lines[i := lines[i].(quantity := quantity)] && r.value.1 == Some(r.value.0[i]))
    ensures quantity > 0 && r.Err? && r.error.BadRequest? ==> exists i :: (0 <= i < |lines| && Targets(lines[i], cartId, userId) &&
              HasProduct(products, lines[i].productId) && StockOf(products, lines[i].productId) < quantity)
    ensures quantity > 0 ==>
              (r.Ok? <==> var found := FindById(lines, cartId, userId);
                          && found.Some?
                          && HasProduct(products, lines[found.value].productId)
                          && quantity <= StockOf(products, lines[found.value].productId))
    ensures quantity > 0 && r.Ok? ==> var i := FindById(lines, cartId, userId).value;
              && r.value.0[i].quantity == quantity
              && r.value.0[i] == lines[i].(quantity := quantity)
              && |r.value.0| == |lines|
              && forall j :: 0 <= j < |lines| && j != i ==> r.value.0[j] == lines[j]
  {
    var found := FindById(lines, cartId, userId);
    if found.None? then Err(NotFound("Cart item not found"))
    else if quantity <= 0 then
      Ok((RemoveCartItem(lines, cartId, userId).value, None))
    else
      var i := found.value;
      match FindProduct(products, lines[i].productId)
      case None => Err(InternalError("Cannot read properties of null (reading 'stock')"))
      case Some(p) =>
        if p.stock < quantity then Err(BadRequest("Not enough stock available"))
        else
          var l := lines[i].(quantity := quantity);
          Ok((lines[i := l], Some(l)))
  }

  function FindById(lines: seq<CartLine>, cartId: int, userId: nat): (r: Option<nat>)
    ensures r.Some? ==> r.value < |lines| && Targets(lines[r.value], cartId, userId)
    ensures r.None? ==> forall i :: 0 <= i < |lines| ==> !Targets(lines[i], cartId, userId)
  {
    if |lines| == 0 then None
    else if Targets(lines[0], cartId, userId) then Some(0)
    else
      match FindById(lines[1..], cartId, userId)
      case Some(i) => Some(i + 1)
      case None =>
        assert forall i :: 1 <= i < |lines| ==> lines[i] == lines[1..][i - 1];
        None
  }

  /** `clearCart`: deletes every row of the user and no other. */
  function ClearCart(lines: seq<CartLine>, userId: nat): (r: seq<CartLine>)
    ensures forall l :: l in r <==> l in lines && l.userId != userId
  {
    Filter(lines, (l: CartLine) => l.userId != userId)
  }

  /** After clearing, the summary is empty and totals zero. */
  lemma ClearedCartIsEmpty(lines: seq<CartLine>, products: seq<Product>, userId: nat)
    ensures var s := GetCartSummary(ClearCart(lines, userId), products, userId);
            s.Ok? && s.value.items == [] && s.value.totalAmount == 0.0 && s.value.totalItems == 0
  {
    var c := ClearCart(lines, userId);
    assert forall i :: 0 <= i < |c| ==> !OwnedBy(userId)(c[i]) by {
      assert forall i :: 0 <= i < |c| ==> c[i] in c;
    }
    FilterNone(c, OwnedBy(userId));
    assert CartOrder(c, userId) == [];
    assert SummaryOf(c, products, userId) == Ok(Summary([], 0.0, 0));
  }

  // ---------------------------------------------------------------------
  // The empty-size lookup
  // ---------------------------------------------------------------------

  function SampleShirt(): Product {
    Product(1, "Shirt", "", 499.0, 10, Unisex, "Shirts", "Acme", [], [], false, false, 0, 0)
  }

  function EmptySizeRequest(): AddToCart {
    AddToCart(1, 1, Some(""), Some("Red"))
  }

  /** Adding the same item with an empty size twice: the first call stores
      size "", the second looks for size NULL, misses the row, and its
      insert violates the unique constraint. */
  lemma EmptySizeAddedTwiceFails()
    ensures var first := AddOrUpdateAsWritten([], [SampleShirt()], 7, EmptySizeRequest(), 100);
            && first.Ok?
            && first.value.0[0].size == Some("")
            && AddOrUpdateAsWritten(first.value.0, [SampleShirt()], 7, EmptySizeRequest(), 200).Err?
            && AddOrUpdateAsWritten(first.value.0, [SampleShirt()], 7, EmptySizeRequest(), 200).error.InternalError?
  {
    var ps := [SampleShirt()];
    var dto := EmptySizeRequest();
    assert FindProduct(ps, 1) == Some(SampleShirt());
    var first := AddOrUpdateAsWritten([], ps, 7, dto, 100);
    assert first.Ok?;
    var l := first.value.1;
    assert first.value.0 == [l];
    assert FindLine([l], LookupKeyAsWritten(7, dto)).None?;
  }

  /** With the corrected lookup the second add raises the quantity. */
  lemma EmptySizeAddedTwiceAccumulates()
    ensures var first := AddOrUpdate([], [SampleShirt()], 7, EmptySizeRequest(), 100);
            && first.Ok?
            && var second := AddOrUpdate(first.value.0, [SampleShirt()], 7, EmptySizeRequest(), 200);
               second.Ok? && |second.value.0| == 1 && second.value.1.quantity == 2
  {
    var ps := [SampleShirt()];
    var dto := EmptySizeRequest();
    assert FindProduct(ps, 1) == Some(SampleShirt());
    var first := AddOrUpdate([], ps, 7, dto, 100);
    assert first.value.0 == [first.value.1];
    assert FindLine(first.value.0, LookupKey(7, dto)) == Some(0);
  }
}

=== FILE: catalog.dfy ===
/** The product catalog (`Product`, `ProductVariant`) and the read/update
    queries of the products service: filtered, sorted, paged listing;
    case-insensitive search; trending products; lookup, partial update and
    delete by id. */
module Catalog {
  import opened Common
  import opened Sorting
  import SqlLike

  datatype Gender = Men | Women | Unisex | Kids

  /** The stored value of a gender. */
  function GenderValue(g: Gender): string {
    match g
    case Men => "MEN"
    case Women => "WOMEN"
    case Unisex => "UNISEX"
    case Kids => "KIDS"
  }

  /** Reading a gender value back: the inverse of `GenderValue`, and
      nothing for text that is not a gender. */
  function ParseGender(s: string): (r: Option<Gender>)
    ensures r.Some? ==> GenderValue(r.value) == s
    ensures forall g :: GenderValue(g) == s ==> r == Some(g)
  {
    if s == "MEN" then Some(Men)
    else if s == "WOMEN" then Some(Women)
    else if s == "UNISEX" then Some(Unisex)
    else if s == "KIDS" then Some(Kids)
    else None
  }

  /** `stock` and `colors` are aggregates the variant subscriber keeps in
      step with the product's variants; `createdAt`/`updatedAt` are abstract
      timestamps. */
  datatype Product = Product(
    id: nat,
    name: string,
    description: string,
    price: real,
    stock: int,
    gender: Gender,
    category: string,
    brand: string,
    colors: seq<string>,
    images: seq<string>,
    isTrending: bool,
    isArchived: bool,
    createdAt: int,
    updatedAt: int)

  /** A size/colour unit of stock. `productId` is the foreign key to the
      parent product; 0 stands for a missing (falsy) key. */
  datatype Variant = Variant(
    id: nat,
    productId: nat,
    size: string,
    color: string,
    stock: int,
    sku: string,
    priceOverride: Option<real>)

  datatype Catalog = Catalog(products: seq<Product>, variants: seq<Variant>)

  predicate HasProduct(products: seq<Product>, id: int) {
    exists i :: 0 <= i < |products| && products[i].id == id
  }

  /** The row a `findOne({ where: { id } })` returns. */
  function FindProduct(products: seq<Product>, id: int): (r: Option<Product>)
    ensures r.Some? <==> HasProduct(products, id)
    ensures r.Some? ==> r.value in products && r.value.id == id
  {
    if |products| == 0 then None
    else if products[0].id == id then Some(products[0])
    else
      var r := FindProduct(products[1..], id);
      assert forall x :: x in products[1..] ==> x in products;
      assert HasProduct(products[1..], id) ==> HasProduct(products, id);
      assert HasProduct(products, id) ==> HasProduct(products[1..], id) by {
        if HasProduct(products, id) {
          var i :| 0 <= i < |products| && products[i].id == id;
          assert products[1..][i - 1].id == id;
        }
      }
      r
  }

  /** `findOne(id)`: the product, or `NotFound`. Archived products are found. */
  function FindOne(products: seq<Product>, id: int): (r: Result<Product>)
    ensures r.Ok? <==> HasProduct(products, id)
    ensures r.Ok? ==> r.value in products && r.value.id == id
    ensures r.Err? ==> r.error.NotFound?
  {
    match FindProduct(products, id)
    case Some(p) => Ok(p)
    case None => Err(NotFound("Product with ID " + IntToString(id) + " not found"))
  }

  // ---------------------------------------------------------------------
  // Listing
  // ---------------------------------------------------------------------

  /** The listing query as the service receives it. Missing string filters
      are "", missing numbers `None`. The gender is the raw query string:
      nothing checks it against the enum before the database does. */
  datatype ProductQuery = ProductQuery(
    page: Option<int>,
    limit: Option<int>,
    gender: string,
    category: string,
    brand: string,
    minPrice: Option<real>,
    maxPrice: Option<real>,
    sort: string)

  datatype ProductPage = ProductPage(data: seq<Product>, total: nat, page: int, limit: int)

  /** A numeric filter applies only when it is truthy: present and not 0. */
  predicate Truthy(x: Option<real>) {
    x.Some? && x.value != 0.0
  }

  predicate MatchesQuery(p: Product, q: ProductQuery) {
    && !p.isArchived
    && (q.gender != "" ==> GenderValue(p.gender) == q.gender)
    && (q.category != "" ==> p.category == q.category)
    && (q.brand != "" ==> p.brand == q.brand)
    && (Truthy(q.minPrice) ==> p.price >= q.minPrice.value)
    && (Truthy(q.maxPrice) ==> p.price <= q.maxPrice.value)
  }

  function FilterQuery(products: seq<Product>, q: ProductQuery): (r: seq<Product>)
    ensures forall x :: x in r <==> x in products && MatchesQuery(x, q)
    ensures |r| <= |products|
  {
    if |products| == 0 then []
    else
      var rest := FilterQuery(products[1..], q);
      assert products == [products[0]] + products[1..];
      if MatchesQuery(products[0], q) then [products[0]] + rest else rest
  }

  /** The `ORDER BY` the `sort` parameter selects, as an ascending key:
      "newest" is createdAt descending, "price_asc"/"price_desc" order by
      price, anything else by id ascending. */
  function SortKey(sort: string): Product -> real {
    if sort == "newest" then (p: Product) => -(p.createdAt as real)
    else if sort == "price_asc" then (p: Product) => p.price
    else if sort == "price_desc" then (p: Product) => -p.price
    else (p: Product) => p.id as real
  }

  function PageNo(q: ProductQuery): int {
    if q.page.Some? then q.page.value else 1
  }

  function PageSize(q: ProductQuery): int {
    if q.limit.Some? then q.limit.value else 10
  }

  /** Every match of the query, in the order the `sort` parameter asks for;
      a page is a window onto this list. */
  function Listing(products: seq<Product>, q: ProductQuery): seq<Product> {
    SortBy(FilterQuery(products, q), SortKey(q.sort))
  }

  /** The rows the page skips: `(page - 1) * limit`. */
  function Skip(q: ProductQuery): int {
    Offset(PageNo(q), PageSize(q))
  }

  /** A gender filter the database can compare: absent, or an enum value. */
  predicate GenderAccepted(q: ProductQuery) {
    q.gender == "" || ParseGender(q.gender).Some?
  }

  /** `findAll(query)`: page defaults to 1 and limit to 10, the page skips
      `(page - 1) * limit` matches of the sorted listing and holds the next
      `limit` (all the rest for a limit of 0); `total` counts every match,
      not just the returned page. A gender that is not an enum value, a
      negative skip and a negative limit are refused by the database. */
  function FindAll(products: seq<Product>, q: ProductQuery): (r: Result<ProductPage>)
    ensures r.Ok? <==> GenderAccepted(q) && Skip(q) >= 0 && PageSize(q) >= 0
    ensures !GenderAccepted(q) ==> r == Err(InternalError("invalid input value for enum product_gender_enum: \"" + q.gender + "\""))
    ensures r.Ok? ==> r.value.page == PageNo(q) && r.value.limit == PageSize(q)
    ensures r.Ok? && PageSize(q) > 0 ==> |r.value.data| <= PageSize(q)
    ensures r.Ok? ==> r.value.total == |FilterQuery(products, q)|
    ensures r.Ok? ==> |r.value.data| == PageLength(|Listing(products, q)|, Skip(q), PageSize(q))
    ensures r.Ok? ==> forall i :: 0 <= i < |r.value.data| ==> r.value.data[i] == Listing(products, q)[Skip(q) + i]
  {
    if !GenderAccepted(q) then
      Err(InternalError("invalid input value for enum product_gender_enum: \"" + q.gender + "\""))
    else
      var matches := FilterQuery(products, q);
      var sorted := Listing(products, q);
      var data :- Page(sorted, Skip(q), PageSize(q));
      Ok(ProductPage(data, |matches|, PageNo(q), PageSize(q)))
  }

  /** A gender that is not an enum value matches no product, so every
      query that finds a match names an accepted gender. */
  lemma UnknownGenderMatchesNothing(products: seq<Product>, q: ProductQuery)
    ensures !GenderAccepted(q) ==> Listing(products, q) == []
  {
    if !GenderAccepted(q) {
      NoMatchNoRows(products, q);
    }
  }

  /** A query no product matches filters every product out. */
  lemma {:induction false} NoMatchNoRows(products: seq<Product>, q: ProductQuery)
    ensures (forall i :: 0 <= i < |products| ==> !MatchesQuery(products[i], q)) ==> FilterQuery(products, q) == []
    decreases |products|
  {
    if |products| > 0 {
      NoMatchNoRows(products[1..], q);
      assert forall i :: 1 <= i < |products| ==> products[1..][i - 1] == products[i];
    }
  }

  /** `GET products`: the controller always supplies page and limit, with
      defaults 1 and 20 (so the service's default limit of 10 is never
      used over HTTP), and never passes a brand. */
  function ControllerQuery(page: Option<int>, limit: Option<int>, gender: string, category: string,
                           minPrice: Option<real>, maxPrice: Option<real>, sort: string): (q: ProductQuery)
    ensures PageNo(q) == if page.Some? then page.value else 1
    ensures PageSize(q) == if limit.Some? then limit.value else 20
    ensures q.brand == ""
    ensures q.gender == gender && q.category == category && q.sort == sort
    ensures q.minPrice == minPrice && q.maxPrice == maxPrice
  {
    ProductQuery(Some(if page.Some? then page.value else 1), Some(if limit.Some? then limit.value else 20),
                 gender, category, "", minPrice, maxPrice, sort)
  }

  /** A page holds only matches of the query, in the order asked for. */
  lemma FindAllSortedMatches(products: seq<Product>, q: ProductQuery)
    requires FindAll(products, q).Ok?
    ensures forall x :: x in FindAll(products, q).value.data ==> x in products && MatchesQuery(x, q)
    ensures SortedBy(FindAll(products, q).value.data, SortKey(q.sort))
  {
    var sorted := Listing(products, q);
    WindowOfSorted(sorted, FindAll(products, q).value.data, Skip(q), SortKey(q.sort));
    assert forall x :: x in sorted ==> x in multiset(FilterQuery(products, q));
  }

  /** The filter reads only the filter fields of the query, not its paging. */
  lemma {:induction false} FilterIgnoresPage(products: seq<Product>, q: ProductQuery, page: Option<int>)
    ensures FilterQuery(products, q.(page := page)) == FilterQuery(products, q)
    decreases |products|
  {
    if |products| > 0 {
      FilterIgnoresPage(products[1..], q, page);
    }
  }

  /** The page (counted from 0) that holds position `k` of the listing,
      for a limit `l`: the quotient of `k` by `l` (PageIndexOffset). */
  function PageIndex(k: nat, l: nat): nat
    requires l > 0
    decreases k
  {
    if k < l then 0 else 1 + PageIndex(k - l, l)
  }

  /** The position on its page of entry `k` of the listing: the
      remainder of `k` by `l` (PageIndexOffset). */
  function PageOffset(k: nat, l: nat): nat
    requires l > 0
    decreases k
  {
    if k < l then k else PageOffset(k - l, l)
  }

  lemma {:induction false} PageIndexOffset(k: nat, l: nat)
    requires l > 0
    ensures Times(PageIndex(k, l), l) + PageOffset(k, l) == k
    ensures PageOffset(k, l) < l
    decreases k
  {
    if k >= l {
      PageIndexOffset(k - l, l);
    }
  }

  /** Position `m < l` of page `p + 1`, with a limit `l`, holds the
      listing's entry `p * l + m` whenever the listing reaches that far. */
  lemma PageAt(products: seq<Product>, q: ProductQuery, p: nat, m: nat)
    requires q.limit.Some? && m < q.limit.value
    requires Times(p, q.limit.value) + m < |Listing(products, q)|
    ensures var r := FindAll(products, q.(page := Some(p + 1)));
            && r.Ok?
            && m < |r.value.data|
            && r.value.data[m] == Listing(products, q)[Times(p, q.limit.value) + m]
  {
    var q' := q.(page := Some(p + 1));
    UnknownGenderMatchesNothing(products, q);
    assert GenderAccepted(q') by { assert q'.gender == q.gender; }
    ListingIgnoresPage(products, q, Some(p + 1));
    SkipOfPage(q, p);
    PageHolds(|Listing(products, q')|, Times(p, q.limit.value), PageSize(q'), m);
    var r := FindAll(products, q');
    assert r.Ok? && m < |r.value.data|;
    assert r.value.data[m] == Listing(products, q')[Skip(q') + m];
  }

  /** Paging covers the listing: with a positive limit `l`, the match at
      any position `k` of the sorted listing is at position `m` of page
      `p + 1`, where `k = p * l + m` and `m < l`. */
  lemma FindAllReachesEveryMatch(products: seq<Product>, q: ProductQuery, k: nat) returns (p: nat, m: nat)
    requires q.limit.Some? && q.limit.value > 0
    requires k < |Listing(products, q)|
    ensures Times(p, q.limit.value) + m == k && m < q.limit.value
    ensures var r := FindAll(products, q.(page := Some(p + 1)));
            && r.Ok?
            && m < |r.value.data|
            && r.value.data[m] == Listing(products, q)[k]
  {
    p, m := PageIndex(k, q.limit.value), PageOffset(k, q.limit.value);
    PageIndexOffset(k, q.limit.value);
    PageAt(products, q, p, m);
  }

  lemma SkipOfPage(q: ProductQuery, p: nat)
    requires q.limit.Some? && q.limit.value >= 0
    ensures Skip(q.(page := Some(p + 1))) == Times(p, q.limit.value) >= 0
  {
    TimesIsProduct(p, q.limit.value);
  }

  lemma ListingIgnoresPage(products: seq<Product>, q: ProductQuery, page: Option<int>)
    ensures Listing(products, q.(page := page)) == Listing(products, q)
  {
    FilterIgnoresPage(products, q, page);
  }

  lemma PageHolds(n: nat, skip: nat, l: nat, m: nat)
    requires m < l && skip + m < n
    ensures m < PageLength(n, skip, l)
  {
  }


  // ---------------------------------------------------------------------
  // Search and trending
  // ---------------------------------------------------------------------

  predicate SearchHit(p: Product, keyword: string) {
    var pattern := Lower(SqlLike.Infix(keyword));
    && !p.isArchived
    && (|| SqlLike.Like(Lower(p.name), pattern)
        || SqlLike.Like(Lower(p.description), pattern)
        || SqlLike.Like(Lower(p.brand), pattern))
  }

  function SearchFilter(products: seq<Product>, keyword: string): (r: seq<Product>)
    ensures forall x :: x in r <==> x in products && SearchHit(x, keyword)
  {
    if |products| == 0 then []
    else
      var rest := SearchFilter(products[1..], keyword);
      assert products == [products[0]] + products[1..];
      if SearchHit(products[0], keyword) then [products[0]] + rest else rest
  }

  /** `search(keyword)`: the first 20 live products, in table order, whose
      name, description or brand matches; with 20 or fewer hits, all of them. */
  function Search(products: seq<Product>, keyword: string): (r: seq<Product>)
    ensures |r| <= 20
    ensures forall x :: x in r ==> x in products && SearchHit(x, keyword)
    ensures |SearchFilter(products, keyword)| <= 20 ==>
              forall x :: x in products && SearchHit(x, keyword) ==> x in r
    ensures |r| == if |SearchFilter(products, keyword)| < 20 then |SearchFilter(products, keyword)| else 20
    ensures r == SearchFilter(products, keyword)[..|r|]
  {
    Take(SearchFilter(products, keyword), 20)
  }

  /** With no wildcard characters in the keyword, a search hit is a live
      product whose lower-cased name, description or brand contains the
      lower-cased keyword. */
  lemma SearchIsCaseInsensitiveContains(p: Product, keyword: string)
    requires SqlLike.NoWildcards(Lower(keyword))
    ensures SearchHit(p, keyword) <==>
              !p.isArchived
              && (|| Contains(Lower(p.name), Lower(keyword))
                  || Contains(Lower(p.description), Lower(keyword))
                  || Contains(Lower(p.brand), Lower(keyword)))
  {
    SqlLike.CaseInsensitiveSearch(p.name, keyword);
    SqlLike.CaseInsensitiveSearch(p.description, keyword);
    SqlLike.CaseInsensitiveSearch(p.brand, keyword);
  }

  function TrendingFilter(products: seq<Product>): (r: seq<Product>)
    ensures forall x :: x in r <==> x in products && x.isTrending
  {
    if |products| == 0 then []
    else
      var rest := TrendingFilter(products[1..]);
      assert products == [products[0]] + products[1..];
      if products[0].isTrending then [products[0]] + rest else rest
  }

  function NewestUpdateFirst(): Product -> real {
    (p: Product) => -(p.updatedAt as real)
  }

  lemma NewestFirstDescending(s: seq<Product>)
    requires SortedBy(s, NewestUpdateFirst())
    ensures forall i, j :: 0 <= i < j < |s| ==> s[i].updatedAt >= s[j].updatedAt
  {
    forall i, j | 0 <= i < j < |s|
      ensures s[i].updatedAt >= s[j].updatedAt
    {
      assert NewestUpdateFirst()(s[i]) <= NewestUpdateFirst()(s[j]);
    }
  }

  /** `findTrending()`: the 10 most recently updated trending products
      (all of them when there are fewer), newest first. Archived products
      are not excluded. */
  function FindTrending(products: seq<Product>): (r: seq<Product>)
    ensures |r| <= 10
    ensures forall x :: x in r ==> x in products && x.isTrending
    ensures forall i, j :: 0 <= i < j < |r| ==> r[i].updatedAt >= r[j].updatedAt
    ensures |TrendingFilter(products)| <= 10 ==>
              forall x :: x in products && x.isTrending ==> x in r
    ensures |r| == if |TrendingFilter(products)| < 10 then |TrendingFilter(products)| else 10
    ensures multiset(r) <= multiset(TrendingFilter(products))
  {
    var r := Top(TrendingFilter(products), NewestUpdateFirst(), 10);
    NewestFirstDescending(r);
    r
  }

  /** No trending product left out of the list is newer than the last one
      listed: the list is the newest ten, not just some ten. */
  lemma TrendingIsNewest(products: seq<Product>, x: Product)
    ensures x in products && x.isTrending && x !in FindTrending(products) ==>
              |FindTrending(products)| == 10 && x.updatedAt <= FindTrending(products)[9].updatedAt
  {
    if x in products && x.isTrending && x !in FindTrending(products) {
      TopLeavesOutNoSmaller(TrendingFilter(products), NewestUpdateFirst(), 10, x);
    }
  }

  // ---------------------------------------------------------------------
  // Update and delete
  // ---------------------------------------------------------------------

  /** The fields an update may carry; `None` means "not supplied". */
  datatype ProductPatch = ProductPatch(
    name: Option<string>,
    description: Option<string>,
    price: Option<real>,
    gender: Option<Gender>,
    category: Option<string>,
    brand: Option<string>,
    images: Option<seq<string>>,
    isTrending: Option<bool>,
    isArchived: Option<bool>)

  function Pick<T>(o: Option<T>, old_: T): T {
    if o.Some? then o.value else old_
  }

  /** `Object.assign(product, patch)` followed by a save that stamps `updatedAt`. */
  function ApplyPatch(p: Product, patch: ProductPatch, now: int): (r: Product)
    ensures r.id == p.id && r.stock == p.stock && r.colors == p.colors && r.createdAt == p.createdAt
    ensures r.updatedAt == now
    ensures patch.name.Some? ==> r.name == patch.name.value
    ensures patch.name.None? ==> r.name == p.name
    ensures patch.description.Some? ==> r.description == patch.description.value
    ensures patch.description.None? ==> r.description == p.description
    ensures patch.price.Some? ==> r.price == patch.price.value
    ensures patch.price.None? ==> r.price == p.price
    ensures patch.gender.Some? ==> r.gender == patch.gender.value
    ensures patch.gender.None? ==> r.gender == p.gender
    ensures patch.category.Some? ==> r.category == patch.category.value
    ensures patch.category.None? ==> r.category == p.category
    ensures patch.brand.Some? ==> r.brand == patch.brand.value
    ensures patch.brand.None? ==> r.brand == p.brand
    ensures patch.images.Some? ==> r.images == patch.images.value
    ensures patch.images.None? ==> r.images == p.images
    ensures patch.isTrending.Some? ==> r.isTrending == patch.isTrending.value
    ensures patch.isTrending.None? ==> r.isTrending == p.isTrending
    ensures patch.isArchived.Some? ==> r.isArchived == patch.isArchived.value
    ensures patch.isArchived.None? ==> r.isArchived == p.isArchived
  {
    p.(name := Pick(patch.name, p.name),
       description := Pick(patch.description, p.description),
       price := Pick(patch.price, p.price),
       gender := Pick(patch.gender, p.gender),
       category := Pick(patch.category, p.category),
       brand := Pick(patch.brand, p.brand),
       images := Pick(patch.images, p.images),
       isTrending := Pick(patch.isTrending, p.isTrending),
       isArchived := Pick(patch.isArchived, p.isArchived),
       updatedAt := now)
  }

  function ReplaceProduct(products: seq<Product>, p: Product): (r: seq<Product>)
    ensures |r| == |products|
    ensures forall i :: 0 <= i < |r| ==> r[i] == (if products[i].id == p.id then p else products[i])
  {
    if |products| == 0 then []
    else [if products[0].id == p.id then p else products[0]] + ReplaceProduct(products[1..], p)
  }

  /** `update(id, patch)`: `NotFound` for an unknown id; otherwise only the
      supplied fields of that product change. */
  function Update(products: seq<Product>, id: int, patch: ProductPatch, now: int)
    : (r: Result<(seq<Product>, Product)>)
    ensures r.Ok? <==> HasProduct(products, id)
    ensures r.Err? ==> r.error.NotFound?
    ensures r.Ok? ==> |r.value.0| == |products| && r.value.1.id == id
    ensures r.Ok? ==> forall i :: 0 <= i < |products| && products[i].id != id ==> r.value.0[i] == products[i]
    ensures r.Ok? ==> forall i :: 0 <= i < |products| && products[i].id == id ==> r.value.0[i] == r.value.1
    ensures r.Ok? ==> r.value.1 == ApplyPatch(FindProduct(products, id).value, patch, now)
  {
    var p :- FindOne(products, id);
    var q := ApplyPatch(p, patch, now);
    Ok((ReplaceProduct(products, q), q))
  }

  function RemoveProduct(products: seq<Product>, id: int): (r: seq<Product>)
    ensures forall x :: x in r <==> x in products && x.id != id
    ensures |r| <= |products|
  {
    if |products| == 0 then []
    else
      var rest := RemoveProduct(products[1..], id);
      assert products == [products[0]] + products[1..];
      if products[0].id == id then rest else [products[0]] + rest
  }

  function VariantsOutside(variants: seq<Variant>, id: int): (r: seq<Variant>)
    ensures forall v :: v in r <==> v in variants && v.productId != id
  {
    if |variants| == 0 then []
    else
      var rest := VariantsOutside(variants[1..], id);
      assert variants == [variants[0]] + variants[1..];
      if variants[0].productId == id then rest else [variants[0]] + rest
  }

  /** Whether deleting product `id` breaks a foreign key that has no
      `ON DELETE` action: a try-on record names the product, or an order
      item names one of the variants the delete would cascade to.
      `orderedVariants` holds the variant ids order items refer to and
      `tryOnProducts` the product ids try-on records refer to. */
  predicate ProductReferenced(c: Catalog, id: int, orderedVariants: set<nat>, tryOnProducts: set<nat>) {
    || (id >= 0 && id as nat in tryOnProducts)
    || exists j :: 0 <= j < |c.variants| && c.variants[j].productId == id && c.variants[j].id in orderedVariants
  }

  /** `delete(id)`: `NotFound` when no row was affected; the database
      refuses (an internal error, nothing removed) when the product or one
      of its variants is still referenced; otherwise the product goes, and
      its variants with it (`ON DELETE CASCADE`). */
  function Delete(c: Catalog, id: int, orderedVariants: set<nat>, tryOnProducts: set<nat>): (r: Result<Catalog>)
    ensures r.Ok? <==> HasProduct(c.products, id) && !ProductReferenced(c, id, orderedVariants, tryOnProducts)
    ensures !HasProduct(c.products, id) ==> r.Err? && r.error.NotFound?
    ensures HasProduct(c.products, id) && ProductReferenced(c, id, orderedVariants, tryOnProducts) ==>
              r == Err(ForeignKeyViolation)
    ensures r.Ok? ==> !HasProduct(r.value.products, id)
    ensures r.Ok? ==> forall x :: x in c.products && x.id != id ==> x in r.value.products
    ensures r.Ok? ==> forall v :: v in r.value.variants <==> v in c.variants && v.productId != id
  {
    if !HasProduct(c.products, id) then
      Err(NotFound("Product with ID " + IntToString(id) + " not found"))
    else if ProductReferenced(c, id, orderedVariants, tryOnProducts) then
      Err(ForeignKeyViolation)
    else
      var ps := RemoveProduct(c.products, id);
      assert forall i :: 0 <= i < |ps| ==> ps[i].id != id by {
        forall i | 0 <= i < |ps|
          ensures ps[i].id != id
        {
          assert ps[i] in ps;
        }
      }
      Ok(Catalog(ps, VariantsOutside(c.variants, id)))
  }

  /** A product no order or try-on refers to can always be deleted, and
      one an order item refers to never can. */
  lemma DeleteRefusedWhileOrdered(c: Catalog, id: int, orderedVariants: set<nat>, tryOnProducts: set<nat>, j: nat)
    requires HasProduct(c.products, id)
    requires j < |c.variants| && c.variants[j].productId == id && c.variants[j].id in orderedVariants
    ensures Delete(c, id, orderedVariants, tryOnProducts) == Err(ForeignKeyViolation)
    ensures Delete(c, id, {}, {}).Ok?
  {
    assert !ProductReferenced(c, id, {}, {});
  }
}

=== FILE: common.dfy ===
/** Shared vocabulary of the shop backend model: optional values, the
    HTTP exception kinds the services throw, a failure-compatible result
    type, and the handful of JavaScript string operations the services use. */
module Common {

  datatype Option<+T> = None | Some(value: T)

  /** The exception classes the services raise, with their message text.
      `BadRequestItems` is a `BadRequestException` whose body is a list of
      validation items rather than a string; `InternalError` covers both
      `InternalServerErrorException` and any uncaught runtime error. */
  datatype Error =
    | BadRequest(msg: string)
    | BadRequestItems(items: seq<Option<string>>)
    | NotFound(msg: string)
    | Conflict(msg: string)
    | Unauthorized(msg: string)
    | Forbidden(msg: string)
    | InternalError(msg: string)
    | Unavailable(msg: string)

  /** What a `DELETE` that breaks a foreign key without an `ON DELETE`
      action comes to: the database error, an internal server error. */
  const ForeignKeyViolation: Error := InternalError("update or delete violates foreign key constraint")

  datatype Result<+T> = Ok(value: T) | Err(error: Error) {
    predicate IsFailure() {
      Err?
    }

    function PropagateFailure<U>(): Result<U>
      requires Err?
    {
      Err(error)
    }

    function Extract(): T
      requires Ok?
    {
      value
    }
  }

  predicate StartsWith(s: string, prefix: string) {
    |prefix| <= |s| && s[..|prefix|] == prefix
  }

  predicate EndsWith(s: string, suffix: string) {
    |suffix| <= |s| && s[|s| - |suffix|..] == suffix
  }

  predicate OccursAt(s: string, sub: string, i: int) {
    0 <= i && i + |sub| <= |s| && s[i..i + |sub|] == sub
  }

  /** `s.includes(sub)` */
  predicate Contains(s: string, sub: string) {
    exists i | 0 <= i <= |s| :: OccursAt(s, sub, i)
  }

  predicate IsAsciiAlnum(c: char) {
    ('a' <= c <= 'z') || ('A' <= c <= 'Z') || ('0' <= c <= '9')
  }

  function LowerChar(c: char): char {
    if 'A' <= c <= 'Z' then (c as int + 32) as char else c
  }

  function UpperChar(c: char): char {
    if 'a' <= c <= 'z' then (c as int - 32) as char else c
  }

  /** ASCII case folding, as SQL `LOWER` and JS `toLowerCase` act on ASCII text. */
  function Lower(s: string): (r: string)
    ensures |r| == |s|
    ensures forall i :: 0 <= i < |s| ==> r[i] == LowerChar(s[i])
  {
    if |s| == 0 then "" else [LowerChar(s[0])] + Lower(s[1..])
  }

  function Upper(s: string): (r: string)
    ensures |r| == |s|
    ensures forall i :: 0 <= i < |s| ==> r[i] == UpperChar(s[i])
  {
    if |s| == 0 then "" else [UpperChar(s[0])] + Upper(s[1..])
  }

  function DigitChar(d: nat): char
    requires d < 10
  {
    ('0' as int + d) as char
  }

  function NatToString(n: nat): (r: string)
    ensures |r| >= 1
    ensures forall i :: 0 <= i < |r| ==> '0' <= r[i] <= '9'
  {
    if n < 10 then [DigitChar(n)] else NatToString(n / 10) + [DigitChar(n % 10)]
  }

  /** JavaScript's `String(n)` for an integer. */
  function IntToString(n: int): string {
    if n < 0 then "-" + NatToString(-n) else NatToString(n)
  }

  /** A string interpolated into a template: JavaScript renders a missing
      value as "undefined". */
  function OrUndefined(s: Option<string>): string {
    match s
    case Some(v) => v
    case None => "undefined"
  }

  /** `a || b` on two strings: the empty string is falsy. */
  function OrElse(a: string, b: string): string {
    if a != "" then a else b
  }

  /** A fresh primary key: greater than every key already in the table, as
      an auto-increment column hands out. */
  function NextId<T>(rows: seq<T>, key: T -> nat): (n: nat)
    ensures n >= 1
    ensures forall i :: 0 <= i < |rows| ==> key(rows[i]) < n
  {
    if |rows| == 0 then 1
    else
      var m := NextId(rows[..|rows| - 1], key);
      var k := key(rows[|rows| - 1]);
      if k < m then m else k + 1
  }

  /** Rows of a table that satisfy a `WHERE` condition, in table order. */
  function Filter<T(!new)>(s: seq<T>, keep: T -> bool): (r: seq<T>)
    ensures forall x :: x in r <==> x in s && keep(x)
    ensures multiset(r) <= multiset(s)
    ensures |r| <= |s|
  {
    if |s| == 0 then []
    else
      var rest := Filter(s[1..], keep);
      FilterStep(s, keep, rest);
      if keep(s[0]) then [s[0]] + rest else rest
  }

  lemma FilterStep<T>(s: seq<T>, keep: T -> bool, rest: seq<T>)
    requires |s| > 0
    requires forall x :: x in rest <==> x in s[1..] && keep(x)
    requires multiset(rest) <= multiset(s[1..])
    ensures keep(s[0]) ==> forall x :: x in [s[0]] + rest <==> x in s && keep(x)
    ensures keep(s[0]) ==> multiset([s[0]] + rest) <= multiset(s)
    ensures !keep(s[0]) ==> forall x :: x in rest <==> x in s && keep(x)
    ensures multiset(rest) <= multiset(s)
  {
    assert s == [s[0]] + s[1..];
    assert multiset(s) == multiset{s[0]} + multiset(s[1..]);
    assert multiset([s[0]] + rest) == multiset{s[0]} + multiset(rest);
  }

  /** Filtering keeps the whole table when every row passes. */
  lemma {:induction false} FilterAll<T(!new)>(s: seq<T>, keep: T -> bool)
    requires forall i :: 0 <= i < |s| ==> keep(s[i])
    ensures Filter(s, keep) == s
  {
    if |s| > 0 {
      assert forall i :: 1 <= i < |s| ==> s[1..][i - 1] == s[i];
      FilterAll(s[1..], keep);
      assert s == [s[0]] + s[1..];
    }
  }

  /** A row that fails makes the result shorter than the table. */
  lemma {:induction false} FilterDrops<T(!new)>(s: seq<T>, keep: T -> bool, k: nat)
    requires k < |s| && !keep(s[k])
    ensures |Filter(s, keep)| < |s|
  {
    if k > 0 {
      assert s[1..][k - 1] == s[k];
      FilterDrops(s[1..], keep, k - 1);
    }
  }

  /** Filtering keeps nothing when no row passes. */
  lemma {:induction false} FilterNone<T(!new)>(s: seq<T>, keep: T -> bool)
    requires forall i :: 0 <= i < |s| ==> !keep(s[i])
    ensures Filter(s, keep) == []
  {
    if |s| > 0 {
      assert forall i :: 1 <= i < |s| ==> s[1..][i - 1] == s[i];
      FilterNone(s[1..], keep);
    }
  }

  /** Two sequences with the same multiset have the same members. */
  lemma SameElements<T>(a: seq<T>, b: seq<T>)
    requires multiset(a) == multiset(b)
    ensures forall x :: x in a <==> x in b
  {
    forall x ensures x in a <==> x in b {
      assert x in a <==> x in multiset(a);
      assert x in b <==> x in multiset(b);
    }
  }

  /** Splits a table by a condition, keeping table order within each part. */
  function Partition<T>(s: seq<T>, p: T -> bool): (r: (seq<T>, seq<T>))
    ensures multiset(r.0) + multiset(r.1) == multiset(s)
    ensures forall x :: x in r.0 ==> p(x)
    ensures forall x :: x in r.1 ==> !p(x)
  {
    if |s| == 0 then ([], [])
    else
      var rest := Partition(s[1..], p);
      PartitionStep(s, p, rest.0, rest.1);
      if p(s[0]) then ([s[0]] + rest.0, rest.1) else (rest.0, [s[0]] + rest.1)
  }

  lemma PartitionStep<T>(s: seq<T>, p: T -> bool, yes: seq<T>, no: seq<T>)
    requires |s| > 0
    requires multiset(yes) + multiset(no) == multiset(s[1..])
    ensures multiset([s[0]] + yes) + multiset(no) == multiset(s)
    ensures multiset(yes) + multiset([s[0]] + no) == multiset(s)
    ensures forall x :: x in [s[0]] + yes <==> x == s[0] || x in yes
    ensures forall x :: x in [s[0]] + no <==> x == s[0] || x in no
  {
    assert s == [s[0]] + s[1..];
    assert multiset(s) == multiset{s[0]} + multiset(s[1..]);
  }

  function SumReal<T>(s: seq<T>, f: T -> real): real {
    if |s| == 0 then 0.0 else f(s[0]) + SumReal(s[1..], f)
  }

  function SumInt<T>(s: seq<T>, f: T -> int): int {
    if |s| == 0 then 0 else f(s[0]) + SumInt(s[1..], f)
  }

  lemma {:induction false} SumRealConcat<T>(a: seq<T>, b: seq<T>, f: T -> real)
    ensures SumReal(a + b, f) == SumReal(a, f) + SumReal(b, f)
  {
    if |a| == 0 {
      assert a + b == b;
    } else {
      assert (a + b)[1..] == a[1..] + b;
      SumRealConcat(a[1..], b, f);
    }
  }

  lemma {:induction false} SumIntConcat<T>(a: seq<T>, b: seq<T>, f: T -> int)
    ensures SumInt(a + b, f) == SumInt(a, f) + SumInt(b, f)
  {
    if |a| == 0 {
      assert a + b == b;
    } else {
      assert (a + b)[1..] == a[1..] + b;
      SumIntConcat(a[1..], b, f);
    }
  }

  /** Taking the `k`th term out of a sum. */
  lemma {:induction false} SumRealRemoveAt<T>(b: seq<T>, k: nat, f: T -> real)
    requires k < |b|
    ensures SumReal(b, f) == f(b[k]) + SumReal(b[..k] + b[k + 1..], f)
  {
    if k == 0 {
      assert b[..0] + b[1..] == b[1..];
    } else {
      var tail := b[1..];
      SumRealRemoveAt(tail, k - 1, f);
      var rest := b[..k] + b[k + 1..];
      assert rest == [b[0]] + (tail[..k - 1] + tail[k..]);
      assert rest[1..] == tail[..k - 1] + tail[k..];
      assert tail[k - 1] == b[k];
    }
  }

  lemma {:induction false} SumIntRemoveAt<T>(b: seq<T>, k: nat, f: T -> int)
    requires k < |b|
    ensures SumInt(b, f) == f(b[k]) + SumInt(b[..k] + b[k + 1..], f)
  {
    if k == 0 {
      assert b[..0] + b[1..] == b[1..];
    } else {
      var tail := b[1..];
      SumIntRemoveAt(tail, k - 1, f);
      var rest := b[..k] + b[k + 1..];
      assert rest == [b[0]] + (tail[..k - 1] + tail[k..]);
      assert rest[1..] == tail[..k - 1] + tail[k..];
      assert tail[k - 1] == b[k];
    }
  }

  /** Removing the element at `k` removes one occurrence of it. */
  lemma MultisetRemoveAt<T>(b: seq<T>, k: nat)
    requires k < |b|
    ensures multiset(b[..k] + b[k + 1..]) == multiset(b) - multiset{b[k]}
  {
    assert b == b[..k] + [b[k]] + b[k + 1..];
    assert multiset(b) == multiset(b[..k]) + multiset{b[k]} + multiset(b[k + 1..]);
  }

  lemma {:induction false} SumRealPermutation<T>(a: seq<T>, b: seq<T>, f: T -> real)
    requires multiset(a) == multiset(b)
    ensures SumReal(a, f) == SumReal(b, f)
    decreases |a|
  {
    if |a| == 0 {
      assert |b| == |multiset(b)| == 0;
    } else {
      var x := a[0];
      assert x in multiset(b);
      var k :| 0 <= k < |b| && b[k] == x;
      SumRealRemoveAt(b, k, f);
      MultisetRemoveAt(b, k);
      assert a == [x] + a[1..];
      assert multiset(a[1..]) == multiset(a) - multiset{x};
      SumRealPermutation(a[1..], b[..k] + b[k + 1..], f);
    }
  }

  lemma {:induction false} SumIntPermutation<T>(a: seq<T>, b: seq<T>, f: T -> int)
    requires multiset(a) == multiset(b)
    ensures SumInt(a, f) == SumInt(b, f)
    decreases |a|
  {
    if |a| == 0 {
      assert |b| == |multiset(b)| == 0;
    } else {
      var x := a[0];
      assert x in multiset(b);
      var k :| 0 <= k < |b| && b[k] == x;
      SumIntRemoveAt(b, k, f);
      MultisetRemoveAt(b, k);
      assert a == [x] + a[1..];
      assert multiset(a[1..]) == multiset(a) - multiset{x};
      SumIntPermutation(a[1..], b[..k] + b[k + 1..], f);
    }
  }

  /** A sum does not depend on the order of its terms. */
  lemma SumPermutation<T>(a: seq<T>, b: seq<T>, fr: T -> real, fi: T -> int)
    requires multiset(a) == multiset(b)
    ensures SumReal(a, fr) == SumReal(b, fr)
    ensures SumInt(a, fi) == SumInt(b, fi)
  {
    SumRealPermutation(a, b, fr);
    SumIntPermutation(a, b, fi);
  }
}

=== FILE: favorites.dfy ===
/** A user's favourite products: one row per (user, product) pair, toggled
    on and off, and listed newest first a page at a time. */
module Favorites {
  import opened Common
  import opened Sorting
  import opened Catalog

  datatype Favorite = Favorite(id: nat, userId: nat, productId: nat, createdAt: int)

  datatype ToggleStatus = Added | Removed

  function StatusText(s: ToggleStatus): string {
    match s
    case Added => "added"
    case Removed => "removed"
  }

  function FavoriteId(f: Favorite): nat {
    f.id
  }

  predicate Marks(f: Favorite, userId: int, productId: int) {
    f.userId == userId && f.productId == productId
  }

  /** The table's unique (user, product) constraint. */
  predicate PairsUnique(favs: seq<Favorite>) {
    forall i, j :: 0 <= i < j < |favs| ==> !(favs[i].userId == favs[j].userId && favs[i].productId == favs[j].productId)
  }

  /** `isFavored`: at least one row marks the pair. */
  function CountMarks(favs: seq<Favorite>, userId: int, productId: int): (n: nat)
    ensures n > 0 <==> exists i :: 0 <= i < |favs| && Marks(favs[i], userId, productId)
  {
    if |favs| == 0 then 0
    else
      var rest := CountMarks(favs[1..], userId, productId);
      assert forall i :: 1 <= i < |favs| ==> favs[i] == favs[1..][i - 1];
      (if Marks(favs[0], userId, productId) then 1 else 0) + rest
  }

  predicate IsFavored(favs: seq<Favorite>, userId: int, productId: int) {
    CountMarks(favs, userId, productId) > 0
  }

  function FindFavorite(favs: seq<Favorite>, userId: int, productId: int): (r: Option<nat>)
    ensures r.Some? ==> r.value < |favs| && Marks(favs[r.value], userId, productId)
    ensures r.Some? ==> forall i :: 0 <= i < r.value ==> !Marks(favs[i], userId, productId)
    ensures r.None? <==> forall i :: 0 <= i < |favs| ==> !Marks(favs[i], userId, productId)
  {
    if |favs| == 0 then None
    else if Marks(favs[0], userId, productId) then Some(0)
    else
      match FindFavorite(favs[1..], userId, productId)
      case Some(i) =>
        assert forall k :: 1 <= k <= i ==> favs[k] == favs[1..][k - 1];
        Some(i + 1)
      case None =>
        assert forall i :: 1 <= i < |favs| ==> favs[i] == favs[1..][i - 1];
        None
  }

  /** `toggleFavorite`: a missing or archived product is not found and
      nothing changes; otherwise the pair's row is removed if present and
      added if not. */
  function ToggleFavorite(favs: seq<Favorite>, products: seq<Product>, userId: nat, productId: int, now: int)
    : (r: Result<(seq<Favorite>, ToggleStatus)>)
    ensures r.Ok? <==> HasProduct(products, productId) && !FindProduct(products, productId).value.isArchived
    ensures !HasProduct(products, productId) ==> r == Err(NotFound("Product with ID " + IntToString(productId) + " not found"))
    ensures HasProduct(products, productId) && FindProduct(products, productId).value.isArchived ==>
              r == Err(NotFound("Product not found or unavailable"))
    ensures r.Ok? ==> (r.value.1 == Removed <==> IsFavored(favs, userId, productId))
    ensures r.Ok? && PairsUnique(favs) ==> (IsFavored(r.value.0, userId, productId) <==> !IsFavored(favs, userId, productId))
    ensures r.Ok? ==> forall f :: !Marks(f, userId, productId) ==> (f in r.value.0 <==> f in favs)
  {
    var p :- FindOne(products, productId);
    if p.isArchived then Err(NotFound("Product not found or unavailable"))
    else
      match FindFavorite(favs, userId, productId)
      case Some(i) =>
        var rest := favs[..i] + favs[i + 1..];
        RemovedPair(favs, i);
        Ok((rest, Removed))
      case None =>
        var added := favs + [Favorite(NextId(favs, FavoriteId), userId, p.id, now)];
        assert Marks(added[|favs|], userId, productId);
        Ok((added, Added))
  }

  /** Removing a row leaves the other pairs as they were, and unmarks its
      own pair when the table held that pair once. */
  lemma RemovedPair(favs: seq<Favorite>, i: nat)
    requires i < |favs|
    ensures var f := favs[i];
            var rest := favs[..i] + favs[i + 1..];
            && (forall g :: !Marks(g, f.userId, f.productId) ==> (g in rest <==> g in favs))
            && (PairsUnique(favs) ==> !IsFavored(rest, f.userId, f.productId))
  {
    var rest := favs[..i] + favs[i + 1..];
    assert favs == favs[..i] + [favs[i]] + favs[i + 1..];
    forall g | !Marks(g, favs[i].userId, favs[i].productId) ensures g in rest <==> g in favs {
      assert g in favs ==> g in favs[..i] || g == favs[i] || g in favs[i + 1..];
    }
    if PairsUnique(favs) {
      forall j | 0 <= j < |rest| ensures !Marks(rest[j], favs[i].userId, favs[i].productId) {
        if j < i { assert rest[j] == favs[j]; } else { assert rest[j] == favs[j + 1]; }
      }
    }
  }

  /** Toggling keeps at most one row per (user, product). */
  lemma ToggleKeepsUnique(favs: seq<Favorite>, products: seq<Product>, userId: nat, productId: int, now: int)
    requires PairsUnique(favs)
    requires ToggleFavorite(favs, products, userId, productId, now).Ok?
    ensures PairsUnique(ToggleFavorite(favs, products, userId, productId, now).value.0)
  {
    match FindFavorite(favs, userId, productId)
    case Some(i) =>
      RemoveKeepsUnique(favs, i);
    case None =>
      var p := FindProduct(products, productId).value;
      AppendKeepsUnique(favs, Favorite(NextId(favs, FavoriteId), userId, p.id, now));
  }

  lemma RemoveKeepsUnique(favs: seq<Favorite>, i: nat)
    requires i < |favs| && PairsUnique(favs)
    ensures PairsUnique(favs[..i] + favs[i + 1..])
  {
    var r := favs[..i] + favs[i + 1..];
    forall a, b | 0 <= a < b < |r|
      ensures !(r[a].userId == r[b].userId && r[a].productId == r[b].productId)
    {
      var a' := if a < i then a else a + 1;
      var b' := if b < i then b else b + 1;
      assert r[a] == favs[a'] && r[b] == favs[b'];
    }
  }

  lemma AppendKeepsUnique(favs: seq<Favorite>, f: Favorite)
    requires PairsUnique(favs)
    requires forall i :: 0 <= i < |favs| ==> !Marks(favs[i], f.userId, f.productId)
    ensures PairsUnique(favs + [f])
  {
    var r := favs + [f];
    forall a, b | 0 <= a < b < |r|
      ensures !(r[a].userId == r[b].userId && r[a].productId == r[b].productId)
    {
      assert r[a] == favs[a];
    }
  }

  /** Toggling twice gives back the same (user, product) pairs: an added
      row is the one removed again, and a removed pair is added back. */
  lemma ToggleTwiceRestores(favs: seq<Favorite>, products: seq<Product>, userId: nat, productId: int, now: int, later: int)
    requires PairsUnique(favs)
    requires ToggleFavorite(favs, products, userId, productId, now).Ok?
    ensures var once := ToggleFavorite(favs, products, userId, productId, now).value.0;
            var twice := ToggleFavorite(once, products, userId, productId, later);
            && twice.Ok?
            && (forall u, p :: IsFavored(twice.value.0, u, p) <==> IsFavored(favs, u, p))
            && (!IsFavored(favs, userId, productId) ==> twice.value.0 == favs)
  {
    var once := ToggleFavorite(favs, products, userId, productId, now).value.0;
    ToggleKeepsUnique(favs, products, userId, productId, now);
    var twice := ToggleFavorite(once, products, userId, productId, later).value.0;
    OtherPairsAgree(twice, once, favs, userId, productId);
    if !IsFavored(favs, userId, productId) {
      AddedThenRemoved(favs, products, userId, productId, now, later);
    }
  }

  /** Two tables that hold the same rows apart from one pair's, and agree
      on that pair, agree on every pair. */
  lemma OtherPairsAgree(a: seq<Favorite>, b: seq<Favorite>, c: seq<Favorite>, userId: int, productId: int)
    requires forall f :: !Marks(f, userId, productId) ==> (f in a <==> f in b)
    requires forall f :: !Marks(f, userId, productId) ==> (f in b <==> f in c)
    requires IsFavored(a, userId, productId) <==> IsFavored(c, userId, productId)
    ensures forall u, p :: IsFavored(a, u, p) <==> IsFavored(c, u, p)
  {
    forall u, p | u != userId || p != productId ensures IsFavored(a, u, p) <==> IsFavored(c, u, p) {
      if IsFavored(c, u, p) {
        var j :| 0 <= j < |c| && Marks(c[j], u, p);
        assert c[j] in a;
        var k :| 0 <= k < |a| && a[k] == c[j];
      }
      if IsFavored(a, u, p) {
        var j :| 0 <= j < |a| && Marks(a[j], u, p);
        assert a[j] in c;
        var k :| 0 <= k < |c| && c[k] == a[j];
      }
    }
  }

  /** A pair that was not favoured is added at the end, and the second
      toggle removes exactly that row. */
  lemma AddedThenRemoved(favs: seq<Favorite>, products: seq<Product>, userId: nat, productId: int, now: int, later: int)
    requires !IsFavored(favs, userId, productId)
    requires ToggleFavorite(favs, products, userId, productId, now).Ok?
    ensures var once := ToggleFavorite(favs, products, userId, productId, now).value.0;
            ToggleFavorite(once, products, userId, productId, later) == Ok((favs, Removed))
  {
    var p := FindProduct(products, productId).value;
    var row := Favorite(NextId(favs, FavoriteId), userId, p.id, now);
    var once := favs + [row];
    assert FindFavorite(favs, userId, productId).None?;
    assert ToggleFavorite(favs, products, userId, productId, now).value.0 == once;
    assert forall i :: 0 <= i < |favs| ==> once[i] == favs[i];
    assert Marks(once[|favs|], userId, productId);
    assert forall i :: 0 <= i < |favs| ==> !Marks(once[i], userId, productId);
    assert FindFavorite(once, userId, productId) == Some(|favs|);
    assert once[..|favs|] + once[|favs| + 1..] == favs;
  }

  // ---------------------------------------------------------------------
  // Listing
  // ---------------------------------------------------------------------

  datatype FavoritePage = FavoritePage(data: seq<Favorite>, total: nat, page: int, limit: int)

  /** The row's product exists and is not archived. */
  predicate OnShelf(products: seq<Product>, f: Favorite) {
    HasProduct(products, f.productId) && !FindProduct(products, f.productId).value.isArchived
  }

  function ListedFor(products: seq<Product>, userId: nat): Favorite -> bool {
    (f: Favorite) => f.userId == userId && OnShelf(products, f)
  }

  function NewestFirst(): Favorite -> real {
    (f: Favorite) => -(f.createdAt as real)
  }

  /** The rows `findPaginatedByUser` pages through, newest first. */
  function Listed(favs: seq<Favorite>, products: seq<Product>, userId: nat): (r: seq<Favorite>)
    ensures |r| == |Filter(favs, ListedFor(products, userId))|
    ensures forall f :: f in r <==> f in favs && f.userId == userId && OnShelf(products, f)
    ensures forall i, j :: 0 <= i < j < |r| ==> r[i].createdAt >= r[j].createdAt
  {
    var mine := Filter(favs, ListedFor(products, userId));
    var sorted := SortBy(mine, NewestFirst());
    assert forall f :: f in sorted <==> f in mine by {
      assert forall f :: f in sorted <==> f in multiset(mine);
    }
    assert forall i, j :: 0 <= i < j < |sorted| ==> NewestFirst()(sorted[i]) <= NewestFirst()(sorted[j]);
    sorted
  }

  /** `findPaginatedByUser`: the user's rows for products still on sale,
      newest first, skipping `(page - 1) * limit` and taking `limit`;
      `total` counts every such row. */
  function FindPaginatedByUser(favs: seq<Favorite>, products: seq<Product>, userId: nat, page: int, limit: int)
    : (r: Result<FavoritePage>)
    ensures r.Ok? <==> Offset(page, limit) >= 0 && limit >= 0
    ensures r.Ok? ==> r.value.total == |Filter(favs, ListedFor(products, userId))|
    ensures r.Ok? ==> forall f :: f in r.value.data ==> f in favs && f.userId == userId && OnShelf(products, f)
    ensures r.Ok? ==> forall i, j :: 0 <= i < j < |r.value.data| ==> r.value.data[i].createdAt >= r.value.data[j].createdAt
    ensures r.Ok? && limit > 0 ==> |r.value.data| <= limit
    ensures r.Ok? ==> |r.value.data| == PageLength(|Listed(favs, products, userId)|, Offset(page, limit), limit)
    ensures r.Ok? ==> forall i :: 0 <= i < |r.value.data| ==>
              r.value.data[i] == Listed(favs, products, userId)[Offset(page, limit) + i]
  {
    PageFrom(Listed(favs, products, userId), Offset(page, limit), page, limit)
  }

  /** One page of a newest-first list, starting `skip` rows in. */
  function PageFrom(sorted: seq<Favorite>, skip: int, page: int, limit: int): (r: Result<FavoritePage>)
    requires forall i, j :: 0 <= i < j < |sorted| ==> sorted[i].createdAt >= sorted[j].createdAt
    ensures r.Ok? <==> skip >= 0 && limit >= 0
    ensures r.Ok? ==> r.value.total == |sorted|
    ensures r.Ok? ==> forall f :: f in r.value.data ==> f in sorted
    ensures r.Ok? ==> forall i, j :: 0 <= i < j < |r.value.data| ==> r.value.data[i].createdAt >= r.value.data[j].createdAt
    ensures r.Ok? && limit > 0 ==> |r.value.data| <= limit
    ensures r.Ok? ==> |r.value.data| == PageLength(|sorted|, skip, limit)
    ensures r.Ok? ==> forall i :: 0 <= i < |r.value.data| ==> skip + i < |sorted| && r.value.data[i] == sorted[skip + i]
  {
    var data :- Page(sorted, skip, limit);
    SliceNewestFirst(sorted, data, skip);
    Ok(FavoritePage(data, |sorted|, page, limit))
  }

  /** A run of consecutive rows of a newest-first list is newest first. */
  lemma SliceNewestFirst(sorted: seq<Favorite>, data: seq<Favorite>, skip: int)
    requires forall i, j :: 0 <= i < j < |sorted| ==> sorted[i].createdAt >= sorted[j].createdAt
    requires skip >= 0
    requires forall i :: 0 <= i < |data| ==> skip + i < |sorted| && data[i] == sorted[skip + i]
    ensures forall i, j :: 0 <= i < j < |data| ==> data[i].createdAt >= data[j].createdAt
    ensures forall f :: f in data ==> f in sorted
  {
    forall i, j | 0 <= i < j < |data| ensures data[i].createdAt >= data[j].createdAt {
      var a, b := data[i], data[j];
      assert a == sorted[skip + i];
      assert b == sorted[skip + j];
    }
  }
}

=== FILE: orders.dfy ===
/** The order lifecycle: an order is priced from the user's cart, confirmed
    once payment is seen (taking the stock of every item's variant and
    emptying the cart), and moved through its statuses by an admin, each
    step leaving an entry on the order's timeline. */
module Orders {
  import opened Common
  import opened Sorting
  import opened Catalog
  import Cart
  import Addresses
  import VariantSync

  datatype OrderStatus = Pending | Placed | Accepted | Shipped | OutForDelivery | Delivered | Cancelled

  /** The enum value stored and returned for a status. */
  function StatusValue(s: OrderStatus): string {
    match s
    case Pending => "Pending"
    case Placed => "Placed"
    case Accepted => "Accepted"
    case Shipped => "Shipped"
    case OutForDelivery => "OutForDelivery"
    case Delivered => "Delivered"
    case Cancelled => "Cancelled"
  }

  datatype PaymentType = Online | Cod

  datatype TimelineEntry = TimelineEntry(status: OrderStatus, description: string, timestamp: int)

  /** A purchased line: the variant it takes stock from and a snapshot of
      the product name, size, colour, quantity and unit price. */
  datatype OrderItem = OrderItem(
    variantId: nat,
    productName: string,
    size: Option<string>,
    color: Option<string>,
    quantity: int,
    price: real)

  datatype Order = Order(
    id: nat,
    orderNumber: string,
    userId: nat,
    addressId: nat,
    items: seq<OrderItem>,
    itemsTotal: real,
    shippingCost: real,
    taxAmount: real,
    totalAmount: real,
    paymentType: Option<PaymentType>,
    status: OrderStatus,
    paymentId: Option<string>,
    merchantTransactionId: Option<string>,
    estimatedDelivery: int,
    deliveredAt: Option<int>,
    timeline: seq<TimelineEntry>,
    createdAt: int)

  /** The tables an order operation reads or writes. */
  datatype Shop = Shop(
    catalog: Catalog,
    cart: seq<Cart.CartLine>,
    addresses: seq<Addresses.Address>,
    orders: seq<Order>)

  const DayMillis: int := 86400000

  function OrderKey(o: Order): nat {
    o.id
  }

  /** The order with primary key `id`. */
  function FindOrder(orders: seq<Order>, id: int): (r: Option<nat>)
    ensures r.Some? ==> r.value < |orders| && orders[r.value].id == id
    ensures r.None? <==> forall i :: 0 <= i < |orders| ==> orders[i].id != id
  {
    if |orders| == 0 then None
    else if orders[0].id == id then Some(0)
    else
      match FindOrder(orders[1..], id)
      case Some(i) => Some(i + 1)
      case None =>
        assert forall i :: 1 <= i < |orders| ==> orders[i] == orders[1..][i - 1];
        None
  }

  // ---------------------------------------------------------------------
  // Pricing
  // ---------------------------------------------------------------------

  /** Shipping is free above 500, otherwise a flat 50. */
  function ShippingCost(itemsTotal: real): real {
    if itemsTotal > 500.0 then 0.0 else 50.0
  }

  /** 18% tax on the items. */
  function TaxAmount(itemsTotal: real): real {
    itemsTotal * 0.18
  }

  /** What a cart row costs in an order: its product's price times its
      quantity, whether or not the product is archived. */
  function LineCost(products: seq<Product>): Cart.CartLine -> real {
    (l: Cart.CartLine) =>
      match FindProduct(products, l.productId)
      case Some(p) => p.price * l.quantity as real
      case None => 0.0
  }

  function ItemsTotal(items: seq<OrderItem>): real {
    if |items| == 0 then 0.0 else items[0].price * items[0].quantity as real + ItemsTotal(items[1..])
  }

  /** The free-shipping threshold makes a larger cart cheaper: 500 of items
      cost 640 in total, 510 of items cost 601.8. */
  lemma ShippingThresholdCliff()
    ensures var small := 500.0 + ShippingCost(500.0) + TaxAmount(500.0);
            var large := 510.0 + ShippingCost(510.0) + TaxAmount(510.0);
            small == 640.0 && large == 601.8 && large < small
  {
  }

  // ---------------------------------------------------------------------
  // Creating an order from the cart
  // ---------------------------------------------------------------------

  /** `v.size === item.size && v.color === item.color` among the product's
      variants; a NULL size or colour on the cart row matches no variant. */
  predicate VariantFits(v: Variant, productId: nat, size: Option<string>, color: Option<string>) {
    v.productId == productId && size == Some(v.size) && color == Some(v.color)
  }

  function MatchVariant(vs: seq<Variant>, productId: nat, size: Option<string>, color: Option<string>): (r: Option<nat>)
    ensures r.Some? ==> r.value < |vs| && VariantFits(vs[r.value], productId, size, color)
    ensures r.None? <==> forall j :: 0 <= j < |vs| ==> !VariantFits(vs[j], productId, size, color)
  {
    if |vs| == 0 then None
    else if VariantFits(vs[0], productId, size, color) then Some(0)
    else
      match MatchVariant(vs[1..], productId, size, color)
      case Some(j) => Some(j + 1)
      case None =>
        assert forall j :: 1 <= j < |vs| ==> vs[j] == vs[1..][j - 1];
        None
  }

  /** A cart item can be ordered: its first fitting variant has the stock. */
  predicate Available(ci: Cart.CartItem, vs: seq<Variant>) {
    var m := MatchVariant(vs, ci.product.id, ci.line.size, ci.line.color);
    m.Some? && vs[m.value].stock >= ci.line.quantity
  }

  /** A template renders a NULL column as "null". */
  function NullText(s: Option<string>): string {
    if s.Some? then s.value else "null"
  }

  /** The order item a cart item becomes. */
  predicate Snapshots(oi: OrderItem, ci: Cart.CartItem) {
    && oi.productName == ci.product.name
    && oi.size == ci.line.size && oi.color == ci.line.color
    && oi.quantity == ci.line.quantity && oi.price == ci.product.price
  }

  function BuildItems(items: seq<Cart.CartItem>, vs: seq<Variant>): (r: Result<seq<OrderItem>>)
    ensures r.Ok? <==> forall k :: 0 <= k < |items| ==> Available(items[k], vs)
    ensures r.Err? ==> r.error.BadRequest?
    ensures r.Ok? ==> |r.value| == |items|
    ensures r.Ok? ==> forall k :: 0 <= k < |items| ==>
              Snapshots(r.value[k], items[k]) &&
              r.value[k].variantId == vs[MatchVariant(vs, items[k].product.id, items[k].line.size, items[k].line.color).value].id
  {
    if |items| == 0 then Ok([])
    else
      var ci := items[0];
      assert forall k :: 1 <= k < |items| ==> items[k] == items[1..][k - 1];
      if !Available(ci, vs) then
        Err(BadRequest("Item " + ci.product.name + " (" + NullText(ci.line.size) + ") is out of stock"))
      else
        var v := vs[MatchVariant(vs, ci.product.id, ci.line.size, ci.line.color).value];
        var rest := BuildItems(items[1..], vs);
        if rest.Err? then rest
        else
          Ok([OrderItem(v.id, ci.product.name, ci.line.size, ci.line.color, ci.line.quantity, ci.product.price)]
             + rest.value)
  }

  /** The text before the first '-'. */
  function FirstSegment(s: string): (r: string)
    ensures r <= s
    ensures forall i :: 0 <= i < |r| ==> r[i] != '-'
    ensures |r| < |s| ==> s[|r|] == '-'
  {
    if |s| == 0 || s[0] == '-' then "" else [s[0]] + FirstSegment(s[1..])
  }

  /** `ORD-` followed by the upper-cased first group of a UUID. */
  function OrderNumber(uuid: string): (r: string)
    ensures StartsWith(r, "ORD-")
    ensures r[4..] == Upper(FirstSegment(uuid))
  {
    "ORD-" + Upper(FirstSegment(uuid))
  }

  /** The order `createOrderFromCart` builds; the save may still refuse it. */
  function NewOrder(shop: Shop, userId: nat, addressId: nat, items: seq<OrderItem>, paymentType: Option<PaymentType>,
                    now: int, uuid: string): Order
  {
    var itemsTotal := ItemsTotal(items);
    var shipping := ShippingCost(itemsTotal);
    var tax := TaxAmount(itemsTotal);
    Order(NextId(shop.orders, OrderKey), OrderNumber(uuid), userId, addressId, items,
          itemsTotal, shipping, tax, itemsTotal + shipping + tax, paymentType, Pending, None, None,
          now + 5 * DayMillis, None, [TimelineEntry(Pending, "Order Created", now)], now)
  }

  predicate NumberTaken(orders: seq<Order>, number: string) {
    exists i :: 0 <= i < |orders| && orders[i].orderNumber == number
  }

  function CreateOrder(shop: Shop, userId: nat, addressId: int, paymentType: Option<PaymentType>, now: int, uuid: string)
    : Result<(Shop, Order)>
  {
    match Addresses.FindOne(shop.addresses, addressId, userId)
    case None => Err(NotFound("Address not found"))
    case Some(a) => OrderFromSummary(shop, userId, a, paymentType, now, uuid)
  }

  /** Everything `createOrderFromCart` needs to succeed: an address of the
      user's, a non-empty cart whose products all exist, a variant with the
      stock for every cart row, and an unused order number. */
  ghost predicate CanCreate(shop: Shop, userId: nat, addressId: int, uuid: string) {
    && Addresses.FindOne(shop.addresses, addressId, userId).Some?
    && (var s := Cart.GetCartSummary(shop.cart, shop.catalog.products, userId);
        && s.Ok? && s.value.items != []
        && (forall k :: 0 <= k < |s.value.items| ==> Available(s.value.items[k], shop.catalog.variants)))
    && !NumberTaken(shop.orders, OrderNumber(uuid))
  }

  /** `createOrderFromCart`: a PENDING order for every row of the user's
      cart, newest row first, priced from the rows' products; nothing but
      the new order is written. */
  function CreateOrderFromCart(shop: Shop, userId: nat, addressId: int, paymentType: Option<PaymentType>,
                               now: int, uuid: string): (r: Result<(Shop, Order)>)
    ensures (r.Err? && r.error == NotFound("Address not found")) <==>
              Addresses.FindOne(shop.addresses, addressId, userId).None?
    ensures (Addresses.FindOne(shop.addresses, addressId, userId).Some? && Cart.UserLines(shop.cart, userId) == [])
              ==> r == Err(BadRequest("Cart is empty"))
    ensures r.Ok? <==> CanCreate(shop, userId, addressId, uuid)
    ensures r.Ok? ==> CreatedFromCart(shop, userId, addressId, paymentType, now, uuid, r.value)
  {
    CreateOrderOutcome(shop, userId, addressId, paymentType, now, uuid);
    CreateOrderContents(shop, userId, addressId, paymentType, now, uuid);
    CreateOrder(shop, userId, addressId, paymentType, now, uuid)
  }

  /** What a created order holds, in terms of the cart it came from. */
  ghost predicate CreatedFromCart(shop: Shop, userId: nat, addressId: int, paymentType: Option<PaymentType>,
                                  now: int, uuid: string, out: (Shop, Order)) {
    var (after, o) := out;
    var summary := Cart.GetCartSummary(shop.cart, shop.catalog.products, userId);
    var vs := shop.catalog.variants;
    && after == shop.(orders := shop.orders + [o])
    && o.userId == userId && o.addressId == addressId && o.paymentType == paymentType
    && o.orderNumber == OrderNumber(uuid)
    && o.status == Pending && o.paymentId.None? && o.merchantTransactionId.None? && o.deliveredAt.None?
    && o.estimatedDelivery == now + 5 * DayMillis && o.createdAt == now
    && o.timeline == [TimelineEntry(Pending, "Order Created", now)]
    && o.itemsTotal == SumReal(Cart.UserLines(shop.cart, userId), LineCost(shop.catalog.products))
    && (o.shippingCost == 0.0 <==> o.itemsTotal > 500.0)
    && (o.shippingCost == 0.0 || o.shippingCost == 50.0)
    && o.taxAmount == 0.18 * o.itemsTotal
    && o.totalAmount == o.itemsTotal + o.shippingCost + o.taxAmount
    && summary.Ok?
    && |o.items| == |summary.value.items| == |Cart.UserLines(shop.cart, userId)|
    && (forall k :: 0 <= k < |o.items| ==> Snapshots(o.items[k], summary.value.items[k]))
    && (forall k :: 0 <= k < |o.items| ==>
          var ci := summary.value.items[k];
          var m := MatchVariant(vs, ci.product.id, ci.line.size, ci.line.color);
          m.Some? && o.items[k].variantId == vs[m.value].id)
    && (forall i :: 0 <= i < |shop.orders| ==> shop.orders[i].id != o.id)
  }

  /** The cart summary has one item per row of the user's cart. */
  lemma SummarySize(shop: Shop, userId: nat)
    ensures var s := Cart.GetCartSummary(shop.cart, shop.catalog.products, userId);
            s.Ok? ==> |s.value.items| == |Cart.UserLines(shop.cart, userId)|
  {
    var s := Cart.GetCartSummary(shop.cart, shop.catalog.products, userId);
    if s.Ok? {
      var mine := Cart.UserLines(shop.cart, userId);
      assert |Cart.LinesOf(s.value.items)| == |multiset(Cart.LinesOf(s.value.items))| == |multiset(mine)| == |mine|;
    }
  }

  lemma CreateOrderOutcome(shop: Shop, userId: nat, addressId: int, paymentType: Option<PaymentType>, now: int, uuid: string)
    ensures var r := CreateOrder(shop, userId, addressId, paymentType, now, uuid);
            && ((r.Err? && r.error == NotFound("Address not found")) <==>
                  Addresses.FindOne(shop.addresses, addressId, userId).None?)
            && ((Addresses.FindOne(shop.addresses, addressId, userId).Some? && Cart.UserLines(shop.cart, userId) == [])
                  ==> r == Err(BadRequest("Cart is empty")))
            && (r.Ok? <==> CanCreate(shop, userId, addressId, uuid))
  {
    match Addresses.FindOne(shop.addresses, addressId, userId)
    case None =>
    case Some(a) =>
      var s := Cart.GetCartSummary(shop.cart, shop.catalog.products, userId);
      if s.Ok? {
        SummarySize(shop, userId);
      }
      AfterAddress(shop, userId, a, paymentType, now, uuid);
  }

  /** `createOrderFromCart` once the address has been found. */
  function OrderFromSummary(shop: Shop, userId: nat, a: nat, paymentType: Option<PaymentType>, now: int, uuid: string)
    : Result<(Shop, Order)>
    requires a < |shop.addresses|
  {
    var summary :- Cart.GetCartSummary(shop.cart, shop.catalog.products, userId);
    if |summary.items| == 0 then Err(BadRequest("Cart is empty"))
    else
      var items :- BuildItems(summary.items, shop.catalog.variants);
      var order := NewOrder(shop, userId, shop.addresses[a].id, items, paymentType, now, uuid);
      if NumberTaken(shop.orders, order.orderNumber) then
        Err(InternalError("duplicate key value violates unique constraint on orderNumber"))
      else
        Ok((shop.(orders := shop.orders + [order]), order))
  }

  lemma AfterAddress(shop: Shop, userId: nat, a: nat, paymentType: Option<PaymentType>, now: int, uuid: string)
    requires a < |shop.addresses|
    ensures var r := OrderFromSummary(shop, userId, a, paymentType, now, uuid);
            var s := Cart.GetCartSummary(shop.cart, shop.catalog.products, userId);
            && (r.Err? ==> !r.error.NotFound?)
            && (s.Ok? && s.value.items == [] ==> r == Err(BadRequest("Cart is empty")))
            && (r.Ok? <==>
                  && s.Ok? && s.value.items != []
                  && (forall k :: 0 <= k < |s.value.items| ==> Available(s.value.items[k], shop.catalog.variants))
                  && !NumberTaken(shop.orders, OrderNumber(uuid)))
  {
    var r := OrderFromSummary(shop, userId, a, paymentType, now, uuid);
    var s := Cart.GetCartSummary(shop.cart, shop.catalog.products, userId);
    if s.Ok? && s.value.items != [] {
      var b := BuildItems(s.value.items, shop.catalog.variants);
      if b.Ok? {
        var order := NewOrder(shop, userId, shop.addresses[a].id, b.value, paymentType, now, uuid);
        assert order.orderNumber == OrderNumber(uuid);
        assert r == (if NumberTaken(shop.orders, OrderNumber(uuid))
                     then Err(InternalError("duplicate key value violates unique constraint on orderNumber"))
                     else Ok((shop.(orders := shop.orders + [order]), order)));
      } else {
        assert r == Err(b.error);
      }
    }
  }

  lemma CreateOrderContents(shop: Shop, userId: nat, addressId: int, paymentType: Option<PaymentType>, now: int, uuid: string)
    ensures var r := CreateOrder(shop, userId, addressId, paymentType, now, uuid);
            r.Ok? ==> CreatedFromCart(shop, userId, addressId, paymentType, now, uuid, r.value)
  {
    match Addresses.FindOne(shop.addresses, addressId, userId)
    case None =>
    case Some(a) =>
      var s := Cart.GetCartSummary(shop.cart, shop.catalog.products, userId);
      if s.Ok? && s.value.items != [] {
        var b := BuildItems(s.value.items, shop.catalog.variants);
        if b.Ok? && !NumberTaken(shop.orders, OrderNumber(uuid)) {
          var order := NewOrder(shop, userId, shop.addresses[a].id, b.value, paymentType, now, uuid);
          assert OrderFromSummary(shop, userId, a, paymentType, now, uuid) == Ok((shop.(orders := shop.orders + [order]), order));
          BuiltFromCart(shop, userId, shop.addresses[a].id, paymentType, now, uuid, b.value);
        }
      }
  }

  /** The order built from the user's cart summary and the items matched
      to it holds what `CreatedFromCart` names. */
  lemma BuiltFromCart(shop: Shop, userId: nat, addressId: nat, paymentType: Option<PaymentType>, now: int, uuid: string,
                      items: seq<OrderItem>)
    ensures var s := Cart.GetCartSummary(shop.cart, shop.catalog.products, userId);
            var o := NewOrder(shop, userId, addressId, items, paymentType, now, uuid);
            s.Ok? && BuildItems(s.value.items, shop.catalog.variants) == Ok(items) ==>
              CreatedFromCart(shop, userId, addressId, paymentType, now, uuid, (shop.(orders := shop.orders + [o]), o))
  {
    var s := Cart.GetCartSummary(shop.cart, shop.catalog.products, userId);
    if s.Ok? && BuildItems(s.value.items, shop.catalog.variants) == Ok(items) {
      NewOrderShape(shop, userId, addressId, items, paymentType, now, uuid);
      SummarySize(shop, userId);
      OrderTotal(shop.cart, shop.catalog.products, userId, s.value.items, items);
    }
  }

  /** The fields `NewOrder` fills in, and the pricing rules they follow. */
  lemma NewOrderShape(shop: Shop, userId: nat, addressId: nat, items: seq<OrderItem>, paymentType: Option<PaymentType>,
                      now: int, uuid: string)
    ensures var o := NewOrder(shop, userId, addressId, items, paymentType, now, uuid);
            && o.userId == userId && o.status == Pending && o.paymentId.None? && o.items == items
            && o.addressId == addressId && o.paymentType == paymentType && o.orderNumber == OrderNumber(uuid)
            && o.merchantTransactionId.None? && o.deliveredAt.None?
            && o.estimatedDelivery == now + 5 * DayMillis && o.createdAt == now
            && o.timeline == [TimelineEntry(Pending, "Order Created", now)]
            && o.itemsTotal == ItemsTotal(items)
            && (o.shippingCost == 0.0 <==> o.itemsTotal > 500.0)
            && (o.shippingCost == 0.0 || o.shippingCost == 50.0)
            && o.taxAmount == 0.18 * o.itemsTotal
            && o.totalAmount == o.itemsTotal + o.shippingCost + o.taxAmount
            && (forall i :: 0 <= i < |shop.orders| ==> shop.orders[i].id != o.id)
  {
  }

  /** The order's item total is the cost of every row of the user's cart. */
  lemma OrderTotal(cart: seq<Cart.CartLine>, products: seq<Product>, userId: nat,
                   summary: seq<Cart.CartItem>, items: seq<OrderItem>)
    ensures && Cart.SummaryOf(cart, products, userId).Ok? && Cart.SummaryOf(cart, products, userId).value.items == summary
            && |items| == |summary| && (forall k :: 0 <= k < |items| ==> Snapshots(items[k], summary[k]))
            ==> ItemsTotal(items) == SumReal(Cart.UserLines(cart, userId), LineCost(products))
  {
    if && Cart.SummaryOf(cart, products, userId).Ok? && Cart.SummaryOf(cart, products, userId).value.items == summary
       && |items| == |summary| && (forall k :: 0 <= k < |items| ==> Snapshots(items[k], summary[k])) {
      var sorted := Cart.CartOrder(cart, userId);
      assert Cart.Join(sorted, products) == Ok(summary);
      Cart.JoinedRows(sorted, products, summary);
      ItemsCost(sorted, products, summary, items);
      SumPermutation(sorted, Cart.UserLines(cart, userId), LineCost(products), Cart.LineQuantity);
    }
  }

  lemma {:induction false} ItemsCost(ls: seq<Cart.CartLine>, products: seq<Product>,
                                     summary: seq<Cart.CartItem>, items: seq<OrderItem>)
    requires |summary| == |ls|
    requires forall i :: 0 <= i < |ls| ==>
               summary[i].line == ls[i] && Some(summary[i].product) == FindProduct(products, ls[i].productId)
    requires |items| == |summary| && forall k :: 0 <= k < |items| ==> Snapshots(items[k], summary[k])
    ensures ItemsTotal(items) == SumReal(ls, LineCost(products))
    decreases |ls|
  {
    if |ls| > 0 {
      assert forall i :: 1 <= i < |ls| ==>
        ls[1..][i - 1] == ls[i] && summary[1..][i - 1] == summary[i] && items[1..][i - 1] == items[i];
      ItemsCost(ls[1..], products, summary[1..], items[1..]);
      assert Snapshots(items[0], summary[0]) && FindProduct(products, ls[0].productId) == Some(summary[0].product);
      assert LineCost(products)(ls[0]) == items[0].price * items[0].quantity as real;
    }
  }

  /** When none of the products in the cart is archived, the order's item
      total is the cart's displayed total. */
  lemma OrderTotalMatchesCartWhenNothingArchived(shop: Shop, userId: nat, addressId: int,
                                                  paymentType: Option<PaymentType>, now: int, uuid: string)
    requires forall l :: l in Cart.UserLines(shop.cart, userId) ==>
               FindProduct(shop.catalog.products, l.productId).Some? &&
               !FindProduct(shop.catalog.products, l.productId).value.isArchived
    ensures var r := CreateOrderFromCart(shop, userId, addressId, paymentType, now, uuid);
            r.Ok? ==> r.value.1.itemsTotal == Cart.GetCartSummary(shop.cart, shop.catalog.products, userId).value.totalAmount
  {
    var mine := Cart.UserLines(shop.cart, userId);
    SameCostUnarchived(mine, shop.catalog.products);
  }

  lemma {:induction false} SameCostUnarchived(ls: seq<Cart.CartLine>, products: seq<Product>)
    requires forall l :: l in ls ==>
               FindProduct(products, l.productId).Some? && !FindProduct(products, l.productId).value.isArchived
    ensures SumReal(ls, LineCost(products)) == SumReal(ls, Cart.LineAmount(products))
    decreases |ls|
  {
    if |ls| > 0 {
      assert ls[0] in ls;
      assert forall l :: l in ls[1..] ==> l in ls;
      SameCostUnarchived(ls[1..], products);
    }
  }

  // ---------------------------------------------------------------------
  // Confirming payment
  // ---------------------------------------------------------------------

  /** The variant with primary key `id`. */
  function VariantIndex(vs: seq<Variant>, id: nat): (r: Option<nat>)
    ensures r.Some? ==> r.value < |vs| && vs[r.value].id == id
    ensures r.None? <==> forall j :: 0 <= j < |vs| ==> vs[j].id != id
  {
    if |vs| == 0 then None
    else if vs[0].id == id then Some(0)
    else
      match VariantIndex(vs[1..], id)
      case Some(j) => Some(j + 1)
      case None =>
        assert forall j :: 1 <= j < |vs| ==> vs[j] == vs[1..][j - 1];
        None
  }

  predicate VariantIdsUnique(vs: seq<Variant>) {
    forall i, j :: 0 <= i < j < |vs| ==> vs[i].id != vs[j].id
  }

  /** Units of variant `id` the items ask for. */
  function Demand(items: seq<OrderItem>, id: nat): int {
    if |items| == 0 then 0
    else (if items[0].variantId == id then items[0].quantity else 0) + Demand(items[1..], id)
  }

  /** Every item's variant still exists. */
  predicate Resolvable(vs: seq<Variant>, items: seq<OrderItem>) {
    forall k :: 0 <= k < |items| ==> VariantIndex(vs, items[k].variantId).Some?
  }

  /** Every variant the items ask for has the units they ask for. */
  predicate Fulfillable(vs: seq<Variant>, items: seq<OrderItem>) {
    forall j :: 0 <= j < |vs| ==> Demand(items, vs[j].id) == 0 || Demand(items, vs[j].id) <= vs[j].stock
  }

  /** Takes each item's quantity from its variant in turn, each save running
      the variant subscriber; the first item that finds too little stock
      aborts the whole transaction. */
  function Decrement(c: Catalog, items: seq<OrderItem>): (r: Result<Catalog>)
    ensures r.Ok? ==> |r.value.variants| == |c.variants|
    ensures r.Ok? ==> forall j :: 0 <= j < |c.variants| ==> r.value.variants[j].id == c.variants[j].id
    ensures r.Err? ==> r.error.BadRequest? || r.error.InternalError?
    decreases |items|
  {
    if |items| == 0 then Ok(c)
    else
      var it := items[0];
      match VariantIndex(c.variants, it.variantId)
      case None => Err(InternalError("Cannot read properties of null (reading 'stock')"))
      case Some(j) =>
        var v := c.variants[j];
        if v.stock < it.quantity then Err(BadRequest("Stock for " + it.productName + " ran out."))
        else Decrement(VariantSync.UpdateVariant(c, j, v.(stock := v.stock - it.quantity)), items[1..])
  }

  /** A successful decrement lowers every variant's stock by exactly the
      units the items ask of it and changes nothing else about variants. */
  lemma {:induction false} DecrementEffect(c: Catalog, items: seq<OrderItem>)
    requires VariantIdsUnique(c.variants)
    requires Decrement(c, items).Ok?
    ensures forall j :: 0 <= j < |c.variants| ==>
              Decrement(c, items).value.variants[j] == c.variants[j].(stock := c.variants[j].stock - Demand(items, c.variants[j].id))
    decreases |items|
  {
    if |items| > 0 {
      var it := items[0];
      var j0, c1 := DecrementUnfold(c, items);
      var v := c.variants[j0];
      assert c1.variants == c.variants[j0 := v.(stock := v.stock - it.quantity)];
      assert VariantIdsUnique(c1.variants);
      DecrementEffect(c1, items[1..]);
      var d := Decrement(c, items).value;
      assert d == Decrement(c1, items[1..]).value;
      forall j | 0 <= j < |c.variants|
        ensures d.variants[j] == c.variants[j].(stock := c.variants[j].stock - Demand(items, c.variants[j].id))
      {
        DemandAt(c.variants, j0, items, j);
        assert c1.variants[j].id == c.variants[j].id;
      }
    }
  }

  /** The whole order's demand on a variant is the first item's share, if it
      names that variant, plus the rest's. */
  lemma DemandAt(vs: seq<Variant>, j0: nat, items: seq<OrderItem>, j: nat)
    requires VariantIdsUnique(vs)
    requires |items| > 0 && j0 < |vs| && vs[j0].id == items[0].variantId && j < |vs|
    ensures Demand(items, vs[j].id) == (if j == j0 then items[0].quantity else 0) + Demand(items[1..], vs[j].id)
  {
  }

  lemma {:induction false} DemandNonNegative(items: seq<OrderItem>, id: nat)
    requires forall k :: 0 <= k < |items| ==> items[k].quantity >= 1
    ensures Demand(items, id) >= 0
    ensures Demand(items, id) == 0 <==> forall k :: 0 <= k < |items| ==> items[k].variantId != id
    decreases |items|
  {
    if |items| > 0 {
      DemandNonNegative(items[1..], id);
      assert forall k :: 1 <= k < |items| ==> items[k] == items[1..][k - 1];
    }
  }

  /** With positive quantities, the decrement succeeds exactly when every
      item's variant exists and each variant's stock covers the total
      quantity the order asks of it. */
  lemma {:induction false} DecrementSucceedsIff(c: Catalog, items: seq<OrderItem>)
    requires VariantIdsUnique(c.variants)
    requires forall k :: 0 <= k < |items| ==> items[k].quantity >= 1
    ensures Decrement(c, items).Ok? <==> Resolvable(c.variants, items) && Fulfillable(c.variants, items)
    decreases |items|
  {
    if |items| > 0 {
      var it := items[0];
      match VariantIndex(c.variants, it.variantId)
      case None =>
        DecrementMissing(c, items);
      case Some(j0) =>
        var v := c.variants[j0];
        if v.stock < it.quantity {
          DecrementShort(c, items, j0);
        } else {
          var c1 := DecrementStep(c, items, j0);
          DecrementCovered(c, items, j0);
          DecrementSucceedsIff(c1, items[1..]);
        }
    }
  }

  /** An item whose variant is gone fails the decrement. */
  lemma DecrementMissing(c: Catalog, items: seq<OrderItem>)
    requires |items| > 0 && VariantIndex(c.variants, items[0].variantId).None?
    ensures Decrement(c, items).Err? && !Resolvable(c.variants, items)
  {
  }

  /** An item asking more than its variant holds fails the decrement. */
  lemma DecrementShort(c: Catalog, items: seq<OrderItem>, j0: nat)
    requires |items| > 0 && VariantIndex(c.variants, items[0].variantId) == Some(j0)
    requires forall k :: 0 <= k < |items| ==> items[k].quantity >= 1
    requires c.variants[j0].stock < items[0].quantity
    ensures Decrement(c, items).Err? && !Fulfillable(c.variants, items)
  {
    var rest := items[1..];
    DemandNonNegative(rest, items[0].variantId);
    assert forall k :: 1 <= k < |items| ==> items[k] == rest[k - 1];
    assert Demand(items, c.variants[j0].id) > c.variants[j0].stock;
  }

  /** An item its variant covers: the decrement goes on with the rest
      against the updated catalog, which is as able to serve them as the
      old one was to serve all. */
  lemma DecrementStep(c: Catalog, items: seq<OrderItem>, j0: nat) returns (c1: Catalog)
    requires VariantIdsUnique(c.variants)
    requires |items| > 0 && VariantIndex(c.variants, items[0].variantId) == Some(j0)
    requires forall k :: 0 <= k < |items| ==> items[k].quantity >= 1
    requires c.variants[j0].stock >= items[0].quantity
    ensures c1 == VariantSync.UpdateVariant(c, j0, c.variants[j0].(stock := c.variants[j0].stock - items[0].quantity))
    ensures VariantIdsUnique(c1.variants)
    ensures forall k :: 0 <= k < |items| - 1 ==> items[1..][k].quantity >= 1
    ensures (Resolvable(c.variants, items) && Fulfillable(c.variants, items)) <==>
            (Resolvable(c1.variants, items[1..]) && Fulfillable(c1.variants, items[1..]))
  {
    var it := items[0];
    var v := c.variants[j0];
    c1 := VariantSync.UpdateVariant(c, j0, v.(stock := v.stock - it.quantity));
    var vs1 := c.variants[j0 := v.(stock := v.stock - it.quantity)];
    assert c1.variants == vs1;
    StepIff(c.variants, vs1, j0, items);
  }

  /** The first item's variant has the units: the decrement goes on with
      the rest against the catalog that took them. */
  lemma DecrementCovered(c: Catalog, items: seq<OrderItem>, j0: nat)
    requires |items| > 0 && VariantIndex(c.variants, items[0].variantId) == Some(j0)
    requires c.variants[j0].stock >= items[0].quantity
    ensures Decrement(c, items) ==
            Decrement(VariantSync.UpdateVariant(c, j0, c.variants[j0].(stock := c.variants[j0].stock - items[0].quantity)), items[1..])
  {
  }

  lemma StepIff(vs: seq<Variant>, vs1: seq<Variant>, j0: nat, items: seq<OrderItem>)
    requires VariantIdsUnique(vs)
    requires |items| > 0 && VariantIndex(vs, items[0].variantId) == Some(j0)
    requires forall k :: 0 <= k < |items| ==> items[k].quantity >= 1
    requires vs[j0].stock >= items[0].quantity
    requires vs1 == vs[j0 := vs[j0].(stock := vs[j0].stock - items[0].quantity)]
    ensures VariantIdsUnique(vs1)
    ensures (Resolvable(vs, items) && Fulfillable(vs, items)) <==>
            (Resolvable(vs1, items[1..]) && Fulfillable(vs1, items[1..]))
  {
    ResolvableStep(vs, vs1, items);
    FulfillableStep(vs, j0, items);
  }

  /** Once the first item's variant is found, resolving the rest against
      the updated table is resolving all of them against the old one. */
  lemma ResolvableStep(vs: seq<Variant>, vs1: seq<Variant>, items: seq<OrderItem>)
    requires |items| > 0 && VariantIndex(vs, items[0].variantId).Some?
    requires |vs| == |vs1| && forall j :: 0 <= j < |vs| ==> vs[j].id == vs1[j].id
    ensures Resolvable(vs, items) <==> Resolvable(vs1, items[1..])
  {
    var rest := items[1..];
    assert forall k :: 1 <= k < |items| ==> items[k] == rest[k - 1];
    forall k | 0 <= k < |rest|
      ensures VariantIndex(vs, rest[k].variantId).Some? <==> VariantIndex(vs1, rest[k].variantId).Some?
    {
      SameIds(vs, vs1, rest[k].variantId);
    }
  }

  /** Taking the first item's units from a variant that has them leaves the
      rest of the order exactly as fulfillable as the whole was. */
  lemma FulfillableStep(vs: seq<Variant>, j0: nat, items: seq<OrderItem>)
    requires |items| > 0 && j0 < |vs| && vs[j0].id == items[0].variantId
    requires VariantIdsUnique(vs)
    requires forall k :: 0 <= k < |items| ==> items[k].quantity >= 1
    requires vs[j0].stock >= items[0].quantity
    ensures Fulfillable(vs, items) <==>
            Fulfillable(vs[j0 := vs[j0].(stock := vs[j0].stock - items[0].quantity)], items[1..])
  {
    var it := items[0];
    var rest := items[1..];
    var vs1 := vs[j0 := vs[j0].(stock := vs[j0].stock - it.quantity)];
    assert forall k :: 1 <= k < |items| ==> items[k] == rest[k - 1];
    forall j | 0 <= j < |vs|
      ensures (Demand(items, vs[j].id) == 0 || Demand(items, vs[j].id) <= vs[j].stock) <==>
              (Demand(rest, vs1[j].id) == 0 || Demand(rest, vs1[j].id) <= vs1[j].stock)
    {
      DemandNonNegative(rest, vs[j].id);
      if j != j0 {
        assert vs[j].id != it.variantId;
      }
    }
  }

  lemma SameIds(a: seq<Variant>, b: seq<Variant>, id: nat)
    requires |a| == |b| && forall j :: 0 <= j < |a| ==> a[j].id == b[j].id
    ensures VariantIndex(a, id).Some? <==> VariantIndex(b, id).Some?
  {
    if VariantIndex(a, id).Some? {
      assert b[VariantIndex(a, id).value].id == id;
    }
    if VariantIndex(b, id).Some? {
      assert a[VariantIndex(b, id).value].id == id;
    }
  }

  function ConfirmPayment(shop: Shop, orderId: int, paymentId: Option<string>, now: int): (r: Result<(Shop, Order)>)
  {
    match FindOrder(shop.orders, orderId)
    case None => Err(NotFound("Order not found"))
    case Some(i) =>
      var o := shop.orders[i];
      if o.status != Pending then Ok((shop, o))
      else
        var catalog :- Decrement(shop.catalog, o.items);
        var placed := o.(status := Placed, paymentId := paymentId,
                         timeline := o.timeline + [TimelineEntry(Placed, "Payment Confirmed", now)]);
        Ok((Shop(catalog, Cart.ClearCart(shop.cart, o.userId), shop.addresses, shop.orders[i := placed]), placed))
  }

  /** `confirmPayment`: on a PENDING order, takes every item's units from
      its variant, marks the order PLACED with the payment id, logs one
      timeline entry and empties the buyer's cart, all or nothing; on any
      other order it changes nothing. */
  function ConfirmPaymentOf(shop: Shop, orderId: int, paymentId: Option<string>, now: int): (r: Result<(Shop, Order)>)
    ensures (r.Err? && r.error.NotFound?) <==> FindOrder(shop.orders, orderId).None?
    ensures r.Ok? && shop.orders[FindOrder(shop.orders, orderId).value].status != Pending ==>
              r.value == (shop, shop.orders[FindOrder(shop.orders, orderId).value])
    ensures FindOrder(shop.orders, orderId).Some? && shop.orders[FindOrder(shop.orders, orderId).value].status == Pending
            && VariantIdsUnique(shop.catalog.variants)
            && (forall k :: 0 <= k < |shop.orders[FindOrder(shop.orders, orderId).value].items| ==>
                  shop.orders[FindOrder(shop.orders, orderId).value].items[k].quantity >= 1)
            ==> (r.Ok? <==> Resolvable(shop.catalog.variants, shop.orders[FindOrder(shop.orders, orderId).value].items)
                            && Fulfillable(shop.catalog.variants, shop.orders[FindOrder(shop.orders, orderId).value].items))
    ensures r.Ok? && shop.orders[FindOrder(shop.orders, orderId).value].status == Pending ==>
              Confirmed(shop, FindOrder(shop.orders, orderId).value, paymentId, now, r.value)
  {
    ConfirmFacts(shop, orderId, paymentId, now);
    ConfirmPayment(shop, orderId, paymentId, now)
  }

  /** The state after a PENDING order `i` is confirmed. */
  ghost predicate Confirmed(shop: Shop, i: nat, paymentId: Option<string>, now: int, out: (Shop, Order)) {
    var (after, placed) := out;
    && i < |shop.orders|
    && var o := shop.orders[i];
    && placed == o.(status := Placed, paymentId := paymentId,
                    timeline := o.timeline + [TimelineEntry(Placed, "Payment Confirmed", now)])
    && after.orders == shop.orders[i := placed]
    && after.addresses == shop.addresses
    && (forall l :: l in after.cart <==> l in shop.cart && l.userId != o.userId)
    && |after.catalog.variants| == |shop.catalog.variants|
    && (VariantIdsUnique(shop.catalog.variants) ==>
          forall j :: 0 <= j < |shop.catalog.variants| ==>
            after.catalog.variants[j] == shop.catalog.variants[j].(stock := shop.catalog.variants[j].stock - Demand(o.items, shop.catalog.variants[j].id)))
  }

  lemma ConfirmFacts(shop: Shop, orderId: int, paymentId: Option<string>, now: int)
    ensures var r := ConfirmPayment(shop, orderId, paymentId, now);
            && ((r.Err? && r.error.NotFound?) <==> FindOrder(shop.orders, orderId).None?)
            && (r.Ok? && shop.orders[FindOrder(shop.orders, orderId).value].status != Pending ==>
                  r.value == (shop, shop.orders[FindOrder(shop.orders, orderId).value]))
            && (FindOrder(shop.orders, orderId).Some? && shop.orders[FindOrder(shop.orders, orderId).value].status == Pending
                && VariantIdsUnique(shop.catalog.variants)
                && (forall k :: 0 <= k < |shop.orders[FindOrder(shop.orders, orderId).value].items| ==>
                      shop.orders[FindOrder(shop.orders, orderId).value].items[k].quantity >= 1)
                ==> (r.Ok? <==> Resolvable(shop.catalog.variants, shop.orders[FindOrder(shop.orders, orderId).value].items)
                                && Fulfillable(shop.catalog.variants, shop.orders[FindOrder(shop.orders, orderId).value].items)))
            && (r.Ok? && shop.orders[FindOrder(shop.orders, orderId).value].status == Pending ==>
                  Confirmed(shop, FindOrder(shop.orders, orderId).value, paymentId, now, r.value))
  {
    match FindOrder(shop.orders, orderId)
    case None =>
    case Some(i) =>
      var o := shop.orders[i];
      if o.status == Pending {
        var d := Decrement(shop.catalog, o.items);
        if VariantIdsUnique(shop.catalog.variants) {
          if forall k :: 0 <= k < |o.items| ==> o.items[k].quantity >= 1 {
            DecrementSucceedsIff(shop.catalog, o.items);
          }
          if d.Ok? {
            DecrementEffect(shop.catalog, o.items);
          }
        }
      }
  }

  /** Confirming an order twice is the same as confirming it once. */
  lemma ConfirmIdempotent(shop: Shop, orderId: int, paymentId: Option<string>, now: int, later: int)
    requires ConfirmPayment(shop, orderId, paymentId, now).Ok?
    ensures var (after, _) := ConfirmPayment(shop, orderId, paymentId, now).value;
            ConfirmPayment(after, orderId, paymentId, later).Ok? &&
            ConfirmPayment(after, orderId, paymentId, later).value.0 == after
  {
    var (after, placed) := ConfirmPayment(shop, orderId, paymentId, now).value;
    var i := FindOrder(shop.orders, orderId).value;
    assert after.orders[i].id == orderId;
    var i2 := FindOrder(after.orders, orderId).value;
    FirstIndexSame(shop.orders, after.orders, orderId, i, i2);
  }

  /** Orders tables with the same ids find a key at the same index. */
  lemma FirstIndexSame(a: seq<Order>, b: seq<Order>, id: int, i: nat, i2: nat)
    requires |a| == |b| && forall k :: 0 <= k < |a| ==> a[k].id == b[k].id
    requires FindOrder(a, id) == Some(i) && FindOrder(b, id) == Some(i2)
    ensures i == i2
    decreases |a|
  {
    if i != 0 && i2 != 0 {
      FirstIndexSame(a[1..], b[1..], id, i - 1, i2 - 1);
    }
  }

  /** The variant subscriber keeps the catalog's aggregates right across a
      payment confirmation. */
  lemma {:induction false} DecrementKeepsSynced(c: Catalog, items: seq<OrderItem>)
    requires VariantSync.Synced(c) && VariantSync.KeysValid(c)
    requires Decrement(c, items).Ok?
    ensures VariantSync.Synced(Decrement(c, items).value)
    decreases |items|
  {
    if |items| > 0 {
      var j0, c1 := DecrementUnfold(c, items);
      TakeKeepsSynced(c, j0, items[0].quantity);
      DecrementKeepsSynced(c1, items[1..]);
      assert Decrement(c, items).value == Decrement(c1, items[1..]).value;
    }
  }

  /** A successful decrement of a non-empty order: the first item's variant
      was found and had the units, and the rest went on from there. */
  lemma DecrementUnfold(c: Catalog, items: seq<OrderItem>) returns (j0: nat, c1: Catalog)
    requires |items| > 0 && Decrement(c, items).Ok?
    ensures VariantIndex(c.variants, items[0].variantId) == Some(j0)
    ensures j0 < |c.variants| && c.variants[j0].stock >= items[0].quantity
    ensures c1 == VariantSync.UpdateVariant(c, j0, c.variants[j0].(stock := c.variants[j0].stock - items[0].quantity))
    ensures Decrement(c, items) == Decrement(c1, items[1..])
  {
    j0 := VariantIndex(c.variants, items[0].variantId).value;
    c1 := VariantSync.UpdateVariant(c, j0, c.variants[j0].(stock := c.variants[j0].stock - items[0].quantity));
  }

  /** Taking units from one variant, with the subscriber re-syncing its
      product, keeps the catalog synced and its keys valid. */
  lemma TakeKeepsSynced(c: Catalog, j0: nat, q: int)
    requires VariantSync.Synced(c) && VariantSync.KeysValid(c)
    requires j0 < |c.variants|
    ensures var c1 := VariantSync.UpdateVariant(c, j0, c.variants[j0].(stock := c.variants[j0].stock - q));
            VariantSync.Synced(c1) && VariantSync.KeysValid(c1)
  {
    var v := c.variants[j0];
    VariantSync.UpdateInPlacePreservesSynced(c, j0, v.(stock := v.stock - q));
    UpdateInPlaceKeepsKeys(c, j0, v.(stock := v.stock - q));
  }

  lemma UpdateInPlaceKeepsKeys(c: Catalog, j: nat, v: Variant)
    requires j < |c.variants| && v.productId == c.variants[j].productId
    requires VariantSync.KeysValid(c)
    ensures VariantSync.KeysValid(VariantSync.UpdateVariant(c, j, v))
  {
    var r := VariantSync.UpdateVariant(c, j, v);
    assert forall k :: 0 <= k < |c.products| ==> r.products[k].id == c.products[k].id;
    forall m | 0 <= m < |r.variants| && r.variants[m].productId != 0
      ensures HasProduct(r.products, r.variants[m].productId)
    {
      var pid := r.variants[m].productId;
      assert HasProduct(c.products, pid);
      var k :| 0 <= k < |c.products| && c.products[k].id == pid;
      assert r.products[k].id == pid;
    }
  }

  // ---------------------------------------------------------------------
  // Payment verification
  // ---------------------------------------------------------------------

  datatype Reply = Reply(status: string, message: string)

  /** `verifyAndCompleteOrder`, with `paid` the gateway's answer for the
      order's merchant transaction id. */
  function VerifyAndCompleteOrder(shop: Shop, orderId: int, paid: bool, now: int): (r: Result<(Shop, Reply)>)
    ensures (r.Err? && r.error.NotFound?) <==> FindOrder(shop.orders, orderId).None?
    ensures FindOrder(shop.orders, orderId).Some? ==>
              var o := shop.orders[FindOrder(shop.orders, orderId).value];
              && (o.status == Placed ==> r == Ok((shop, Reply("PLACED", "Order already paid and placed"))))
              && (o.status != Placed && o.status != Pending ==>
                    r == Ok((shop, Reply(StatusValue(o.status), "Order status is not pending"))))
              && (o.status == Pending && !paid ==> r == Ok((shop, Reply("PENDING", "Payment not completed yet"))))
              && (o.status == Pending && paid ==>
                    var c := ConfirmPaymentOf(shop, orderId, o.merchantTransactionId, now);
                    (c.Ok? ==> r == Ok((c.value.0, Reply("PLACED", "Payment verified successfully"))))
                    && (c.Err? ==> r == Err(c.error)))
  {
    match FindOrder(shop.orders, orderId)
    case None => Err(NotFound("Order not found"))
    case Some(i) =>
      var o := shop.orders[i];
      if o.status == Placed then Ok((shop, Reply("PLACED", "Order already paid and placed")))
      else if o.status != Pending then Ok((shop, Reply(StatusValue(o.status), "Order status is not pending")))
      else if paid then
        var c := ConfirmPaymentOf(shop, orderId, o.merchantTransactionId, now);
        if c.Err? then Err(c.error)
        else Ok((c.value.0, Reply("PLACED", "Payment verified successfully")))
      else Ok((shop, Reply("PENDING", "Payment not completed yet")))
  }

  /** `updatePaymentInfo`: records the merchant transaction id; an unknown
      order id updates nothing and is not an error. */
  function UpdatePaymentInfo(orders: seq<Order>, orderId: int, txnId: string): (r: seq<Order>)
    ensures |r| == |orders|
    ensures forall i :: 0 <= i < |orders| ==>
              r[i] == (if orders[i].id == orderId then orders[i].(merchantTransactionId := Some(txnId)) else orders[i])
  {
    if |orders| == 0 then []
    else
      [if orders[0].id == orderId then orders[0].(merchantTransactionId := Some(txnId)) else orders[0]]
      + UpdatePaymentInfo(orders[1..], orderId, txnId)
  }

  // ---------------------------------------------------------------------
  // Admin status updates
  // ---------------------------------------------------------------------

  /** `updateStatus` as written: the timeline repository it calls is never
      injected, so once the order is found the call fails before anything
      is saved. */
  function UpdateStatusAsWritten(orders: seq<Order>, orderId: int, status: OrderStatus, description: Option<string>, now: int)
    : (r: Result<(seq<Order>, Order)>)
    ensures r.Err?
    ensures r.error.NotFound? <==> FindOrder(orders, orderId).None?
  {
    match FindOrder(orders, orderId)
    case None => Err(NotFound("Order #" + IntToString(orderId) + " not found"))
    case Some(_) => Err(InternalError("Cannot read properties of undefined (reading 'create')"))
  }

  /** `description || default` */
  function DescriptionOr(description: Option<string>, default: string): string {
    if description.Some? && description.value != "" then description.value else default
  }

  /** `updateStatus` as intended: any target status is accepted; DELIVERED
      stamps the delivery time; one timeline entry is appended. */
  function UpdateStatus(orders: seq<Order>, orderId: int, status: OrderStatus, description: Option<string>, now: int)
    : (r: Result<(seq<Order>, Order)>)
    ensures r.Err? <==> FindOrder(orders, orderId).None?
    ensures r.Err? ==> r.error == NotFound("Order #" + IntToString(orderId) + " not found")
    ensures r.Ok? ==> var i := FindOrder(orders, orderId).value;
              var o := orders[i];
              && r.value.0 == orders[i := r.value.1]
              && r.value.1.status == status
              && r.value.1.timeline == o.timeline +
                   [TimelineEntry(status, DescriptionOr(description, "Order status updated to " + StatusValue(status)), now)]
              && r.value.1.deliveredAt == (if status == Delivered then Some(now) else o.deliveredAt)
              && r.value.1.(status := o.status, timeline := o.timeline, deliveredAt := o.deliveredAt) == o
  {
    match FindOrder(orders, orderId)
    case None => Err(NotFound("Order #" + IntToString(orderId) + " not found"))
    case Some(i) =>
      var o := orders[i];
      var entry := TimelineEntry(status, DescriptionOr(description, "Order status updated to " + StatusValue(status)), now);
      var updated := o.(status := status,
                        deliveredAt := if status == Delivered then Some(now) else o.deliveredAt,
                        timeline := o.timeline + [entry]);
      Ok((orders[i := updated], updated))
  }

  // ---------------------------------------------------------------------
  // Reading an order
  // ---------------------------------------------------------------------

  /** `findOne(id, userId)`: another user's order is forbidden, not hidden. */
  function FindOne(orders: seq<Order>, id: int, userId: nat): (r: Result<Order>)
    ensures r.Ok? <==> FindOrder(orders, id).Some? && orders[FindOrder(orders, id).value].userId == userId
    ensures r.Ok? ==> r.value in orders && r.value.id == id && r.value.userId == userId
    ensures r.Err? ==> r.error == (if FindOrder(orders, id).None? then NotFound("Order not found")
                                   else Forbidden("You are not allowed to view this order"))
  {
    match FindOrder(orders, id)
    case None => Err(NotFound("Order not found"))
    case Some(i) =>
      if orders[i].userId != userId then Err(Forbidden("You are not allowed to view this order"))
      else Ok(orders[i])
  }

  datatype TrackingEvent = TrackingEvent(entry: TimelineEntry, isCompleted: bool)

  datatype Tracking = Tracking(
    orderId: nat,
    orderNumber: string,
    currentStatus: OrderStatus,
    estimatedDelivery: int,
    events: seq<TrackingEvent>)

  function Oldest(): TimelineEntry -> real {
    (e: TimelineEntry) => e.timestamp as real
  }

  function Events(entries: seq<TimelineEntry>): (r: seq<TrackingEvent>)
    ensures |r| == |entries|
    ensures forall k :: 0 <= k < |entries| ==> r[k] == TrackingEvent(entries[k], true)
    ensures EntriesOf(r) == entries
  {
    if |entries| == 0 then [] else [TrackingEvent(entries[0], true)] + Events(entries[1..])
  }

  /** The timeline entries a list of tracking events shows, in order. */
  function EntriesOf(events: seq<TrackingEvent>): (r: seq<TimelineEntry>)
    ensures |r| == |events|
    ensures forall k :: 0 <= k < |events| ==> r[k] == events[k].entry
  {
    if |events| == 0 then [] else [events[0].entry] + EntriesOf(events[1..])
  }

  /** `getTrackingDetails`: the owner's view of an order's timeline, oldest
      entry first, every entry marked completed. */
  function GetTrackingDetails(orders: seq<Order>, id: int, userId: nat): (r: Result<Tracking>)
    ensures r.Err? <==> FindOne(orders, id, userId).Err?
    ensures r.Err? ==> r.error == FindOne(orders, id, userId).error
    ensures r.Ok? ==> ShowsOrder(r.value, FindOne(orders, id, userId).value)
  {
    var o :- FindOne(orders, id, userId);
    Ok(TrackingOf(o))
  }

  /** What tracking shows of an order: its id, number, status and
      estimated delivery, and its whole timeline -- every entry once,
      oldest first, each marked completed. */
  ghost predicate ShowsOrder(t: Tracking, o: Order) {
    && t.orderId == o.id && t.estimatedDelivery == o.estimatedDelivery
    && t.currentStatus == o.status && t.orderNumber == o.orderNumber
    && |t.events| == |o.timeline|
    && multiset(EntriesOf(t.events)) == multiset(o.timeline)
    && (forall k :: 0 <= k < |t.events| ==> t.events[k].isCompleted && t.events[k].entry in o.timeline)
    && (forall k, m :: 0 <= k < m < |t.events| ==> t.events[k].entry.timestamp <= t.events[m].entry.timestamp)
  }

  function TrackingOf(o: Order): (t: Tracking)
    ensures ShowsOrder(t, o)
  {
    var sorted := SortBy(o.timeline, Oldest());
    var t := Tracking(o.id, o.orderNumber, o.status, o.estimatedDelivery, Events(sorted));
    SortedTimelineShown(o, sorted, t);
    t
  }

  /** Any oldest-first arrangement of the timeline, shown as completed
      events under the order's own fields, is a faithful tracking reply. */
  lemma SortedTimelineShown(o: Order, sorted: seq<TimelineEntry>, t: Tracking)
    requires SortedBy(sorted, Oldest()) && multiset(sorted) == multiset(o.timeline)
    requires t == Tracking(o.id, o.orderNumber, o.status, o.estimatedDelivery, Events(sorted))
    ensures ShowsOrder(t, o)
  {
    assert |sorted| == |o.timeline| by {
      assert |multiset(sorted)| == |multiset(o.timeline)|;
    }
    assert forall e :: e in sorted ==> e in o.timeline by {
      assert forall e :: e in sorted ==> e in multiset(o.timeline);
    }
    forall k | 0 <= k < |t.events|
      ensures t.events[k].isCompleted && t.events[k].entry in o.timeline
    {
      assert t.events[k] == TrackingEvent(sorted[k], true);
      assert sorted[k] in sorted;
    }
    forall k, m | 0 <= k < m < |t.events|
      ensures t.events[k].entry.timestamp <= t.events[m].entry.timestamp
    {
      assert Oldest()(sorted[k]) <= Oldest()(sorted[m]);
    }
    assert EntriesOf(t.events) == sorted;
  }

  /** After an admin moves an order to a new status at a time no earlier
      than its timeline, tracking shows that status with the new entry last. */
  lemma TrackingShowsLatestUpdate(orders: seq<Order>, id: int, userId: nat, status: OrderStatus, now: int)
    requires FindOne(orders, id, userId).Ok?
    requires forall e :: e in FindOne(orders, id, userId).value.timeline ==> e.timestamp < now
    ensures var u := UpdateStatus(orders, id, status, None, now);
            && u.Ok?
            && var t := GetTrackingDetails(u.value.0, id, userId);
            && t.Ok? && t.value.currentStatus == status && |t.value.events| > 0
            && t.value.events[|t.value.events| - 1].entry ==
                 TimelineEntry(status, "Order status updated to " + StatusValue(status), now)
  {
    var i := FindOrder(orders, id).value;
    var u := UpdateStatus(orders, id, status, None, now).value;
    assert u.0[i].id == id;
    var i2 := FindOrder(u.0, id).value;
    FirstIndexSame(orders, u.0, id, i, i2);
    var o := u.1;
    var entry := TimelineEntry(status, "Order status updated to " + StatusValue(status), now);
    var t := GetTrackingDetails(u.0, id, userId).value;
    var n := |t.events|;
    assert n == |o.timeline| && n > 0;
    var sorted := SortBy(o.timeline, Oldest());
    assert o.timeline[|o.timeline| - 1] == entry;
    assert entry in multiset(sorted);
    var k :| 0 <= k < |sorted| && sorted[k] == entry;
    if k != n - 1 {
      assert Oldest()(sorted[k]) <= Oldest()(sorted[n - 1]);
      assert sorted[n - 1] in multiset(o.timeline);
      assert sorted[n - 1] in o.timeline;
      LastIsUnique(orders[i].timeline, entry, sorted[n - 1]);
    }
  }

  lemma LastIsUnique(before: seq<TimelineEntry>, entry: TimelineEntry, e: TimelineEntry)
    requires forall x :: x in before ==> x.timestamp < entry.timestamp
    requires e in before + [entry] && entry.timestamp <= e.timestamp
    ensures e == entry
  {
  }
}

=== FILE: otp.dfy ===
/** One-time passwords: an in-memory map from phone number to the last
    code sent, a timer per send that deletes the phone's entry five minutes
    later, and verification by equality. The random draw and the clock are
    parameters; the SMS itself is left out. Timers are explicit: a send
    schedules one, and `Advance` fires every timer due by a given time. */
module Otp {
  import opened Common

  /** Five minutes, in milliseconds. */
  const Lifetime: int := 5 * 60 * 1000

  datatype Timer = Timer(phone: string, due: int)

  datatype OtpStore = OtpStore(codes: map<string, string>, timers: seq<Timer>)

  const EmptyStore: OtpStore := OtpStore(map[], [])

  /** The six-digit code drawn from `Math.random()`, a real in [0, 1). */
  function OtpCode(random: real): (c: int)
    requires 0.0 <= random < 1.0
    ensures 100000 <= c <= 999999
  {
    var x := 100000.0 + random * 900000.0;
    assert 100000.0 <= x < 1000000.0;
    x.Floor
  }

  /** `sendOtp`: stores the new code for the phone, replacing any earlier
      one, and schedules the phone's deletion `Lifetime` later. Other phones
      are untouched and no earlier timer is cancelled. */
  function SendOtp(s: OtpStore, phone: string, now: int, random: real): (r: OtpStore)
    requires 0.0 <= random < 1.0
    ensures phone in r.codes && r.codes[phone] == NatToString(OtpCode(random))
    ensures forall p :: p != phone ==> (p in r.codes <==> p in s.codes)
    ensures forall p :: p != phone && p in s.codes ==> r.codes[p] == s.codes[p]
    ensures |r.timers| == |s.timers| + 1 && r.timers[..|s.timers|] == s.timers
    ensures r.timers[|s.timers|] == Timer(phone, now + Lifetime)
  {
    OtpStore(s.codes[phone := NatToString(OtpCode(random))], s.timers + [Timer(phone, now + Lifetime)])
  }

  /** `verifyOtp`: true exactly when a code is stored for the phone and it
      equals the given text. It reads the store and changes nothing. */
  function VerifyOtp(s: OtpStore, phone: string, otp: string): (ok: bool)
    ensures phone !in s.codes ==> !ok
    ensures ok ==> s.codes[phone] == otp
    ensures phone in s.codes && s.codes[phone] == otp ==> ok
  {
    phone in s.codes && s.codes[phone] == otp
  }

  /** The stored code as `Map.get` returns it: absent is `undefined`. */
  function Saved(s: OtpStore, phone: string): (r: Option<string>)
    ensures r.Some? <==> phone in s.codes
    ensures r.Some? ==> r.value == s.codes[phone]
  {
    if phone in s.codes then Some(s.codes[phone]) else None
  }

  /** `verifyOtp` as the `verify-otp` route calls it: the request body's
      `otp` may be missing (`None`, JavaScript's `undefined`), and the
      comparison `savedOtp === otp` is then true when no code is stored
      either. */
  function VerifyOtpAsWritten(s: OtpStore, phone: string, otp: Option<string>): (ok: bool)
    ensures otp.Some? ==> ok == VerifyOtp(s, phone, otp.value)
    ensures otp.None? ==> (ok <==> phone !in s.codes)
  {
    Saved(s, phone) == otp
  }

  /** As written: a request that omits `otp` for a phone with no pending
      code -- never sent one, or whose code has expired -- is accepted,
      and the route then logs that phone in. */
  lemma MissingOtpAcceptedWithoutCode(phone: string, t0: int, random: real)
    requires 0.0 <= random < 1.0
    ensures VerifyOtpAsWritten(EmptyStore, phone, None)
    ensures VerifyOtpAsWritten(Advance(SendOtp(EmptyStore, phone, t0, random), t0 + Lifetime), phone, None)
  {
    var s1 := SendOtp(EmptyStore, phone, t0, random);
    assert phone in Expiring(s1.timers, t0 + Lifetime) by {
      assert s1.timers[0] == Timer(phone, t0 + Lifetime);
    }
  }

  /** Corrected: a missing `otp` is refused before any comparison. */
  function VerifyOtpChecked(s: OtpStore, phone: string, otp: Option<string>): (ok: bool)
    ensures otp.None? ==> !ok
    ensures ok ==> phone in s.codes && s.codes[phone] == otp.value
  {
    otp.Some? && VerifyOtp(s, phone, otp.value)
  }

  /** The corrected check never accepts a missing code, and on every request
      that carries one it decides exactly as the original does. */
  lemma CheckedAgreesWhenPresent(s: OtpStore, phone: string, otp: Option<string>)
    ensures otp.Some? ==> VerifyOtpChecked(s, phone, otp) == VerifyOtpAsWritten(s, phone, otp)
    ensures VerifyOtpChecked(s, phone, otp) ==> VerifyOtpAsWritten(s, phone, otp)
    ensures !VerifyOtpChecked(s, phone, None)
  {
  }

  predicate DueBy(t: Timer, now: int) {
    t.due <= now
  }

  /** The phones some timer due by `now` deletes. */
  function Expiring(timers: seq<Timer>, now: int): (ps: set<string>)
    ensures forall p :: p in ps <==> exists i :: 0 <= i < |timers| && timers[i].phone == p && DueBy(timers[i], now)
  {
    set i | 0 <= i < |timers| && DueBy(timers[i], now) :: timers[i].phone
  }

  /** The clock reaches `now`: every timer due by then fires and deletes
      its phone's entry, whatever code that entry holds now. */
  function Advance(s: OtpStore, now: int): (r: OtpStore)
    ensures forall p :: p in r.codes <==> p in s.codes && p !in Expiring(s.timers, now)
    ensures forall p :: p in r.codes ==> r.codes[p] == s.codes[p]
    ensures forall t :: t in r.timers <==> t in s.timers && !DueBy(t, now)
  {
    OtpStore(s.codes - Expiring(s.timers, now), Filter(s.timers, (t: Timer) => !DueBy(t, now)))
  }

  /** A code just sent is accepted, and no other text is. */
  lemma SendThenVerify(s: OtpStore, phone: string, now: int, random: real, otp: string)
    requires 0.0 <= random < 1.0
    ensures VerifyOtp(SendOtp(s, phone, now, random), phone, otp) <==> otp == NatToString(OtpCode(random))
  {
  }

  /** As written: when a phone is sent a second code before the first one
      expires, the first send's timer still fires at its own time and
      deletes the second code, which then lived less than `Lifetime`. */
  lemma EarlierTimerDeletesNewerCode(s: OtpStore, phone: string, t0: int, t1: int, r0: real, r1: real)
    requires 0.0 <= r0 < 1.0 && 0.0 <= r1 < 1.0
    requires t0 <= t1
    ensures var s2 := SendOtp(SendOtp(s, phone, t0, r0), phone, t1, r1);
            var later := Advance(s2, t0 + Lifetime);
            && VerifyOtp(s2, phone, NatToString(OtpCode(r1)))
            && !VerifyOtp(later, phone, NatToString(OtpCode(r1)))
  {
    var s1 := SendOtp(s, phone, t0, r0);
    var s2 := SendOtp(s1, phone, t1, r1);
    assert s2.timers[|s.timers|] == Timer(phone, t0 + Lifetime);
    assert phone in Expiring(s2.timers, t0 + Lifetime);
  }

  /** The concrete case: codes sent at 0 ms and at 240000 ms (four minutes
      later); at 300000 ms the second code is gone after one minute. */
  lemma ResentCodeLastsOneMinute(phone: string)
    ensures var s2 := SendOtp(SendOtp(EmptyStore, phone, 0, 0.0), phone, 240000, 0.5);
            !VerifyOtp(Advance(s2, 300000), phone, NatToString(OtpCode(0.5)))
  {
    EarlierTimerDeletesNewerCode(EmptyStore, phone, 0, 240000, 0.0, 0.5);
  }

  // ---------------------------------------------------------------------
  // Corrected: each entry carries its own expiry time
  // ---------------------------------------------------------------------

  datatype Entry = Entry(code: string, expiresAt: int)

  /** Sending stores the code with the time it expires; a later send
      replaces both. */
  function SendFixed(s: map<string, Entry>, phone: string, now: int, random: real): (r: map<string, Entry>)
    requires 0.0 <= random < 1.0
    ensures phone in r && r[phone] == Entry(NatToString(OtpCode(random)), now + Lifetime)
    ensures forall p :: p != phone ==> (p in r <==> p in s) && (p in s ==> r[p] == s[p])
  {
    s[phone := Entry(NatToString(OtpCode(random)), now + Lifetime)]
  }

  /** A code is accepted while it is the phone's latest and has not expired. */
  function VerifyFixed(s: map<string, Entry>, phone: string, otp: string, now: int): (ok: bool)
    ensures ok ==> phone in s && s[phone].code == otp && now < s[phone].expiresAt
    ensures phone in s && s[phone].code == otp && now < s[phone].expiresAt ==> ok
  {
    phone in s && s[phone].code == otp && now < s[phone].expiresAt
  }

  /** Corrected: the latest code is accepted for its whole lifetime, however
      recently an earlier one was sent, and not after. */
  lemma FixedCodeLivesFullLifetime(s: map<string, Entry>, phone: string, t0: int, t1: int, r0: real, r1: real, now: int)
    requires 0.0 <= r0 < 1.0 && 0.0 <= r1 < 1.0
    requires t0 <= t1 <= now
    ensures var s2 := SendFixed(SendFixed(s, phone, t0, r0), phone, t1, r1);
            VerifyFixed(s2, phone, NatToString(OtpCode(r1)), now) <==> now < t1 + Lifetime
  {
  }

  /** With a single send, the corrected store and the one as written agree
      at every later time: both accept the code before `Lifetime` has
      passed and neither does after. */
  lemma FixedAgreesOnSingleSend(phone: string, t0: int, random: real, otp: string, now: int)
    requires 0.0 <= random < 1.0
    requires t0 <= now
    ensures VerifyFixed(SendFixed(map[], phone, t0, random), phone, otp, now)
            == VerifyOtp(Advance(SendOtp(EmptyStore, phone, t0, random), now), phone, otp)
  {
    var s1 := SendOtp(EmptyStore, phone, t0, random);
    assert s1.timers == [Timer(phone, t0 + Lifetime)];
    assert phone in Expiring(s1.timers, now) <==> t0 + Lifetime <= now;
  }
}

=== FILE: payments.dfy ===
/** The PhonePe gateway envelope: the payload a payment is initiated with,
    the strings that are hashed for the `X-VERIFY` header, and how the
    gateway's answers become results. SHA-256, the base64 encoding of the
    JSON payload and the HTTP exchange are parameters. */
module Payments {
  import opened Common

  /** The gateway settings, read from the environment; any may be unset. */
  datatype Config = Config(
    merchantId: Option<string>,
    saltKey: Option<string>,
    saltIndex: Option<string>,
    hostUrl: Option<string>,
    apiBaseUrl: Option<string>)

  datatype PayPayload = PayPayload(
    merchantId: Option<string>,
    merchantTransactionId: string,
    merchantUserId: string,
    amountPaise: real,
    redirectUrl: string,
    redirectMode: string,
    callbackUrl: string,
    mobileNumber: string,
    instrumentType: string)

  /** The request the service sends: where, the body, and the checksum header. */
  datatype Request = Request(url: string, body: string, xVerify: string)

  datatype Initiated = Initiated(paymentUrl: string, merchantTransactionId: string)

  /** What came back from the pay call: the redirect URL, or the message of
      whatever went wrong (a failed request or a reply without the URL). */
  datatype PayReply = Redirect(url: string) | PayFailed(message: string)

  /** What came back from the status call: the reply's `code`, or a failure. */
  datatype StatusReply = StatusCode(code: string) | StatusFailed

  const PayPath: string := "/pg/v1/pay"
  const Separator: string := "###"

  function CallbackUrl(cfg: Config): string {
    OrUndefined(cfg.apiBaseUrl) + "/orders/callback"
  }

  function TransactionId(uuid: string): string {
    "TXN_" + uuid
  }

  /** Amounts are sent in paise. */
  function Paise(amount: real): (p: real)
    ensures p / 100.0 == amount
    ensures amount > 0.0 ==> p > amount
  {
    amount * 100.0
  }

  /** The checksum header: the hex digest, `###`, the salt index. */
  function XVerify(digest: string, saltIndex: Option<string>): (h: string)
    ensures StartsWith(h, digest) && OccursAt(h, Separator, |digest|)
  {
    digest + Separator + OrUndefined(saltIndex)
  }

  /** Where the first `###` of a header starts, if anywhere. */
  function FindSeparator(h: string): (r: Option<nat>)
    ensures r.Some? ==> OccursAt(h, Separator, r.value)
    ensures r.Some? ==> forall i :: 0 <= i < r.value ==> !OccursAt(h, Separator, i)
    ensures r.None? ==> forall i :: 0 <= i <= |h| ==> !OccursAt(h, Separator, i)
    decreases |h|
  {
    if |h| < 3 then None
    else if h[..3] == Separator then Some(0)
    else
      match FindSeparator(h[1..])
      case Some(i) =>
        assert forall k :: 1 <= k <= i ==> OccursAt(h, Separator, k) == OccursAt(h[1..], Separator, k - 1);
        assert OccursAt(h, Separator, i + 1) == OccursAt(h[1..], Separator, i);
        assert !OccursAt(h, Separator, 0);
        Some(i + 1)
      case None =>
        assert forall k :: 1 <= k <= |h| ==> OccursAt(h, Separator, k) == OccursAt(h[1..], Separator, k - 1);
        None
  }

  /** How the gateway reads a checksum header back: digest and salt index. */
  function SplitXVerify(h: string): Option<(string, string)> {
    match FindSeparator(h)
    case None => None
    case Some(i) => Some((h[..i], h[i + 3..]))
  }

  /** A hex digest has no `#`, so the header splits back into the digest and
      the rendered salt index. */
  lemma XVerifySplits(digest: string, saltIndex: Option<string>)
    requires forall i :: 0 <= i < |digest| ==> digest[i] != '#'
    ensures SplitXVerify(XVerify(digest, saltIndex)) == Some((digest, OrUndefined(saltIndex)))
  {
    var h := XVerify(digest, saltIndex);
    var r := FindSeparator(h);
    assert OccursAt(h, Separator, |digest|);
    forall i | 0 <= i < |digest| ensures !OccursAt(h, Separator, i) {
      assert h[i] == digest[i] && digest[i] != '#';
      assert i + 3 <= |h| ==> h[i..i + 3][0] == h[i] != Separator[0];
    }
    assert r.value == |digest|;
    assert h[..|digest|] == digest;
    assert h[|digest| + 3..] == OrUndefined(saltIndex);
  }

  lemma HexHeaderSplits(digest: string, saltIndex: Option<string>)
    ensures (forall i :: 0 <= i < |digest| ==> digest[i] != '#') ==>
              SplitXVerify(XVerify(digest, saltIndex)) == Some((digest, OrUndefined(saltIndex)))
  {
    if forall i :: 0 <= i < |digest| ==> digest[i] != '#' {
      XVerifySplits(digest, saltIndex);
    }
  }

  /** The payload of `initiatePhonePePayment`. */
  function Payload(cfg: Config, amount: real, userId: string, mobileNumber: string, uuid: string): PayPayload {
    PayPayload(cfg.merchantId, TransactionId(uuid), "USER_" + userId, Paise(amount),
               CallbackUrl(cfg), "POST", CallbackUrl(cfg), mobileNumber, "PAY_PAGE")
  }

  /** The text whose digest signs a pay request: the encoded payload, the
      pay path, then the salt key. */
  function PayHashInput(encoded: string, cfg: Config): (s: string)
    ensures StartsWith(s, encoded) && OccursAt(s, PayPath, |encoded|)
    ensures s[|encoded| + |PayPath|..] == OrUndefined(cfg.saltKey)
  {
    encoded + PayPath + OrUndefined(cfg.saltKey)
  }

  /** The pay request: the encoded payload posted to the pay path, signed
      over exactly that encoding. */
  function PayRequest(cfg: Config, amount: real, userId: string, mobileNumber: string, uuid: string,
                      encode: PayPayload -> string, sha256: string -> string): (r: Request)
    ensures r.body == encode(Payload(cfg, amount, userId, mobileNumber, uuid))
    ensures EndsWith(r.url, PayPath)
    ensures (forall i :: 0 <= i < |sha256(PayHashInput(r.body, cfg))| ==> sha256(PayHashInput(r.body, cfg))[i] != '#') ==>
              SplitXVerify(r.xVerify) == Some((sha256(PayHashInput(r.body, cfg)), OrUndefined(cfg.saltIndex)))
  {
    var body := encode(Payload(cfg, amount, userId, mobileNumber, uuid));
    var digest := sha256(PayHashInput(body, cfg));
    HexHeaderSplits(digest, cfg.saltIndex);
    Request(OrUndefined(cfg.hostUrl) + PayPath, body, XVerify(digest, cfg.saltIndex))
  }

  /** `initiatePhonePePayment`'s answer: the redirect URL with the
      transaction id made from the uuid, or an internal error carrying the
      failure's message. */
  function InitiatePayment(uuid: string, reply: PayReply): (r: Result<Initiated>)
    ensures r.Ok? <==> reply.Redirect?
    ensures r.Ok? ==> r.value.paymentUrl == reply.url
    ensures r.Ok? ==> StartsWith(r.value.merchantTransactionId, "TXN_") && r.value.merchantTransactionId[4..] == uuid
    ensures r.Err? ==> r.error.InternalError? && StartsWith(r.error.msg, "PhonePe Init Error: ")
                       && r.error.msg[20..] == reply.message
  {
    match reply
    case Redirect(url) => Ok(Initiated(url, TransactionId(uuid)))
    case PayFailed(message) => Err(InternalError("PhonePe Init Error: " + message))
  }

  /** The status path names the merchant and the transaction. */
  function StatusPath(cfg: Config, txnId: string): (p: string)
    ensures StartsWith(p, "/pg/v1/status/") && EndsWith(p, "/" + txnId)
  {
    var p := "/pg/v1/status/" + OrUndefined(cfg.merchantId) + "/" + txnId;
    assert p[|p| - |"/" + txnId|..] == "/" + txnId;
    p
  }

  /** The status request: the URL ends in the same path whose digest, with
      the salt key appended, signs it. */
  function StatusRequest(cfg: Config, txnId: string, sha256: string -> string): (r: Request)
    ensures EndsWith(r.url, StatusPath(cfg, txnId))
    ensures StartsWith(r.xVerify, sha256(StatusPath(cfg, txnId) + OrUndefined(cfg.saltKey)))
    ensures var digest := sha256(StatusPath(cfg, txnId) + OrUndefined(cfg.saltKey));
            (forall i :: 0 <= i < |digest| ==> digest[i] != '#') ==>
              SplitXVerify(r.xVerify) == Some((digest, OrUndefined(cfg.saltIndex)))
    ensures r.body == ""
  {
    var path := StatusPath(cfg, txnId);
    var url := OrUndefined(cfg.hostUrl) + path;
    assert url[|url| - |path|..] == path;
    var digest := sha256(path + OrUndefined(cfg.saltKey));
    HexHeaderSplits(digest, cfg.saltIndex);
    Request(url, "", XVerify(digest, cfg.saltIndex))
  }

  /** `checkPaymentStatus`: paid exactly when the gateway answered with
      `PAYMENT_SUCCESS`; a failed call reads as not paid and never throws. */
  function CheckPaymentStatus(reply: StatusReply): (paid: bool)
    ensures paid <==> reply == StatusCode("PAYMENT_SUCCESS")
  {
    match reply
    case StatusCode(code) => code == "PAYMENT_SUCCESS"
    case StatusFailed => false
  }
}

=== FILE: roles.dfy ===
/** Staff and customer roles, and the guard that admits a request to an
    endpoint only when the caller's role is one the endpoint lists. */
module Roles {
  import opened Common

  datatype Role = SuperAdmin | Admin | Finance | Marketing | Support | User

  /** The stored and transmitted value of each role. */
  function RoleValue(r: Role): string {
    match r
    case SuperAdmin => "superadmin"
    case Admin => "admin"
    case Finance => "finance"
    case Marketing => "marketing"
    case Support => "support"
    case User => "user"
  }

  /** Reading a role value back: the inverse of `RoleValue`, and nothing
      for text that is not a role. */
  function ParseRole(s: string): (r: Option<Role>)
    ensures r.Some? ==> RoleValue(r.value) == s
    ensures forall role :: RoleValue(role) == s ==> r == Some(role)
  {
    if s == "superadmin" then Some(SuperAdmin)
    else if s == "admin" then Some(Admin)
    else if s == "finance" then Some(Finance)
    else if s == "marketing" then Some(Marketing)
    else if s == "support" then Some(Support)
    else if s == "user" then Some(User)
    else None
  }

  /** The roles metadata an endpoint carries, on the handler and on its
      controller class; `None` where no `@Roles` decorator is present. */
  datatype RolesMetadata = RolesMetadata(handler: Option<seq<Role>>, controller: Option<seq<Role>>)

  /** `getAllAndOverride`: the handler's roles when it has any, else the class's. */
  function RequiredRoles(m: RolesMetadata): (r: Option<seq<Role>>)
    ensures m.handler.Some? ==> r == m.handler
    ensures m.handler.None? ==> r == m.controller
  {
    if m.handler.Some? then m.handler else m.controller
  }

  /** `requiredRoles.join(', ')` */
  function JoinRoles(roles: seq<Role>): string {
    if |roles| == 0 then ""
    else if |roles| == 1 then RoleValue(roles[0])
    else RoleValue(roles[0]) + ", " + JoinRoles(roles[1..])
  }

  /** `canActivate`: with no roles required anyone passes, even without a
      user; otherwise an absent user is unauthorised and a user whose role
      is not listed is forbidden. */
  function CanActivate(required: Option<seq<Role>>, user: Option<Role>): (r: Result<bool>)
    ensures r.Ok? <==> required.None? || (user.Some? && user.value in required.value)
    ensures r.Ok? ==> r.value
    ensures required.Some? && user.None? ==> r == Err(Unauthorized("User not authenticated"))
    ensures required.Some? && user.Some? && user.value !in required.value ==>
              r == Err(Forbidden("You do not have permission. Required: " + JoinRoles(required.value)))
  {
    if required.None? then Ok(true)
    else if user.None? then Err(Unauthorized("User not authenticated"))
    else if user.value in required.value then Ok(true)
    else Err(Forbidden("You do not have permission. Required: " + JoinRoles(required.value)))
  }

  /** The guard on an endpoint: its metadata resolved, then checked. A
      handler's roles decide alone, the class's list neither widening nor
      narrowing them; an empty list shuts out every signed-in user, while
      no decorator at all lets everyone in. */
  function Guard(m: RolesMetadata, user: Option<Role>): (r: Result<bool>)
    ensures m.handler.Some? && user.Some? ==> (r.Ok? <==> user.value in m.handler.value)
    ensures m.handler.None? && m.controller.None? ==> r == Ok(true)
    ensures RequiredRoles(m) == Some([]) && user.Some? ==> r.Err? && r.error.Forbidden?
  {
    CanActivate(RequiredRoles(m), user)
  }
}

=== FILE: sorting.dfy ===
/** Ordering and paging of query results. The services only ever ask the
    database for one sort key at a time (`ORDER BY key ASC|DESC`) followed by
    `OFFSET`/`LIMIT`; a descending order is an ascending order on the negated
    key. Ties come back in table order. */
module Sorting {
  import opened Common

  ghost predicate SortedBy<T>(s: seq<T>, key: T -> real) {
    forall i, j :: 0 <= i < j < |s| ==> key(s[i]) <= key(s[j])
  }

  /** Inserts `x` after every element whose key is not greater than its own. */
  function Insert<T>(x: T, s: seq<T>, key: T -> real): (r: seq<T>)
    requires SortedBy(s, key)
    ensures SortedBy(r, key)
    ensures multiset(r) == multiset(s) + multiset{x}
    ensures forall k :: 0 <= k < |r| ==> r[k] == x || r[k] in s
  {
    if |s| == 0 then [x]
    else if key(x) < key(s[0]) then [x] + s
    else
      var t := Insert(x, s[1..], key);
      assert s == [s[0]] + s[1..];
      forall k | 0 <= k < |t|
        ensures key(s[0]) <= key(t[k])
      {
        if t[k] != x {
          HeadIsLeast(s, t[k], key);
        }
      }
      ConsSorted(s[0], t, key);
      [s[0]] + t
  }

  /** The head of a sorted sequence has the least key. */
  lemma HeadIsLeast<T>(s: seq<T>, y: T, key: T -> real)
    requires SortedBy(s, key) && y in s
    ensures key(s[0]) <= key(y)
  {
    var i :| 0 <= i < |s| && s[i] == y;
  }

  lemma ConsSorted<T>(a: T, t: seq<T>, key: T -> real)
    requires SortedBy(t, key)
    requires forall k :: 0 <= k < |t| ==> key(a) <= key(t[k])
    ensures SortedBy([a] + t, key)
  {
    var r := [a] + t;
    assert forall k :: 1 <= k < |r| ==> r[k] == t[k - 1];
  }

  /** `ORDER BY key ASC`: a sorted permutation of the input. */
  function SortBy<T>(s: seq<T>, key: T -> real): (r: seq<T>)
    ensures SortedBy(r, key)
    ensures multiset(r) == multiset(s)
    ensures |r| == |s|
  {
    if |s| == 0 then []
    else
      var init := s[..|s| - 1];
      assert s == init + [s[|s| - 1]];
      assert multiset(s) == multiset(init) + multiset{s[|s| - 1]};
      var sorted := SortBy(init, key);
      Insert(s[|s| - 1], sorted, key)
  }

  /** How many of `n` rows a page starting at `skip` holds: none past the
      end, the rest when `take` is 0 or runs past the end, else `take`. */
  function PageLength(n: nat, skip: nat, take: nat): nat {
    if skip >= n then 0 else if take == 0 || skip + take > n then n - skip else take
  }

  /** The rows page `page` of size `limit` skips: `(page - 1) * limit`. */
  function Offset(page: int, limit: int): int {
    Times(page - 1, limit)
  }

  /** Multiplication by repeated addition, which keeps the solver's
      nonlinear arithmetic out of every contract that mentions a page's
      offset; TimesIsProduct shows it is `a * b`. */
  function Times(a: int, b: int): int
    decreases if a < 0 then -a else a
  {
    if a == 0 then 0
    else if a > 0 then Times(a - 1, b) + b
    else Times(a + 1, b) - b
  }

  lemma {:induction false} TimesIsProduct(a: int, b: int)
    ensures Times(a, b) == a * b
    decreases if a < 0 then -a else a
  {
    if a > 0 {
      TimesIsProduct(a - 1, b);
    } else if a < 0 {
      TimesIsProduct(a + 1, b);
    }
  }

  /** `OFFSET skip LIMIT take` as the query builder emits it: a zero (falsy)
      `take` adds no LIMIT, a zero `skip` no OFFSET, and the database refuses
      a negative OFFSET or LIMIT. */
  function Page<T>(s: seq<T>, skip: int, take: int): (r: Result<seq<T>>)
    ensures r.Ok? <==> skip >= 0 && take >= 0
    ensures r.Ok? ==> |r.value| <= |s|
    ensures r.Ok? && take > 0 ==> |r.value| <= take
    ensures r.Ok? ==> forall i :: 0 <= i < |r.value| ==> skip + i < |s| && r.value[i] == s[skip + i]
    ensures r.Ok? && skip + take <= |s| && take > 0 ==> |r.value| == take
    ensures r.Ok? && take == 0 && skip <= |s| ==> |r.value| == |s| - skip
    ensures r.Ok? ==> |r.value| == PageLength(|s|, skip, take)
  {
    if skip < 0 then Err(InternalError("OFFSET must not be negative"))
    else if take < 0 then Err(InternalError("LIMIT must not be negative"))
    else
      var rest := if skip >= |s| then [] else s[skip..];
      Ok(if take == 0 || take >= |rest| then rest else rest[..take])
  }

  /** A window onto a sorted sequence is sorted and holds nothing else. */
  lemma WindowOfSorted<T>(s: seq<T>, w: seq<T>, skip: int, key: T -> real)
    requires SortedBy(s, key)
    requires forall i :: 0 <= i < |w| ==> 0 <= skip + i < |s| && w[i] == s[skip + i]
    ensures SortedBy(w, key)
    ensures forall x :: x in w ==> x in s
  {
  }

  /** `take: n` without ordering: the first `n` rows of the table. */
  function Take<T>(s: seq<T>, n: nat): (r: seq<T>)
    ensures |r| <= n && |r| <= |s|
    ensures r == s[..|r|]
    ensures |s| >= n ==> |r| == n
  {
    if |s| <= n then s else s[..n]
  }

  /** `ORDER BY key LIMIT n`: the first `n` rows of the sorted table. They
      are sorted, drawn from `s` with no row more often than in `s`, and
      they are all of `s` when it fits. */
  function Top<T>(s: seq<T>, key: T -> real, n: nat): (r: seq<T>)
    ensures SortedBy(r, key)
    ensures multiset(r) <= multiset(s)
    ensures forall x :: x in r ==> x in s
    ensures |s| <= n ==> forall x :: x in s ==> x in r
    ensures |r| == if |s| < n then |s| else n
  {
    TakeSorted(s, key, n);
    Take(SortBy(s, key), n)
  }

  lemma TakeSorted<T>(s: seq<T>, key: T -> real, n: nat)
    ensures var r := Take(SortBy(s, key), n);
            && SortedBy(r, key)
            && multiset(r) <= multiset(s)
            && (forall x :: x in r ==> x in s)
            && (|s| <= n ==> forall x :: x in s ==> x in r)
  {
    var sorted := SortBy(s, key);
    var r := Take(sorted, n);
    PrefixSubMultiset(sorted, |r|);
    assert forall i :: 0 <= i < |r| ==> r[i] == sorted[i];
    forall x | x in r
      ensures x in s
    {
      assert x in multiset(r);
    }
    if |s| <= n {
      forall x | x in s
        ensures x in r
      {
        assert x in multiset(sorted);
      }
    }
  }

  /** A row of `s` left out of the top `n` has a key no smaller than the
      last row kept: the top `n` are the least `n`, not just any `n`. */
  lemma TopLeavesOutNoSmaller<T>(s: seq<T>, key: T -> real, n: nat, x: T)
    requires x in s && x !in Top(s, key, n)
    ensures |Top(s, key, n)| == n
    ensures n > 0 ==> key(Top(s, key, n)[n - 1]) <= key(x)
  {
    var sorted := SortBy(s, key);
    var r := Top(s, key, n);
    assert r == Take(sorted, n);
    assert x in multiset(sorted);
    var k :| 0 <= k < |sorted| && sorted[k] == x;
    assert forall i :: 0 <= i < |r| ==> r[i] == sorted[i];
    if n > 0 {
      assert k >= n;
    }
  }

  /** A prefix holds nothing more often than the whole sequence. */
  lemma PrefixSubMultiset<T>(s: seq<T>, n: nat)
    requires n <= |s|
    ensures multiset(s[..n]) <= multiset(s)
  {
    assert s == s[..n] + s[n..];
  }
}

=== FILE: sql_like.dfy ===
/** SQL `LIKE` pattern matching, as product search uses it:
    `LOWER(field) LIKE LOWER('%' || keyword || '%')`. In a pattern `%`
    matches any run of characters and `_` any one character. */
module SqlLike {
  import opened Common

  function Like(s: string, p: string): bool
    decreases |s| + |p|
  {
    if |p| == 0 then |s| == 0
    else if p[0] == '%' then Like(s, p[1..]) || (|s| > 0 && Like(s[1..], p))
    else |s| > 0 && (p[0] == '_' || p[0] == s[0]) && Like(s[1..], p[1..])
  }

  predicate NoWildcards(p: string) {
    forall i :: 0 <= i < |p| ==> p[i] != '%' && p[i] != '_'
  }

  /** The pattern the search builds around its keyword. */
  function Infix(keyword: string): string {
    "%" + keyword + "%"
  }

  lemma {:induction false} PercentMatchesAll(s: string)
    ensures Like(s, "%")
    decreases |s|
  {
    if |s| > 0 {
      PercentMatchesAll(s[1..]);
    }
  }

  /** A literal prefix followed by `%` matches exactly the strings that
      start with that prefix. */
  lemma {:induction false} PrefixPattern(s: string, p: string)
    requires NoWildcards(p)
    ensures Like(s, p + "%") <==> StartsWith(s, p)
    decreases |p|
  {
    if |p| == 0 {
      assert p + "%" == "%";
      PercentMatchesAll(s);
    } else {
      assert (p + "%")[1..] == p[1..] + "%";
      assert (p + "%")[0] == p[0];
      if |s| > 0 {
        PrefixPattern(s[1..], p[1..]);
        if StartsWith(s, p) {
          assert s[1..][..|p| - 1] == s[..|p|][1..];
        }
        if StartsWith(s[1..], p[1..]) && s[0] == p[0] {
          assert s[..|p|] == [s[0]] + s[1..][..|p| - 1];
        }
      }
    }
  }

  /** A leading `%` lets the rest of the pattern match any suffix. */
  lemma {:induction false} LeadingPercent(s: string, q: string)
    ensures Like(s, "%" + q) <==> exists i :: 0 <= i <= |s| && Like(s[i..], q)
    decreases |s|
  {
    var p := "%" + q;
    assert p[1..] == q;
    if Like(s, p) {
      if Like(s, q) {
        assert s[0..] == s;
      } else {
        LeadingPercent(s[1..], q);
        var j :| 0 <= j <= |s[1..]| && Like(s[1..][j..], q);
        assert s[1..][j..] == s[j + 1..];
      }
    }
    if exists i :: 0 <= i <= |s| && Like(s[i..], q) {
      var i :| 0 <= i <= |s| && Like(s[i..], q);
      if i == 0 {
        assert s[0..] == s;
      } else {
        assert s[1..][i - 1..] == s[i..];
        LeadingPercent(s[1..], q);
      }
    }
  }

  /** For a keyword without wildcard characters, the search pattern is
      exactly substring containment (JavaScript's `includes`). */
  lemma InfixIsContains(s: string, keyword: string)
    requires NoWildcards(keyword)
    ensures Like(s, Infix(keyword)) <==> Contains(s, keyword)
  {
    assert Infix(keyword) == "%" + (keyword + "%");
    LeadingPercent(s, keyword + "%");
    if Like(s, Infix(keyword)) {
      var i :| 0 <= i <= |s| && Like(s[i..], keyword + "%");
      PrefixPattern(s[i..], keyword);
      assert s[i..][..|keyword|] == s[i..i + |keyword|];
      assert OccursAt(s, keyword, i);
    }
    if Contains(s, keyword) {
      var i :| 0 <= i <= |s| && OccursAt(s, keyword, i);
      assert s[i..][..|keyword|] == s[i..i + |keyword|];
      PrefixPattern(s[i..], keyword);
    }
  }

  lemma {:induction false} LowerAppend(a: string, b: string)
    ensures Lower(a + b) == Lower(a) + Lower(b)
  {
    var ab := a + b;
    var l, la, lb := Lower(ab), Lower(a), Lower(b);
    forall i | 0 <= i < |ab| ensures l[i] == (la + lb)[i] {
      if i < |a| {
        assert ab[i] == a[i] && l[i] == LowerChar(a[i]) == la[i];
      } else {
        assert ab[i] == b[i - |a|] && l[i] == LowerChar(b[i - |a|]) == lb[i - |a|];
      }
    }
    assert l == la + lb;
  }

  /** `LOWER(field) LIKE LOWER('%kw%')` is case-insensitive substring search
      when the keyword holds no wildcard characters. */
  lemma CaseInsensitiveSearch(field: string, keyword: string)
    requires NoWildcards(Lower(keyword))
    ensures Like(Lower(field), Lower(Infix(keyword))) <==> Contains(Lower(field), Lower(keyword))
  {
    LowerAppend("%", keyword);
    LowerAppend("%" + keyword, "%");
    assert Lower("%") == "%";
    assert Lower(Infix(keyword)) == Infix(Lower(keyword));
    InfixIsContains(Lower(field), Lower(keyword));
  }
}

=== FILE: tryon.dfy ===
/** Virtual try-on records: a user's uploaded reference photos and the
    jobs submitted to the image-generation provider. A user may have one
    job in progress; a job left PROCESSING for more than three minutes is
    given up on when the next one is asked for. */
module TryOn {
  import opened Common
  import opened Sorting
  import opened Catalog
  import UriEncoding

  datatype Kind = Reference | Generated

  datatype JobStatus = Processing | Completed | Failed | Timeout

  datatype Category = Tops | Bottoms | OnePieces

  function CategoryValue(c: Category): string {
    match c
    case Tops => "tops"
    case Bottoms => "bottoms"
    case OnePieces => "one-pieces"
  }

  /** A try-on row. `productId` is the product a generated image was made
      for, when the request named one that exists. */
  datatype Record = Record(
    id: nat,
    userId: nat,
    productId: Option<nat>,
    kind: Kind,
    status: JobStatus,
    requestId: Option<string>,
    imageUrls: seq<string>,
    garmentUrls: Option<seq<string>>,
    category: Option<string>,
    createdAt: int)

  function RecordId(r: Record): nat {
    r.id
  }

  /** `saveUserUploads`: one REFERENCE row holding every uploaded URL;
      the status column's default is COMPLETED. */
  function SaveUserUploads(records: seq<Record>, userId: nat, fileUrls: seq<string>, now: int): (r: (seq<Record>, Record))
    ensures r.0 == records + [r.1]
    ensures r.1.userId == userId && r.1.kind == Reference && r.1.status == Completed && r.1.imageUrls == fileUrls
    ensures forall i :: 0 <= i < |records| ==> records[i].id != r.1.id
  {
    var rec := Record(NextId(records, RecordId), userId, None, Reference, Completed, None, fileUrls, None, None, now);
    (records + [rec], rec)
  }

  // ---------------------------------------------------------------------
  // Submitting a job
  // ---------------------------------------------------------------------

  datatype GenerateRequest = GenerateRequest(
    userImageUrls: seq<string>,
    garmentImageUrls: seq<string>,
    category: Category,
    productId: Option<int>)

  /** The body posted to the provider's queue. */
  datatype FalPayload = FalPayload(
    modelImage: string,
    garmentImage: string,
    category: string,
    mode: string,
    moderationLevel: string,
    numSamples: nat)

  /** The `detail` of a provider error body: absent, a message, or a list
      of validation items each with an optional `msg`. */
  datatype Detail = NoDetail | DetailText(text: string) | DetailItems(msgs: seq<Option<string>>)

  /** A failed provider call: the HTTP status if there was a response, the
      body's detail, and the error's own message. */
  datatype FalError = FalError(status: Option<int>, detail: Detail, message: string)

  datatype SubmitReply = Accepted(requestId: string) | SubmitFailed(error: FalError)

  /** `errorData?.detail || error.message` when it is a string; a list of
      items is truthy even when empty. */
  function MessageText(e: FalError): string {
    match e.detail
    case DetailText(t) => OrElse(t, e.message)
    case _ => e.message
  }

  /** `msg[0]?.msg || 'Invalid Input'` */
  function FirstItemMsg(msgs: seq<Option<string>>): string {
    if |msgs| == 0 || msgs[0].None? then "Invalid Input" else OrElse(msgs[0].value, "Invalid Input")
  }

  /** `handleFalError`: a rejected submission always surfaces as an error;
      a 422 carrying validation items names the first item, an exhausted
      provider balance is a 503, anything else a bad request carrying the
      provider's detail or the error's message. */
  function HandleFalError(e: FalError): (r: Error)
    ensures r.Unavailable? <==> !e.detail.DetailItems? && Contains(MessageText(e), "Exhausted balance")
    ensures e.status == Some(422) && e.detail.DetailItems? ==>
              r == BadRequest("AI Validation Error: " + FirstItemMsg(e.detail.msgs))
    ensures e.detail.DetailItems? && e.status != Some(422) ==> r == BadRequestItems(e.detail.msgs)
    ensures r.BadRequest? || r.BadRequestItems? || r.Unavailable?
    ensures r.BadRequest? && !e.detail.DetailItems? ==> r.msg == OrElse(MessageText(e), "Failed to submit Try-On request")
  {
    if e.status == Some(422) && e.detail.DetailItems? then
      BadRequest("AI Validation Error: " + FirstItemMsg(e.detail.msgs))
    else if e.detail.DetailItems? then
      BadRequestItems(e.detail.msgs)
    else if Contains(MessageText(e), "Exhausted balance") then
      Unavailable("AI Service Quota Exceeded. Please contact support.")
    else
      BadRequest(OrElse(MessageText(e), "Failed to submit Try-On request"))
  }

  /** `list[0]`, where a missing element reads as empty. */
  function FirstOrEmpty(list: seq<string>): string {
    if |list| == 0 then "" else list[0]
  }

  function Payload(req: GenerateRequest, appUrl: Option<string>): FalPayload {
    FalPayload(UriEncoding.GetPublicUrl(FirstOrEmpty(req.userImageUrls), appUrl),
               UriEncoding.GetPublicUrl(FirstOrEmpty(req.garmentImageUrls), appUrl),
               CategoryValue(req.category), "performance", "permissive", 1)
  }

  const StaleAfter: int := 3 * 60 * 1000

  /** The user's job still in progress, if any. */
  function ActiveJob(records: seq<Record>, userId: nat): (r: Option<nat>)
    ensures r.Some? ==> r.value < |records| && records[r.value].userId == userId && records[r.value].status == Processing
    ensures r.None? <==> forall i :: 0 <= i < |records| ==> !(records[i].userId == userId && records[i].status == Processing)
  {
    if |records| == 0 then None
    else if records[0].userId == userId && records[0].status == Processing then Some(0)
    else
      match ActiveJob(records[1..], userId)
      case Some(i) => Some(i + 1)
      case None =>
        assert forall i :: 1 <= i < |records| ==> records[i] == records[1..][i - 1];
        None
  }

  /** A job in progress that started before the three-minute window. */
  predicate IsStale(r: Record, now: int) {
    r.createdAt < now - StaleAfter
  }

  /** What `generateTryOn` leaves behind: the table (a stale job given up on
      stays given up on even when the submission then fails), the answer,
      and the payload sent to the provider, if it got that far. */
  datatype Outcome = Outcome(records: seq<Record>, result: Result<Record>, sent: Option<FalPayload>)

  /** The table once the stale-job gate has passed. */
  function AfterGate(records: seq<Record>, userId: nat): seq<Record> {
    match ActiveJob(records, userId)
    case None => records
    case Some(i) => records[i := records[i].(status := Failed)]
  }

  /** The gate refuses while the user has a job started inside the window. */
  predicate Busy(records: seq<Record>, userId: nat, now: int) {
    var a := ActiveJob(records, userId);
    a.Some? && !IsStale(records[a.value], now)
  }

  function GenerateTryOn(records: seq<Record>, products: seq<Product>, userId: nat, req: GenerateRequest,
                         falKey: Option<string>, appUrl: Option<string>, now: int, reply: SubmitReply): (o: Outcome)
    ensures falKey.None? || falKey == Some("") ==> o == Outcome(records, Err(BadRequest("FAL_KEY missing")), None)
    ensures falKey.Some? && falKey != Some("") && Busy(records, userId, now) ==>
              o == Outcome(records, Err(BadRequest("A try-on is already in progress. Please wait.")), None)
    ensures o.result.Ok? <==> falKey.Some? && falKey != Some("") && !Busy(records, userId, now) && reply.Accepted?
    ensures o.sent.Some? ==> o.sent.value == Payload(req, appUrl)
    ensures reply.SubmitFailed? && o.sent.Some? ==>
              o.records == AfterGate(records, userId) && o.result == Err(HandleFalError(reply.error))
    ensures o.result.Ok? ==> Started(records, products, userId, req, now, reply.requestId, o)
  {
    if falKey.None? || falKey == Some("") then Outcome(records, Err(BadRequest("FAL_KEY missing")), None)
    else if Busy(records, userId, now) then
      Outcome(records, Err(BadRequest("A try-on is already in progress. Please wait.")), None)
    else
      var gated := AfterGate(records, userId);
      var product :=
        if req.productId.Some? && req.productId.value != 0 then
          match FindProduct(products, req.productId.value)
          case Some(p) => Some(p.id)
          case None => None
        else None;
      var payload := Payload(req, appUrl);
      match reply
      case SubmitFailed(e) => Outcome(gated, Err(HandleFalError(e)), Some(payload))
      case Accepted(requestId) =>
        AfterGateChanges(records, userId);
        var rec := Record(NextId(gated, RecordId), userId, product, Generated, Processing, Some(requestId), [],
                          Some(req.garmentImageUrls), Some(CategoryValue(req.category)), now);
        Outcome(gated + [rec], Ok(rec), Some(payload))
  }

  /** A started job: the stale job, if any, is FAILED; exactly one new
      PROCESSING GENERATED row is appended, holding the request id, no
      images yet, the garment URLs and the named product if it exists. */
  ghost predicate Started(records: seq<Record>, products: seq<Product>, userId: nat, req: GenerateRequest, now: int,
                          requestId: string, o: Outcome) {
    && o.result.Ok?
    && var rec := o.result.value;
    && o.records == AfterGate(records, userId) + [rec]
    && rec.userId == userId && rec.kind == Generated && rec.status == Processing
    && rec.requestId == Some(requestId) && rec.imageUrls == [] && rec.garmentUrls == Some(req.garmentImageUrls)
    && rec.createdAt == now
    && (rec.productId.Some? ==> req.productId == Some(rec.productId.value) && HasProduct(products, rec.productId.value))
    && (forall i :: 0 <= i < |records| ==> records[i].id != rec.id)
  }

  /** The gate fails only the user's job in progress and changes nothing
      else. */
  lemma AfterGateChanges(records: seq<Record>, userId: nat)
    ensures |AfterGate(records, userId)| == |records|
    ensures forall i :: 0 <= i < |records| ==>
              var g := AfterGate(records, userId)[i];
              (g == records[i] || (records[i].userId == userId && records[i].status == Processing &&
                                   g == records[i].(status := Failed)))
    ensures forall i :: 0 <= i < |records| ==> AfterGate(records, userId)[i].id == records[i].id
  {
  }

  /** At most one job in progress per user. */
  predicate OneActivePerUser(records: seq<Record>) {
    forall i, j :: 0 <= i < j < |records| && records[i].userId == records[j].userId ==>
      !(records[i].status == Processing && records[j].status == Processing)
  }

  /** Starting a job keeps at most one job in progress per user: the new
      job is only created once the old one has been failed. */
  lemma GenerateKeepsOneActive(records: seq<Record>, products: seq<Product>, userId: nat, req: GenerateRequest,
                               falKey: Option<string>, appUrl: Option<string>, now: int, reply: SubmitReply)
    requires OneActivePerUser(records)
    ensures OneActivePerUser(GenerateTryOn(records, products, userId, req, falKey, appUrl, now, reply).records)
  {
    var o := GenerateTryOn(records, products, userId, req, falKey, appUrl, now, reply);
    var g := AfterGate(records, userId);
    AfterGateChanges(records, userId);
    assert OneActivePerUser(g) by {
      forall i, j | 0 <= i < j < |g| && g[i].userId == g[j].userId
        ensures !(g[i].status == Processing && g[j].status == Processing)
      {
        assert records[i].userId == records[j].userId;
      }
    }
    assert forall i :: 0 <= i < |g| && g[i].userId == userId ==> g[i].status != Processing by {
      forall i | 0 <= i < |g| && g[i].userId == userId ensures g[i].status != Processing {
        match ActiveJob(records, userId)
        case None =>
        case Some(k) =>
          assert i != k ==> g[i] == records[i];
      }
    }
    if o.result.Ok? {
      var t := o.records;
      forall i, j | 0 <= i < j < |t| && t[i].userId == t[j].userId
        ensures !(t[i].status == Processing && t[j].status == Processing)
      {
        if j == |g| {
          assert t[i] == g[i];
        }
      }
    }
  }

  // ---------------------------------------------------------------------
  // Listing and deleting
  // ---------------------------------------------------------------------

  function NewestFirst(): Record -> real {
    (r: Record) => -(r.createdAt as real)
  }

  function OfKind(userId: nat, kind: Kind): Record -> bool {
    (r: Record) => r.userId == userId && r.kind == kind
  }

  /** `getGeneratedHistory` and `getUserUploads`: the user's rows of one
      kind, newest first. */
  function ListKind(records: seq<Record>, userId: nat, kind: Kind): (r: seq<Record>)
    ensures multiset(r) == multiset(Filter(records, OfKind(userId, kind)))
    ensures forall x :: x in r <==> x in records && x.userId == userId && x.kind == kind
    ensures forall i, j :: 0 <= i < j < |r| ==> r[i].createdAt >= r[j].createdAt
  {
    var mine := Filter(records, OfKind(userId, kind));
    var sorted := SortBy(mine, NewestFirst());
    assert forall x :: x in sorted <==> x in mine by {
      assert forall x :: x in sorted <==> x in multiset(mine);
    }
    assert forall i, j :: 0 <= i < j < |sorted| ==> NewestFirst()(sorted[i]) <= NewestFirst()(sorted[j]);
    sorted
  }

  function GetGeneratedHistory(records: seq<Record>, userId: nat): (r: seq<Record>)
    ensures multiset(r) == multiset(Filter(records, OfKind(userId, Generated)))
    ensures forall x :: x in r <==> x in records && x.userId == userId && x.kind == Generated
    ensures forall i, j :: 0 <= i < j < |r| ==> r[i].createdAt >= r[j].createdAt
  {
    ListKind(records, userId, Generated)
  }

  function GetUserUploads(records: seq<Record>, userId: nat): (r: seq<Record>)
    ensures multiset(r) == multiset(Filter(records, OfKind(userId, Reference)))
    ensures forall x :: x in r <==> x in records && x.userId == userId && x.kind == Reference
    ensures forall i, j :: 0 <= i < j < |r| ==> r[i].createdAt >= r[j].createdAt
  {
    ListKind(records, userId, Reference)
  }

  /** The row with that id, owner and kind. */
  function FindOwned(records: seq<Record>, id: int, userId: nat, kind: Kind): (r: Option<nat>)
    ensures r.Some? ==> r.value < |records| && records[r.value].id == id &&
                        records[r.value].userId == userId && records[r.value].kind == kind
    ensures r.None? <==> forall i :: 0 <= i < |records| ==>
                           !(records[i].id == id && records[i].userId == userId && records[i].kind == kind)
  {
    if |records| == 0 then None
    else if records[0].id == id && records[0].userId == userId && records[0].kind == kind then Some(0)
    else
      match FindOwned(records[1..], id, userId, kind)
      case Some(i) => Some(i + 1)
      case None =>
        assert forall i :: 1 <= i < |records| ==> records[i] == records[1..][i - 1];
        None
  }

  function DeleteOwned(records: seq<Record>, id: int, userId: nat, kind: Kind, notFound: string): (r: Result<seq<Record>>)
    ensures r.Ok? <==> exists i :: 0 <= i < |records| && records[i].id == id && records[i].userId == userId && records[i].kind == kind
    ensures r.Err? ==> r.error == NotFound(notFound)
    ensures r.Ok? ==> var i := FindOwned(records, id, userId, kind).value;
              && r.value == records[..i] + records[i + 1..]
              && multiset(r.value) + multiset{records[i]} == multiset(records)
  {
    match FindOwned(records, id, userId, kind)
    case None => Err(NotFound(notFound))
    case Some(i) =>
      assert records == records[..i] + [records[i]] + records[i + 1..];
      Ok(records[..i] + records[i + 1..])
  }

  /** `deleteUpload`: only the owner's REFERENCE row with that id goes. */
  function DeleteUpload(records: seq<Record>, id: int, userId: nat): (r: Result<seq<Record>>)
    ensures r.Ok? <==> exists i :: 0 <= i < |records| && records[i].id == id && records[i].userId == userId && records[i].kind == Reference
    ensures r.Err? ==> r.error == NotFound("Image not found")
    ensures r.Ok? ==> |r.value| == |records| - 1
    ensures r.Ok? ==> var i := FindOwned(records, id, userId, Reference).value;
              && r.value == records[..i] + records[i + 1..]
              && multiset(r.value) + multiset{records[i]} == multiset(records)
  {
    DeleteOwned(records, id, userId, Reference, "Image not found")
  }

  /** `deleteGenerated`: only the owner's GENERATED row with that id goes. */
  function DeleteGenerated(records: seq<Record>, id: int, userId: nat): (r: Result<seq<Record>>)
    ensures r.Ok? <==> exists i :: 0 <= i < |records| && records[i].id == id && records[i].userId == userId && records[i].kind == Generated
    ensures r.Err? ==> r.error == NotFound("Try-on record not found")
    ensures r.Ok? ==> |r.value| == |records| - 1
    ensures r.Ok? ==> var i := FindOwned(records, id, userId, Generated).value;
              && r.value == records[..i] + records[i + 1..]
              && multiset(r.value) + multiset{records[i]} == multiset(records)
  {
    DeleteOwned(records, id, userId, Generated, "Try-on record not found")
  }

  /** Deleting removes nothing of another user and nothing of the other kind. */
  lemma DeleteKeepsOthers(records: seq<Record>, id: int, userId: nat, kind: Kind, notFound: string)
    requires DeleteOwned(records, id, userId, kind, notFound).Ok?
    ensures forall x :: x in records && (x.userId != userId || x.kind != kind || x.id != id) ==>
              x in DeleteOwned(records, id, userId, kind, notFound).value
  {
    var r := DeleteOwned(records, id, userId, kind, notFound).value;
    var i := FindOwned(records, id, userId, kind).value;
    forall x | x in records && (x.userId != userId || x.kind != kind || x.id != id) ensures x in r {
      assert x in multiset(records);
      assert x != records[i];
      assert x in multiset(r) + multiset{records[i]};
    }
  }
}

=== FILE: tryon_poll.dfy ===
/** The background poll of a submitted try-on job. Every two seconds the
    provider's status URL is fetched; each answer (or failure) is one tick,
    which may write the job's row and may stop the poll. A poll is the
    fold of its ticks over the answers the provider gives. */
module TryOnPoll {
  import opened Common
  import opened TryOn

  const MaxAttempts: nat := 60

  datatype Image = Image(url: Option<string>)

  /** The `payload` object a finished job may carry its images in. */
  datatype Images = Images(images: Option<seq<Image>>)

  /** A status answer: its `status`, an `images` list and a `payload`. */
  datatype StatusData = StatusData(status: Option<string>, images: Option<seq<Image>>, payload: Option<Images>)

  /** What one tick saw: an answer, or a thrown request error. */
  datatype PollReply = Answered(data: StatusData) | Threw(error: FalError)

  /** One update of the job's row: the status and, if given, the image URLs. */
  datatype Write = Write(status: JobStatus, images: Option<seq<string>>)

  /** What a tick does to the row, and whether the poll stops. */
  datatype Tick = Tick(writes: seq<Write>, stop: bool)

  /** How a reply is read before the attempt count is looked at: a final
      write, nothing yet, or a thrown error the tick returns on without
      reaching the attempt check. */
  datatype Verdict = Finished(w: Write) | Pending | Skipped

  predicate Truthy(s: Option<string>) {
    s.Some? && s.value != ""
  }

  /** `status === 'COMPLETED' || (!status && data.images)`; a list is truthy
      even when empty. */
  predicate Done(d: StatusData) {
    d.status == Some("COMPLETED") || (!Truthy(d.status) && d.images.Some?)
  }

  /** `(data.payload || data).images?.[0]?.url`, when truthy. */
  function ResultUrl(d: StatusData): (r: Option<string>)
    ensures r.Some? ==> r.value != ""
  {
    var images := if d.payload.Some? then d.payload.value.images else d.images;
    if images.None? || |images.value| == 0 || !Truthy(images.value[0].url) then None
    else images.value[0].url
  }

  /** A 400 whose message says the job is still running. A list of detail
      items renders as `[object Object]` and never matches. */
  predicate InProgress(e: FalError) {
    e.status == Some(400) && !e.detail.DetailItems? && Contains(MessageText(e), "in progress")
  }

  function Classify(reply: PollReply): (v: Verdict)
    ensures v.Finished? ==> v.w.status != Processing
    ensures v.Finished? && v.w.status == Completed <==>
              reply.Answered? && Done(reply.data) && ResultUrl(reply.data).Some?
    ensures v.Finished? && v.w.status == Completed ==> v.w.images == Some([ResultUrl(reply.data).value])
    ensures v.Skipped? <==> reply.Threw? && (InProgress(reply.error) || reply.error.status == Some(404))
    ensures v.Pending? <==> reply.Answered? && !Done(reply.data) && reply.data.status != Some("FAILED")
  {
    match reply
    case Answered(d) =>
      if Done(d) then
        match ResultUrl(d)
        case Some(u) => Finished(Write(Completed, Some([u])))
        case None => Finished(Write(Failed, None))
      else if d.status == Some("FAILED") then Finished(Write(Failed, None))
      else Pending
    case Threw(e) =>
      if InProgress(e) then Skipped
      else if e.status == Some(405) || e.status == Some(422) || e.status == Some(400) then Finished(Write(Failed, None))
      else if e.status == Some(404) then Skipped
      else Finished(Write(Failed, None))
  }

  /** One tick of the poll as the service runs it: `attempts` has already
      been counted. Only an answered tick reaches the attempt check, and
      there the TIMEOUT write follows whatever the tick wrote. */
  function TickAsWritten(reply: PollReply, attempts: nat): (t: Tick)
    ensures t.stop <==> Classify(reply).Finished? || (reply.Answered? && attempts >= MaxAttempts)
    ensures Classify(reply).Skipped? ==> t == Tick([], false)
    ensures reply.Answered? && attempts >= MaxAttempts ==> |t.writes| > 0 && t.writes[|t.writes| - 1] == Write(Timeout, None)
    ensures |t.writes| > 0 ==> t.stop
    ensures forall w :: w in t.writes ==> w.status != Processing
  {
    match Classify(reply)
    case Skipped => Tick([], false)
    case Finished(w) =>
      if reply.Answered? && attempts >= MaxAttempts then Tick([w, Write(Timeout, None)], true)
      else Tick([w], true)
    case Pending =>
      if attempts >= MaxAttempts then Tick([Write(Timeout, None)], true) else Tick([], false)
  }

  /** The tick as intended: a final answer is written alone, and every tick
      that does not finish the job counts toward the limit. */
  function TickFixed(reply: PollReply, attempts: nat): (t: Tick)
    ensures t.stop <==> Classify(reply).Finished? || attempts >= MaxAttempts
    ensures t.stop <==> |t.writes| == 1
    ensures |t.writes| <= 1
    ensures Classify(reply).Finished? ==> t.writes == [Classify(reply).w]
    ensures !Classify(reply).Finished? && t.stop ==> t.writes == [Write(Timeout, None)]
  {
    match Classify(reply)
    case Finished(w) => Tick([w], true)
    case _ => if attempts >= MaxAttempts then Tick([Write(Timeout, None)], true) else Tick([], false)
  }

  /** The poll's view of the row, with the count of ticks so far. */
  datatype Poll = Poll(status: JobStatus, imageUrls: seq<string>, attempts: nat, stopped: bool)

  const Start: Poll := Poll(Processing, [], 0, false)

  function ApplyWrite(p: Poll, w: Write): Poll {
    p.(status := w.status, imageUrls := if w.images.Some? then w.images.value else p.imageUrls)
  }

  function ApplyWrites(p: Poll, ws: seq<Write>): (r: Poll)
    ensures r.attempts == p.attempts && r.stopped == p.stopped
    ensures |ws| > 0 ==> r.status == ws[|ws| - 1].status
    ensures |ws| == 0 ==> r == p
    decreases |ws|
  {
    if |ws| == 0 then p else ApplyWrites(ApplyWrite(p, ws[0]), ws[1..])
  }

  function TickOf(fixed: bool, reply: PollReply, attempts: nat): Tick {
    if fixed then TickFixed(reply, attempts) else TickAsWritten(reply, attempts)
  }

  /** One interval firing: count the attempt, run the tick, apply its writes. */
  function Step(fixed: bool, p: Poll, reply: PollReply): (r: Poll)
    ensures r.attempts == p.attempts + 1
  {
    var a := p.attempts + 1;
    var t := TickOf(fixed, reply, a);
    ApplyWrites(p.(attempts := a), t.writes).(stopped := t.stop)
  }

  /** The poll over the provider's successive replies; once stopped, later
      replies are never fetched. */
  function Run(fixed: bool, p: Poll, replies: seq<PollReply>): (r: Poll)
    ensures p.stopped ==> r == p
    ensures r.attempts <= p.attempts + |replies|
    decreases |replies|
  {
    if p.stopped || |replies| == 0 then p
    else Run(fixed, Step(fixed, p, replies[0]), replies[1..])
  }

  lemma {:induction false} RunAppend(fixed: bool, p: Poll, a: seq<PollReply>, b: seq<PollReply>)
    ensures Run(fixed, p, a + b) == Run(fixed, Run(fixed, p, a), b)
    decreases |a|
  {
    if p.stopped || |a| == 0 {
      assert a + b == b || p.stopped;
    } else {
      assert (a + b)[0] == a[0];
      assert (a + b)[1..] == a[1..] + b;
      RunAppend(fixed, Step(fixed, p, a[0]), a[1..], b);
    }
  }

  function Repeat(reply: PollReply, n: nat): (r: seq<PollReply>)
    ensures |r| == n && forall i :: 0 <= i < n ==> r[i] == reply
  {
    if n == 0 then [] else [reply] + Repeat(reply, n - 1)
  }

  /** The provider's answer while the job is queued. */
  const Queued: PollReply := Answered(StatusData(Some("IN_QUEUE"), None, None))

  /** The provider's 404 while the job has not reached its queue. */
  const NotQueuedYet: PollReply := Threw(FalError(Some(404), NoDetail, "Request failed with status code 404"))

  function CompletedWith(url: string): PollReply {
    Answered(StatusData(Some("COMPLETED"), Some([Image(Some(url))]), None))
  }

  // ---------------------------------------------------------------------
  // The poll as written
  // ---------------------------------------------------------------------

  /** A 404 tick neither stops the poll nor counts toward the limit: any
      number of them, past 60, leaves the job PROCESSING and polling. */
  lemma {:induction false} NotFoundNeverStops(p: Poll, n: nat)
    requires !p.stopped
    ensures Run(false, p, Repeat(NotQueuedYet, n)) == p.(attempts := p.attempts + n)
    decreases n
  {
    if n > 0 {
      var q := Step(false, p, NotQueuedYet);
      assert Classify(NotQueuedYet).Skipped?;
      assert q == p.(attempts := p.attempts + 1);
      assert Repeat(NotQueuedYet, n)[1..] == Repeat(NotQueuedYet, n - 1);
      NotFoundNeverStops(q, n - 1);
    }
  }

  lemma NotFoundPollsForever(n: nat)
    ensures Run(false, Start, Repeat(NotQueuedYet, n)) == Poll(Processing, [], n, false)
  {
    NotFoundNeverStops(Start, n);
  }

  /** Queued answers before the limit change nothing. */
  lemma {:induction false} QueuedWaits(fixed: bool, p: Poll, n: nat)
    requires !p.stopped && p.attempts + n < MaxAttempts
    ensures Run(fixed, p, Repeat(Queued, n)) == p.(attempts := p.attempts + n)
    decreases n
  {
    if n > 0 {
      var q := Step(fixed, p, Queued);
      assert Classify(Queued).Pending?;
      assert q == p.(attempts := p.attempts + 1);
      assert Repeat(Queued, n)[1..] == Repeat(Queued, n - 1);
      QueuedWaits(fixed, q, n - 1);
    }
  }

  /** A job the provider finishes on the 60th tick is saved with its image
      and then marked TIMEOUT by the same tick. */
  lemma CompletedOnLastTickTimesOut(url: string)
    requires url != ""
    ensures Run(false, Start, Repeat(Queued, MaxAttempts - 1) + [CompletedWith(url)])
            == Poll(Timeout, [url], MaxAttempts, true)
  {
    RunAppend(false, Start, Repeat(Queued, MaxAttempts - 1), [CompletedWith(url)]);
    QueuedWaits(false, Start, MaxAttempts - 1);
    var p := Start.(attempts := MaxAttempts - 1);
    assert ResultUrl(CompletedWith(url).data) == Some(url);
    var ws := [Write(Completed, Some([url])), Write(Timeout, None)];
    assert TickAsWritten(CompletedWith(url), MaxAttempts).writes == ws;
    var q := p.(attempts := MaxAttempts);
    assert ApplyWrites(q, ws) == ApplyWrites(ApplyWrite(q, ws[0]), ws[1..]);
    assert ApplyWrite(q, ws[0]).imageUrls == [url];
    assert ApplyWrites(q, ws).imageUrls == [url];
    assert Run(false, p, [CompletedWith(url)]) == Step(false, p, CompletedWith(url));
  }

  // ---------------------------------------------------------------------
  // The poll as intended
  // ---------------------------------------------------------------------

  /** Every tick counts, so the intended poll stops by its 60th tick and
      has stopped once 60 replies have come in. */
  lemma {:induction false} FixedStopsInTime(p: Poll, replies: seq<PollReply>)
    requires p.attempts <= MaxAttempts && (p.attempts == MaxAttempts ==> p.stopped)
    ensures Run(true, p, replies).attempts <= MaxAttempts
    ensures p.attempts + |replies| >= MaxAttempts ==> Run(true, p, replies).stopped
    decreases |replies|
  {
    if !p.stopped && |replies| > 0 {
      var q := Step(true, p, replies[0]);
      assert q.attempts == MaxAttempts ==> q.stopped;
      FixedStopsInTime(q, replies[1..]);
    }
  }

  lemma FixedPollEnds(replies: seq<PollReply>)
    ensures Run(true, Start, replies).attempts <= MaxAttempts
    ensures |replies| >= MaxAttempts ==> Run(true, Start, replies).stopped
  {
    FixedStopsInTime(Start, replies);
  }

  /** Once the intended poll stops, the row holds the provider's final
      answer, or TIMEOUT if there was none: never PROCESSING, and the first
      final answer is the one kept. */
  lemma FixedKeepsFinalAnswer(p: Poll, reply: PollReply, rest: seq<PollReply>)
    requires !p.stopped && Classify(reply).Finished?
    ensures Run(true, p, [reply] + rest).stopped
    ensures Run(true, p, [reply] + rest).status == Classify(reply).w.status
    ensures Classify(reply).w.images.Some? ==> Run(true, p, [reply] + rest).imageUrls == Classify(reply).w.images.value
  {
    assert ([reply] + rest)[1..] == rest;
    assert ([reply] + rest)[0] == reply;
  }

  /** The job finished on the last tick keeps its image under the intended poll. */
  lemma FixedCompletedOnLastTick(url: string)
    requires url != ""
    ensures Run(true, Start, Repeat(Queued, MaxAttempts - 1) + [CompletedWith(url)])
            == Poll(Completed, [url], MaxAttempts, true)
  {
    RunAppend(true, Start, Repeat(Queued, MaxAttempts - 1), [CompletedWith(url)]);
    QueuedWaits(true, Start, MaxAttempts - 1);
    var p := Start.(attempts := MaxAttempts - 1);
    assert ResultUrl(CompletedWith(url).data) == Some(url);
    assert Run(true, p, [CompletedWith(url)]) == Step(true, p, CompletedWith(url));
  }

  /** Under both polls a stopped job is never left PROCESSING. */
  lemma {:induction false} StoppedIsSettled(fixed: bool, p: Poll, replies: seq<PollReply>)
    requires p.stopped ==> p.status != Processing
    ensures Run(fixed, p, replies).stopped ==> Run(fixed, p, replies).status != Processing
    decreases |replies|
  {
    if !p.stopped && |replies| > 0 {
      var a := p.attempts + 1;
      var t := TickOf(fixed, replies[0], a);
      assert t.stop ==> |t.writes| > 0;
      if |t.writes| > 0 {
        assert t.writes[|t.writes| - 1] in t.writes;
      }
      StoppedIsSettled(fixed, Step(fixed, p, replies[0]), replies[1..]);
    }
  }
}

=== FILE: uploads.dfy ===
/** File uploads: how stored file names are made and which files are
    accepted, for a user's try-on reference photos and for product images,
    and what the two controllers do with the stored names. The file name
    extension follows Node's POSIX `path.extname`. */
module Uploads {
  import opened Common
  import opened Catalog
  import opened TryOn
  import UriEncoding

  // ---------------------------------------------------------------------
  // path.extname
  // ---------------------------------------------------------------------

  function StripTrailingSlashes(s: string): (r: string)
    ensures |r| <= |s| && s[..|r|] == r
    ensures |r| == 0 || r[|r| - 1] != '/'
    ensures (forall i :: 0 <= i < |s| ==> s[i] != '/') ==> r == s
  {
    if |s| > 0 && s[|s| - 1] == '/' then StripTrailingSlashes(s[..|s| - 1]) else s
  }

  /** The index of the last `c` in `s`, if any. */
  function LastIndexOf(s: string, c: char): (r: Option<nat>)
    ensures r.Some? ==> r.value < |s| && s[r.value] == c && forall i :: r.value < i < |s| ==> s[i] != c
    ensures r.None? <==> forall i :: 0 <= i < |s| ==> s[i] != c
  {
    if |s| == 0 then None
    else if s[|s| - 1] == c then Some(|s| - 1)
    else LastIndexOf(s[..|s| - 1], c)
  }

  /** The last path component, trailing slashes ignored. */
  function BaseName(path: string): (b: string)
    ensures forall i :: 0 <= i < |b| ==> b[i] != '/'
    ensures EndsWith(StripTrailingSlashes(path), b)
  {
    var s := StripTrailingSlashes(path);
    match LastIndexOf(s, '/')
    case None => s
    case Some(k) => s[k + 1..]
  }

  /** `path.extname`: from the last '.' of the last component to its end;
      empty when that component has no '.', when its only leading text is
      the '.' itself (".bashrc"), or when it is "..". */
  function ExtName(path: string): (r: string)
    ensures r == "" || (r[0] == '.' && forall i :: 1 <= i < |r| ==> r[i] != '.' && r[i] != '/')
    ensures EndsWith(BaseName(path), r)
    ensures (forall i :: 0 <= i < |path| ==> path[i] != '.') ==> r == ""
  {
    var b := BaseName(path);
    match LastIndexOf(b, '.')
    case None => ""
    case Some(d) =>
      if d == 0 || b == ".." then ""
      else
        BaseNameFromPath(path, d);
        b[d..]
  }

  /** Every character of the base name comes from the path. */
  lemma BaseNameFromPath(path: string, i: nat)
    requires i < |BaseName(path)|
    ensures BaseName(path)[i] in path
  {
    var b := BaseName(path);
    var s := StripTrailingSlashes(path);
    assert b[i] == s[|s| - |b| + i] == path[|s| - |b| + i];
  }

  /** A name with a non-empty stem and a dot-free suffix has that suffix as
      its extension. */
  lemma ExtOfDotted(stem: string, ext: string)
    requires stem != "" && stem + "." + ext != ".."
    requires forall i :: 0 <= i < |stem| ==> stem[i] != '/'
    requires forall i :: 0 <= i < |ext| ==> ext[i] != '.' && ext[i] != '/'
    ensures ExtName(stem + "." + ext) == "." + ext
  {
    var name := stem + "." + ext;
    assert forall i :: 0 <= i < |name| ==> name[i] != '/' by {
      forall i | 0 <= i < |name| ensures name[i] != '/' {
        if i < |stem| { assert name[i] == stem[i]; }
        else if i > |stem| { assert name[i] == ext[i - |stem| - 1]; }
      }
    }
    assert StripTrailingSlashes(name) == name;
    assert LastIndexOf(name, '/').None?;
    assert BaseName(name) == name;
    var d := LastIndexOf(name, '.');
    assert name[|stem|] == '.';
    assert forall i :: |stem| < i < |name| ==> name[i] == ext[i - |stem| - 1];
    assert d == Some(|stem|);
    assert name[|stem|..] == "." + ext;
  }

  // ---------------------------------------------------------------------
  // Try-on reference photos
  // ---------------------------------------------------------------------

  datatype UploadFile = UploadFile(originalName: string, mimetype: string)

  /** The clock reading and random number a stored name was made from. */
  datatype Draw = Draw(now: nat, random: nat)

  const TryOnMaxFiles: nat := 5
  const ProductMaxFiles: nat := 10

  /** The try-on filter: the MIME type ends with /jpg, /jpeg or /png. */
  predicate MimeAccepted(mimetype: string) {
    EndsWith(mimetype, "/jpg") || EndsWith(mimetype, "/jpeg") || EndsWith(mimetype, "/png")
  }

  const ReferenceDir: string := "/uploads/try-on/"
  const ReferencePrefix: string := "user-ref-"

  /** `a + b + c` starts with `a` and ends with `c`. */
  lemma Affixes(a: string, b: string, c: string)
    ensures StartsWith(a + b + c, a) && EndsWith(a + b + c, c)
  {
    assert (a + b + c)[..|a|] == a;
    assert (a + b + c)[|a + b + c| - |c|..] == c;
  }

  lemma EndsWithTrans(r: string, x: string, y: string)
    requires EndsWith(r, x) && EndsWith(x, y)
    ensures EndsWith(r, y)
  {
    assert r[|r| - |y|..] == x[|x| - |y|..];
  }

  /** `a + t` ends with whatever `t` ends with. */
  lemma EndsWithAppend(a: string, t: string, e: string)
    requires EndsWith(t, e)
    ensures EndsWith(a + t, e)
  {
    assert (a + t)[|a + t| - |e|..] == t[|t| - |e|..];
  }

  lemma StartsWithPrepend(a: string, t: string, p: string)
    requires StartsWith(t, p)
    ensures StartsWith(a + t, a + p)
  {
    assert (a + t)[..|a + p|] == a + t[..|p|];
  }

  /** `user-ref-<time>-<random><ext>` */
  function TryOnFileName(d: Draw, originalName: string): string {
    ReferencePrefix + (NatToString(d.now) + "-" + NatToString(d.random)) + ExtName(originalName)
  }

  /** Where a reference photo is served from. */
  function ReferenceUrl(d: Draw, originalName: string): string {
    ReferenceDir + TryOnFileName(d, originalName)
  }

  /** A reference URL is the served directory followed by the stored name,
      which starts with `user-ref-` and keeps the original extension. */
  lemma ReferenceUrlShape(d: Draw, originalName: string)
    ensures StartsWith(ReferenceUrl(d, originalName), ReferenceDir + ReferencePrefix)
    ensures EndsWith(ReferenceUrl(d, originalName), ExtName(originalName))
  {
    var mid := NatToString(d.now) + "-" + NatToString(d.random);
    var t := TryOnFileName(d, originalName);
    Affixes(ReferencePrefix, mid, ExtName(originalName));
    StartsWithPrepend(ReferenceDir, t, ReferencePrefix);
    EndsWithAppend(ReferenceDir, t, ExtName(originalName));
  }

  /** The first rejection the upload middleware meets reading the files in
      order: a file past the count limit, or one the filter refuses. */
  function Screen(files: seq<UploadFile>, maxCount: nat, accept: UploadFile -> bool): (r: Option<Error>)
    ensures r.None? <==> |files| <= maxCount && forall i :: 0 <= i < |files| ==> accept(files[i])
    ensures r == Some(BadRequest("Only image files are allowed!")) <==>
              exists i :: 0 <= i < |files| && i < maxCount && !accept(files[i])
    ensures r.Some? ==> r == Some(BadRequest("Only image files are allowed!")) || r == Some(BadRequest("Unexpected field"))
  {
    ScreenFrom(files, maxCount, accept, 0)
  }

  function ScreenFrom(files: seq<UploadFile>, maxCount: nat, accept: UploadFile -> bool, k: nat): (r: Option<Error>)
    requires k <= |files| && k <= maxCount
    requires forall i :: 0 <= i < k ==> accept(files[i])
    ensures r.None? <==> |files| <= maxCount && forall i :: k <= i < |files| ==> accept(files[i])
    ensures r == Some(BadRequest("Only image files are allowed!")) <==>
              exists i :: k <= i < |files| && i < maxCount && !accept(files[i])
    ensures r.Some? ==> r == Some(BadRequest("Only image files are allowed!")) || r == Some(BadRequest("Unexpected field"))
    decreases |files| - k
  {
    if k == |files| then None
    else if k == maxCount then Some(BadRequest("Unexpected field"))
    else if !accept(files[k]) then Some(BadRequest("Only image files are allowed!"))
    else ScreenFrom(files, maxCount, accept, k + 1)
  }

  function ReferenceUrls(files: seq<UploadFile>, draws: seq<Draw>): (r: seq<string>)
    requires |draws| == |files|
    ensures |r| == |files|
    ensures forall i :: 0 <= i < |files| ==> r[i] == ReferenceUrl(draws[i], files[i].originalName)
  {
    if |files| == 0 then []
    else [ReferenceUrl(draws[0], files[0].originalName)] + ReferenceUrls(files[1..], draws[1..])
  }

  /** `uploadUserImages`: up to five JPEG/PNG files, each stored under
      /uploads/try-on/ and all recorded, in order, as one reference row. */
  function UploadUserImages(records: seq<Record>, userId: nat, files: seq<UploadFile>, draws: seq<Draw>, now: int)
    : (r: Result<(seq<Record>, Record)>)
    requires |draws| == |files|
    ensures r.Ok? <==> 0 < |files| <= TryOnMaxFiles && forall i :: 0 <= i < |files| ==> MimeAccepted(files[i].mimetype)
    ensures |files| == 0 ==> r == Err(BadRequest("No files uploaded"))
    ensures (exists i :: 0 <= i < |files| && i < TryOnMaxFiles && !MimeAccepted(files[i].mimetype)) ==>
              r == Err(BadRequest("Only image files are allowed!"))
    ensures r.Ok? ==> var rec := r.value.1;
              && r.value.0 == records + [rec]
              && rec.userId == userId && rec.kind == Reference && rec.status == Completed
              && |rec.imageUrls| == |files|
              && forall i :: 0 <= i < |files| ==>
                   && StartsWith(rec.imageUrls[i], ReferenceDir + ReferencePrefix)
                   && EndsWith(rec.imageUrls[i], ExtName(files[i].originalName))
  {
    match Screen(files, TryOnMaxFiles, (f: UploadFile) => MimeAccepted(f.mimetype))
    case Some(e) => Err(e)
    case None =>
      if |files| == 0 then Err(BadRequest("No files uploaded"))
      else
        var urls := ReferenceUrls(files, draws);
        assert forall i :: 0 <= i < |files| ==>
                 StartsWith(urls[i], ReferenceDir + ReferencePrefix) && EndsWith(urls[i], ExtName(files[i].originalName)) by {
          forall i | 0 <= i < |files|
            ensures StartsWith(urls[i], ReferenceDir + ReferencePrefix) && EndsWith(urls[i], ExtName(files[i].originalName))
          {
            ReferenceUrlShape(draws[i], files[i].originalName);
          }
        }
        Ok(SaveUserUploads(records, userId, urls, now))
  }

  // ---------------------------------------------------------------------
  // Try-on generation through the controller
  // ---------------------------------------------------------------------

  const DefaultApiBase: string := "http://YOUR_PUBLIC_IP:3000"

  function ApiBase(apiBaseEnv: Option<string>): string {
    OrElse(if apiBaseEnv.Some? then apiBaseEnv.value else "", DefaultApiBase)
  }

  /** Server-relative user image URLs get the API base in front; all others,
      and the list's order and length, are kept. */
  function PrefixUserImages(urls: seq<string>, apiBaseEnv: Option<string>): (r: seq<string>)
    ensures |r| == |urls|
    ensures forall i :: 0 <= i < |urls| && StartsWith(urls[i], "/") ==> r[i] == ApiBase(apiBaseEnv) + urls[i]
    ensures forall i :: 0 <= i < |urls| && !StartsWith(urls[i], "/") ==> r[i] == urls[i]
  {
    if |urls| == 0 then []
    else
      [if StartsWith(urls[0], "/") then ApiBase(apiBaseEnv) + urls[0] else urls[0]]
        + PrefixUserImages(urls[1..], apiBaseEnv)
  }

  /** The generate endpoint: the user images made absolute, then the
      service. Garment URLs pass through untouched. */
  function GenerateFromController(records: seq<Record>, products: seq<Product>, userId: nat, req: GenerateRequest,
                                  falKey: Option<string>, apiBaseEnv: Option<string>, appUrl: Option<string>,
                                  now: int, reply: SubmitReply): (o: Outcome)
    ensures o.sent.Some? ==>
              o.sent.value.garmentImage == UriEncoding.GetPublicUrl(FirstOrEmpty(req.garmentImageUrls), appUrl)
    ensures o.sent.Some? && |req.userImageUrls| > 0 && StartsWith(req.userImageUrls[0], "/")
              && StartsWith(ApiBase(apiBaseEnv), "http") ==>
              o.sent.value.modelImage == ApiBase(apiBaseEnv) + req.userImageUrls[0]
    ensures o.result.Ok? ==> o.result.value.garmentUrls == Some(req.garmentImageUrls)
  {
    var prefixed := req.(userImageUrls := PrefixUserImages(req.userImageUrls, apiBaseEnv));
    var o := GenerateTryOn(records, products, userId, prefixed, falKey, appUrl, now, reply);
    if |req.userImageUrls| > 0 && StartsWith(req.userImageUrls[0], "/") then
      var u := ApiBase(apiBaseEnv) + req.userImageUrls[0];
      UriEncoding.PublicUrlShape(u, appUrl);
      assert StartsWith(ApiBase(apiBaseEnv), "http") ==> u[..4] == ApiBase(apiBaseEnv)[..4];
      o
    else o
  }

  // ---------------------------------------------------------------------
  // Product images
  // ---------------------------------------------------------------------

  /** `split('.')[0]`: the text before the first '.'. */
  function BeforeFirstDot(s: string): (r: string)
    ensures |r| <= |s| && s[..|r|] == r
    ensures forall i :: 0 <= i < |r| ==> r[i] != '.'
    ensures |r| < |s| ==> s[|r|] == '.'
  {
    if |s| == 0 || s[0] == '.' then "" else [s[0]] + BeforeFirstDot(s[1..])
  }

  /** Every character outside [a-zA-Z0-9] becomes '-'. */
  function Sanitize(s: string): (r: string)
    ensures |r| == |s|
    ensures forall i :: 0 <= i < |s| ==> r[i] == (if IsAsciiAlnum(s[i]) then s[i] else '-')
  {
    if |s| == 0 then [] else [if IsAsciiAlnum(s[0]) then s[0] else '-'] + Sanitize(s[1..])
  }

  /** `n.toString(16)` for an `n` that `Math.round(Math.random() * 16)` can give. */
  function HexToken(n: nat): (r: string)
    requires n <= 16
    ensures 1 <= |r| <= 2 && (|r| == 2 <==> n == 16)
    ensures forall i :: 0 <= i < |r| ==> IsAsciiAlnum(r[i])
  {
    if n < 10 then [DigitChar(n)]
    else if n < 16 then [('a' as int + n - 10) as char]
    else "10"
  }

  predicate ValidDraws(draws: seq<nat>) {
    |draws| == 4 && forall i :: 0 <= i < |draws| ==> draws[i] <= 16
  }

  function RandomName(draws: seq<nat>): (r: string)
    requires forall i :: 0 <= i < |draws| ==> draws[i] <= 16
    ensures |draws| <= |r| <= 2 * |draws|
    ensures forall i :: 0 <= i < |r| ==> IsAsciiAlnum(r[i])
  {
    if |draws| == 0 then "" else HexToken(draws[0]) + RandomName(draws[1..])
  }

  function Stem(originalName: string): string {
    Sanitize(BeforeFirstDot(originalName))
  }

  /** `editFileName`: the sanitised text before the first '.', a '-', four
      random hexadecimal tokens and the original extension. */
  function EditFileName(originalName: string, draws: seq<nat>): string
    requires ValidDraws(draws)
  {
    Stem(originalName) + ("-" + RandomName(draws)) + ExtName(originalName)
  }

  predicate NameChars(s: string) {
    forall i :: 0 <= i < |s| ==> IsAsciiAlnum(s[i]) || s[i] == '-'
  }

  /** The layout of `stem-random.ext`, stated for any three strings. */
  lemma JoinedName(stem: string, rnd: string, ext: string)
    ensures var r := stem + ("-" + rnd) + ext;
            && StartsWith(r, stem + "-") && EndsWith(r, ext)
            && |r| == |stem| + 1 + |rnd| + |ext|
            && (NameChars(stem) && NameChars(rnd) ==> NameChars(r[..|r| - |ext|]))
  {
    var r := stem + ("-" + rnd) + ext;
    Affixes(stem, "-" + rnd, ext);
    assert r[..|stem| + 1] == stem + "-";
    assert r[..|r| - |ext|] == stem + ("-" + rnd);
    if NameChars(stem) && NameChars(rnd) {
      var h := stem + ("-" + rnd);
      forall i | 0 <= i < |h| ensures IsAsciiAlnum(h[i]) || h[i] == '-' {
        if i < |stem| { assert h[i] == stem[i]; }
        else if i > |stem| { assert h[i] == rnd[i - |stem| - 1]; }
      }
    }
  }

  /** The stored name starts with the sanitised stem and a '-' and ends
      with the original extension; before the extension it holds only
      letters, digits and '-', and its random part is four to eight
      characters long. */
  lemma EditFileNameShape(originalName: string, draws: seq<nat>)
    requires ValidDraws(draws)
    ensures var r := EditFileName(originalName, draws);
            var stem := Stem(originalName);
            var ext := ExtName(originalName);
            && StartsWith(r, stem + "-")
            && EndsWith(r, ext)
            && |stem| + 5 + |ext| <= |r| <= |stem| + 9 + |ext|
            && NameChars(r[..|r| - |ext|])
  {
    var rnd := RandomName(draws);
    assert NameChars(rnd);
    assert NameChars(Stem(originalName));
    JoinedName(Stem(originalName), rnd, ExtName(originalName));
  }

  /** The product-image filter: the original name ends in .jpg, .jpeg,
      .png or .webp, case-sensitively. */
  predicate ImageNameAccepted(name: string) {
    EndsWith(name, ".jpg") || EndsWith(name, ".jpeg") || EndsWith(name, ".png") || EndsWith(name, ".webp")
  }

  lemma AcceptedBySuffix(r: string, x: string)
    requires ImageNameAccepted(x) && EndsWith(r, x)
    ensures ImageNameAccepted(r)
  {
    if EndsWith(x, ".jpg") { EndsWithTrans(r, x, ".jpg"); }
    else if EndsWith(x, ".jpeg") { EndsWithTrans(r, x, ".jpeg"); }
    else if EndsWith(x, ".png") { EndsWithTrans(r, x, ".png"); }
    else { EndsWithTrans(r, x, ".webp"); }
  }

  lemma NoDotNotAccepted(r: string)
    requires forall i :: 0 <= i < |r| ==> r[i] != '.'
    ensures !ImageNameAccepted(r)
  {
    if |r| >= 4 { assert r[|r| - 4..][0] == r[|r| - 4]; }
    if |r| >= 5 { assert r[|r| - 5..][0] == r[|r| - 5]; }
  }

  lemma ExtensionKept(stem: string, ext: string, draws: seq<nat>)
    requires ValidDraws(draws) && stem != "" && |ext| > 0
    requires forall i :: 0 <= i < |stem| ==> stem[i] != '/'
    requires forall i :: 0 <= i < |ext| ==> ext[i] != '.' && ext[i] != '/'
    ensures EndsWith(stem + "." + ext, "." + ext)
    ensures EndsWith(EditFileName(stem + "." + ext, draws), "." + ext)
  {
    var name := stem + "." + ext;
    assert name == stem + ("." + ext);
    assert name[|stem|..] == "." + ext;
    ExtOfDotted(stem, ext);
    EditFileNameShape(name, draws);
  }

  /** An accepted name with text before its extension keeps that extension
      when stored, so the stored name passes the same filter. */
  lemma StoredNameAccepted(stem: string, ext: string, draws: seq<nat>)
    requires ValidDraws(draws) && stem != "" && ImageNameAccepted("." + ext)
    requires forall i :: 0 <= i < |stem| ==> stem[i] != '/'
    requires forall i :: 0 <= i < |ext| ==> ext[i] != '.' && ext[i] != '/'
    ensures ImageNameAccepted(stem + "." + ext)
    ensures ImageNameAccepted(EditFileName(stem + "." + ext, draws))
  {
    ExtensionKept(stem, ext, draws);
    AcceptedBySuffix(stem + "." + ext, "." + ext);
    AcceptedBySuffix(EditFileName(stem + "." + ext, draws), "." + ext);
  }

  /** A name that is only a '.' and a dot-free suffix has no extension. */
  lemma BareExtName(ext: string)
    requires forall i :: 0 <= i < |ext| ==> ext[i] != '.' && ext[i] != '/'
    ensures ExtName("." + ext) == ""
  {
    var n := "." + ext;
    assert forall i :: 0 <= i < |n| ==> n[i] != '/' by {
      forall i | 0 <= i < |n| ensures n[i] != '/' {
        if i > 0 { assert n[i] == ext[i - 1]; }
      }
    }
    assert BaseName(n) == n;
    assert forall i :: 0 < i < |n| ==> n[i] != '.' by {
      forall i | 0 < i < |n| ensures n[i] != '.' { assert n[i] == ext[i - 1]; }
    }
  }

  /** Without an extension, a stored name has no '.' at all. */
  lemma NoExtNoDot(originalName: string, draws: seq<nat>)
    requires ValidDraws(draws) && ExtName(originalName) == ""
    ensures forall i :: 0 <= i < |EditFileName(originalName, draws)| ==> EditFileName(originalName, draws)[i] != '.'
  {
    EditFileNameShape(originalName, draws);
    var r := EditFileName(originalName, draws);
    assert r[..|r|] == r;
  }

  /** The accepted suffix is all a stored name keeps: a file named only by
      its extension (".png") passes the filter yet is stored without one. */
  lemma BareExtensionDropped(ext: string, draws: seq<nat>)
    requires ValidDraws(draws) && ImageNameAccepted("." + ext)
    requires forall i :: 0 <= i < |ext| ==> ext[i] != '.' && ext[i] != '/'
    ensures !ImageNameAccepted(EditFileName("." + ext, draws))
  {
    BareExtName(ext);
    NoExtNoDot("." + ext, draws);
    NoDotNotAccepted(EditFileName("." + ext, draws));
  }

  const DefaultAppUrl: string := "https://api.facelookshopping.in"

  function AppUrl(appUrlEnv: Option<string>): string {
    OrElse(if appUrlEnv.Some? then appUrlEnv.value else "", DefaultAppUrl)
  }

  function ImageUrl(base: string, originalName: string, draws: seq<nat>): string
    requires ValidDraws(draws)
  {
    (base + "/uploads/") + EditFileName(originalName, draws)
  }

  /** A product image URL is the base, `/uploads/`, then the stored name. */
  lemma ImageUrlShape(base: string, originalName: string, draws: seq<nat>)
    requires ValidDraws(draws)
    ensures StartsWith(ImageUrl(base, originalName, draws), base + "/uploads/")
    ensures EndsWith(ImageUrl(base, originalName, draws), ExtName(originalName))
  {
    EditFileNameShape(originalName, draws);
    var n := EditFileName(originalName, draws);
    Affixes(base + "/uploads/", [], n);
    assert (base + "/uploads/") + [] + n == ImageUrl(base, originalName, draws);
    EndsWithTrans(ImageUrl(base, originalName, draws), n, ExtName(originalName));
  }

  function ImageUrls(files: seq<UploadFile>, draws: seq<seq<nat>>, base: string): (r: seq<string>)
    requires |draws| == |files| && forall i :: 0 <= i < |draws| ==> ValidDraws(draws[i])
    ensures |r| == |files|
    ensures forall i :: 0 <= i < |files| ==> r[i] == ImageUrl(base, files[i].originalName, draws[i])
  {
    seq(|files|, i requires 0 <= i < |files| => ImageUrl(base, files[i].originalName, draws[i]))
  }

  /** The `images` of a product created with uploads: up to ten accepted
      files, one public URL per file in order, none when there are none. */
  function ProductImages(files: seq<UploadFile>, draws: seq<seq<nat>>, appUrlEnv: Option<string>): (r: Result<seq<string>>)
    requires |draws| == |files| && forall i :: 0 <= i < |draws| ==> ValidDraws(draws[i])
    ensures r.Ok? <==> |files| <= ProductMaxFiles && forall i :: 0 <= i < |files| ==> ImageNameAccepted(files[i].originalName)
    ensures r.Err? ==> r.error.BadRequest?
    ensures r.Ok? ==> |r.value| == |files|
    ensures r.Ok? ==> forall i :: 0 <= i < |files| ==>
              && StartsWith(r.value[i], AppUrl(appUrlEnv) + "/uploads/")
              && EndsWith(r.value[i], ExtName(files[i].originalName))
  {
    match Screen(files, ProductMaxFiles, (f: UploadFile) => ImageNameAccepted(f.originalName))
    case Some(e) => Err(e)
    case None =>
      if |files| == 0 then Ok([])
      else
        var base := AppUrl(appUrlEnv);
        var urls := ImageUrls(files, draws, base);
        assert forall i :: 0 <= i < |files| ==>
                 StartsWith(urls[i], base + "/uploads/") && EndsWith(urls[i], ExtName(files[i].originalName)) by {
          forall i | 0 <= i < |files|
            ensures StartsWith(urls[i], base + "/uploads/") && EndsWith(urls[i], ExtName(files[i].originalName))
          {
            ImageUrlShape(base, files[i].originalName, draws[i]);
          }
        }
        Ok(urls)
  }

  /** The admin DELETE: the product is archived, not removed; only its
      archive flag and update time change. */
  function ArchiveProduct(products: seq<Product>, id: int, now: int): (r: Result<(seq<Product>, Product)>)
    ensures r.Ok? <==> HasProduct(products, id)
    ensures r.Err? ==> r.error.NotFound?
    ensures r.Ok? ==> |r.value.0| == |products| && r.value.1 in r.value.0
    ensures r.Ok? ==> r.value.1 == FindProduct(products, id).value.(isArchived := true, updatedAt := now)
    ensures r.Ok? ==> forall i :: 0 <= i < |products| && products[i].id != id ==> r.value.0[i] == products[i]
  {
    var patch := ProductPatch(None, None, None, None, None, None, None, None, Some(true));
    var r := Update(products, id, patch, now);
    if r.Ok? then
      var i :| 0 <= i < |products| && products[i].id == id;
      assert r.value.0[i] == r.value.1;
      r
    else r
  }
}

=== FILE: uri_encoding.dfy ===
/** Percent-encoding as ECMAScript's `encodeURIComponent` performs it
    (section 19.2.6.5 of ECMA-262, after section 2.1 of RFC 3986): every
    character outside the unreserved set becomes the `%XX` escapes of its
    UTF-8 bytes, with upper-case hex digits. `decodeURIComponent` is its
    partner; the two round-trip on every string. */
module UriEncoding {
  import opened Common

  type Byte = x: int | 0 <= x < 256

  /** The characters `encodeURIComponent` leaves alone. */
  predicate Unreserved(c: char) {
    || IsAsciiAlnum(c)
    || c == '-' || c == '_' || c == '.' || c == '!' || c == '~'
    || c == '*' || c == '\'' || c == '(' || c == ')'
  }

  function HexDigit(n: nat): (c: char)
    requires n < 16
    ensures c != '%' && c != '/'
  {
    if n < 10 then ('0' as int + n) as char else ('A' as int + n - 10) as char
  }

  /** A hex digit's value; both cases are accepted. */
  function HexValue(c: char): (r: Option<nat>)
    ensures r.Some? ==> r.value < 16
  {
    if '0' <= c <= '9' then Some(c as int - '0' as int)
    else if 'A' <= c <= 'F' then Some(c as int - 'A' as int + 10)
    else if 'a' <= c <= 'f' then Some(c as int - 'a' as int + 10)
    else None
  }

  lemma HexDigitValue(n: nat)
    requires n < 16
    ensures HexValue(HexDigit(n)) == Some(n)
  {
  }

  function Escape(b: Byte): (s: string)
    ensures |s| == 3 && s[0] == '%' && s[1] != '%' && s[2] != '%'
  {
    ['%', HexDigit(b / 16), HexDigit(b % 16)]
  }

  /** The UTF-8 encoding of a Unicode scalar value. */
  function Utf8(c: char): (r: seq<Byte>)
    ensures 1 <= |r| <= 4
    ensures |r| == 1 <==> c as int < 0x80
    ensures |r| == 1 ==> r[0] == c as int
    ensures |r| > 1 ==> forall k :: 0 <= k < |r| ==> r[k] >= 0x80
  {
    var cp := c as int;
    if cp < 0x80 then [cp]
    else if cp < 0x800 then [0xC0 + cp / 64, 0x80 + cp % 64]
    else if cp < 0x10000 then
      var q := cp / 64;
      [0xE0 + q / 64, 0x80 + q % 64, 0x80 + cp % 64]
    else
      var q := cp / 64;
      var q2 := q / 64;
      [0xF0 + q2 / 64, 0x80 + q2 % 64, 0x80 + q % 64, 0x80 + cp % 64]
  }

  function Escapes(bs: seq<Byte>): (s: string)
    ensures |s| == 3 * |bs|
    ensures forall i :: 0 <= i < |s| ==> s[i] != '/'
  {
    if |bs| == 0 then "" else Escape(bs[0]) + Escapes(bs[1..])
  }

  function EncodeChar(c: char): (s: string)
    ensures 1 <= |s|
    ensures c != '/' ==> forall i :: 0 <= i < |s| ==> s[i] != '/'
  {
    if Unreserved(c) then [c] else Escapes(Utf8(c))
  }

  /** `encodeURIComponent(s)` */
  function EncodeURIComponent(s: string): (r: string)
    ensures |r| >= |s|
    ensures (forall i :: 0 <= i < |s| ==> s[i] != '/') ==> forall i :: 0 <= i < |r| ==> r[i] != '/'
  {
    if |s| == 0 then "" else EncodeChar(s[0]) + EncodeURIComponent(s[1..])
  }

  lemma {:induction false} EncodeAppend(a: string, b: string)
    ensures EncodeURIComponent(a + b) == EncodeURIComponent(a) + EncodeURIComponent(b)
  {
    if |a| == 0 {
      assert a + b == b;
    } else {
      assert (a + b)[1..] == a[1..] + b;
      EncodeAppend(a[1..], b);
    }
  }

  lemma EncodeThree(a: string, b: string, c: string)
    ensures EncodeURIComponent(a + b + c) == EncodeURIComponent(a) + EncodeURIComponent(b) + EncodeURIComponent(c)
  {
    EncodeAppend(a + b, c);
    EncodeAppend(a, b);
  }

  /** A string of unreserved characters encodes to itself. */
  lemma {:induction false} UnreservedUnchanged(s: string)
    requires forall i :: 0 <= i < |s| ==> Unreserved(s[i])
    ensures EncodeURIComponent(s) == s
  {
    if |s| > 0 {
      UnreservedUnchanged(s[1..]);
      assert s == [s[0]] + s[1..];
    }
  }

  // ---------------------------------------------------------------------
  // Decoding
  // ---------------------------------------------------------------------

  /** The byte a `%XX` escape at the front of `t` stands for. */
  function ByteAt(t: string): (r: Option<Byte>)
    ensures r.Some? ==> |t| >= 3 && t[0] == '%'
  {
    if |t| < 3 || t[0] != '%' then None
    else
      match (HexValue(t[1]), HexValue(t[2]))
      case (Some(hi), Some(lo)) => Some(16 * hi + lo)
      case _ => None
  }

  /** The six payload bits of a continuation-byte escape at the front of `t`. */
  function Cont(t: string): (r: Option<nat>)
    ensures r.Some? ==> |t| >= 3 && r.value < 64
  {
    match ByteAt(t)
    case Some(b) => if 0x80 <= b < 0xC0 then Some(b - 0x80) else None
    case None => None
  }

  predicate IsScalar(cp: int) {
    (0 <= cp < 0xD800) || (0xE000 <= cp < 0x110000)
  }

  /** The first character of an encoded string and how many characters it
      took; `None` where `decodeURIComponent` throws a `URIError` (a broken
      escape, a stray continuation byte, an over-long or surrogate form). */
  function DecodeOne(s: string): (r: Option<(char, nat)>)
    requires |s| > 0
    ensures r.Some? ==> 1 <= r.value.1 <= |s|
  {
    if s[0] != '%' then Some((s[0], 1))
    else
      match ByteAt(s)
      case None => None
      case Some(b0) =>
        if b0 < 0x80 then Some((b0 as char, 3))
        else if b0 < 0xC0 then None
        else if b0 < 0xE0 then
          match Cont(s[3..])
          case None => None
          case Some(c1) =>
            var cp := (b0 - 0xC0) * 64 + c1;
            if cp < 0x80 then None else Some((cp as char, 6))
        else if b0 < 0xF0 then
          match Cont(s[3..])
          case None => None
          case Some(c1) =>
            match Cont(s[6..])
            case None => None
            case Some(c2) =>
              var cp := ((b0 - 0xE0) * 64 + c1) * 64 + c2;
              if cp < 0x800 || !IsScalar(cp) then None else Some((cp as char, 9))
        else if b0 < 0xF8 then
          match Cont(s[3..])
          case None => None
          case Some(c1) =>
            match Cont(s[6..])
            case None => None
            case Some(c2) =>
              match Cont(s[9..])
              case None => None
              case Some(c3) =>
                var cp := (((b0 - 0xF0) * 64 + c1) * 64 + c2) * 64 + c3;
                if cp < 0x10000 || !IsScalar(cp) then None else Some((cp as char, 12))
        else None
  }

  /** `decodeURIComponent(s)`, `None` where it throws. */
  function DecodeURIComponent(s: string): Option<string>
    decreases |s|
  {
    if |s| == 0 then Some("")
    else
      match DecodeOne(s)
      case None => None
      case Some((c, k)) =>
        match DecodeURIComponent(s[k..])
        case None => None
        case Some(t) => Some([c] + t)
  }

  lemma EscapeRead(b: Byte, rest: string)
    ensures ByteAt(Escape(b) + rest) == Some(b)
    ensures (Escape(b) + rest)[3..] == rest
  {
    HexDigitValue(b / 16);
    HexDigitValue(b % 16);
  }

  lemma EscapesRead(bs: seq<Byte>, rest: string)
    requires |bs| > 0
    ensures ByteAt(Escapes(bs) + rest) == Some(bs[0])
    ensures (Escapes(bs) + rest)[3..] == Escapes(bs[1..]) + rest
  {
    assert Escapes(bs) + rest == Escape(bs[0]) + (Escapes(bs[1..]) + rest);
    EscapeRead(bs[0], Escapes(bs[1..]) + rest);
  }

  /** Decoding the escapes of one character gives that character back and
      consumes exactly those escapes. */
  lemma DecodeOneEncoded(c: char, rest: string)
    ensures DecodeOne(EncodeChar(c) + rest) == Some((c, |EncodeChar(c)|))
  {
    if !Unreserved(c) {
      var bs := Utf8(c);
      if |bs| == 1 {
        DecodeAscii(c, rest);
      } else if |bs| == 2 {
        DecodeTwo(c, rest);
      } else if |bs| == 3 {
        DecodeThree(c, rest);
      } else {
        DecodeFour(c, rest);
      }
    }
  }

  /** A continuation byte's escape at the front reads as its payload bits. */
  lemma ContRead(bs: seq<Byte>, rest: string)
    requires |bs| > 0 && 0x80 <= bs[0] < 0xC0
    ensures Cont(Escapes(bs) + rest) == Some(bs[0] - 0x80)
    ensures (Escapes(bs) + rest)[3..] == Escapes(bs[1..]) + rest
  {
    EscapesRead(bs, rest);
  }

  lemma DecodeAscii(c: char, rest: string)
    requires !Unreserved(c) && c as int < 0x80
    ensures DecodeOne(EncodeChar(c) + rest) == Some((c, 3))
  {
    EscapesRead(Utf8(c), rest);
  }

  lemma DecodeTwo(c: char, rest: string)
    requires !Unreserved(c) && 0x80 <= c as int < 0x800
    ensures DecodeOne(EncodeChar(c) + rest) == Some((c, 6))
  {
    var bs := Utf8(c);
    var cp := c as int;
    EscapesRead(bs, rest);
    ContRead(bs[1..], rest);
    assert (bs[0] as int - 0xC0) * 64 + (bs[1] as int - 0x80) == cp;
  }

  /** The three bytes of a character from U+0800 to U+FFFF: a lead byte and
      two continuation bytes whose payload bits spell the code point. */
  lemma Utf8Three(c: char)
    requires 0x800 <= c as int < 0x10000
    ensures |Utf8(c)| == 3 && 0xE0 <= Utf8(c)[0] < 0xF0
    ensures 0x80 <= Utf8(c)[1] < 0xC0 && 0x80 <= Utf8(c)[2] < 0xC0
    ensures ((Utf8(c)[0] as int - 0xE0) * 64 + (Utf8(c)[1] as int - 0x80)) * 64 + (Utf8(c)[2] as int - 0x80) == c as int
  {
    var cp := c as int;
    var q := cp / 64;
    assert cp == q * 64 + cp % 64;
    assert q == (q / 64) * 64 + q % 64;
  }

  /** The four bytes of a character above U+FFFF. */
  lemma Utf8Four(c: char)
    requires 0x10000 <= c as int
    ensures |Utf8(c)| == 4 && 0xF0 <= Utf8(c)[0] < 0xF8
    ensures 0x80 <= Utf8(c)[1] < 0xC0 && 0x80 <= Utf8(c)[2] < 0xC0 && 0x80 <= Utf8(c)[3] < 0xC0
    ensures (((Utf8(c)[0] as int - 0xF0) * 64 + (Utf8(c)[1] as int - 0x80)) * 64 + (Utf8(c)[2] as int - 0x80)) * 64
            + (Utf8(c)[3] as int - 0x80) == c as int
  {
    var cp := c as int;
    var q := cp / 64;
    var q2 := q / 64;
    assert cp == q * 64 + cp % 64;
    assert q == q2 * 64 + q % 64;
    assert q2 == (q2 / 64) * 64 + q2 % 64;
  }

  /** Past the escapes of the first `k` bytes come those of the others. */
  lemma {:induction false} EscapesDrop(bs: seq<Byte>, rest: string, k: nat)
    requires k <= |bs|
    ensures (Escapes(bs) + rest)[3 * k..] == Escapes(bs[k..]) + rest
  {
    if k > 0 {
      EscapesRead(bs, rest);
      EscapesDrop(bs[1..], rest, k - 1);
      assert bs[1..][k - 1..] == bs[k..];
    }
  }

  /** The escape of the `k`-th byte, a continuation byte, reads as its
      payload bits. */
  lemma ContAt(bs: seq<Byte>, rest: string, k: nat)
    requires k < |bs| && 0x80 <= bs[k] < 0xC0
    ensures Cont((Escapes(bs) + rest)[3 * k..]) == Some(bs[k] - 0x80)
  {
    EscapesDrop(bs, rest, k);
    ContRead(bs[k..], rest);
  }

  lemma DecodeThree(c: char, rest: string)
    requires !Unreserved(c) && 0x800 <= c as int < 0x10000
    ensures DecodeOne(EncodeChar(c) + rest) == Some((c, 9))
  {
    var bs := Utf8(c);
    Utf8Three(c);
    EscapesRead(bs, rest);
    ContAt(bs, rest, 1);
    ContAt(bs, rest, 2);
  }

  lemma DecodeFour(c: char, rest: string)
    requires !Unreserved(c) && 0x10000 <= c as int
    ensures DecodeOne(EncodeChar(c) + rest) == Some((c, 12))
  {
    var bs := Utf8(c);
    Utf8Four(c);
    EscapesRead(bs, rest);
    ContAt(bs, rest, 1);
    ContAt(bs, rest, 2);
    ContAt(bs, rest, 3);
  }

  /** A character read off the front, then the rest decoded. */
  lemma DecodeCons(c: char, e: string, rest: string, t: string)
    requires |e| >= 1 && DecodeOne(e + rest) == Some((c, |e|))
    requires DecodeURIComponent(rest) == Some(t)
    ensures DecodeURIComponent(e + rest) == Some([c] + t)
  {
    assert (e + rest)[|e|..] == rest;
  }

  /** `decodeURIComponent(encodeURIComponent(s)) == s` */
  lemma {:induction false} DecodeEncode(s: string)
    ensures DecodeURIComponent(EncodeURIComponent(s)) == Some(s)
  {
    if |s| > 0 {
      var e := EncodeChar(s[0]);
      var rest := EncodeURIComponent(s[1..]);
      DecodeOneEncoded(s[0], rest);
      DecodeEncode(s[1..]);
      DecodeCons(s[0], e, rest, s[1..]);
      assert s == [s[0]] + s[1..];
    }
  }

  // ---------------------------------------------------------------------
  // Paths
  // ---------------------------------------------------------------------

  /** `s.split('/')`: always at least one piece, none containing '/'. */
  function Split(s: string): (r: seq<string>)
    ensures |r| >= 1
    ensures forall k, i :: 0 <= k < |r| && 0 <= i < |r[k]| ==> r[k][i] != '/'
  {
    if |s| == 0 then [""]
    else if s[0] == '/' then [""] + Split(s[1..])
    else
      var r := Split(s[1..]);
      assert forall k :: 1 <= k < |r| ==> ([[s[0]] + r[0]] + r[1..])[k] == r[k];
      [[s[0]] + r[0]] + r[1..]
  }

  /** `pieces.join('/')` */
  function Join(pieces: seq<string>): string
    requires |pieces| >= 1
  {
    if |pieces| == 1 then pieces[0] else pieces[0] + "/" + Join(pieces[1..])
  }

  function EncodeEach(pieces: seq<string>): (r: seq<string>)
    ensures |r| == |pieces|
    ensures forall k :: 0 <= k < |pieces| ==> r[k] == EncodeURIComponent(pieces[k])
  {
    if |pieces| == 0 then [] else [EncodeURIComponent(pieces[0])] + EncodeEach(pieces[1..])
  }

  /** A path with every character but '/' encoded in place. */
  function EncodePath(s: string): string {
    if |s| == 0 then ""
    else (if s[0] == '/' then "/" else EncodeChar(s[0])) + EncodePath(s[1..])
  }

  lemma {:induction false} JoinSplit(s: string)
    ensures Join(Split(s)) == s
  {
    if |s| > 0 {
      JoinSplit(s[1..]);
      var r := Split(s[1..]);
      if s[0] != '/' && |r| > 1 {
        assert ([[s[0]] + r[0]] + r[1..])[1..] == r[1..];
      }
    }
  }

  /** Splitting, encoding each piece and joining encodes the path in place. */
  lemma {:induction false} SegmentsEncodeInPlace(s: string)
    ensures Join(EncodeEach(Split(s))) == EncodePath(s)
  {
    if |s| > 0 {
      SegmentsEncodeInPlace(s[1..]);
      var r := Split(s[1..]);
      if s[0] == '/' {
        assert EncodeEach(Split(s)) == [""] + EncodeEach(r);
        assert EncodeEach(Split(s))[1..] == EncodeEach(r);
      } else {
        var head := [s[0]] + r[0];
        assert head[1..] == r[0];
        assert EncodeURIComponent(head) == EncodeChar(s[0]) + EncodeURIComponent(r[0]);
        var pieces := [head] + r[1..];
        assert EncodeEach(pieces)[1..] == EncodeEach(r)[1..];
      }
    }
  }

  lemma {:induction false} SplitJoin(pieces: seq<string>)
    requires |pieces| >= 1
    requires forall k, i :: 0 <= k < |pieces| && 0 <= i < |pieces[k]| ==> pieces[k][i] != '/'
    ensures Split(Join(pieces)) == pieces
    decreases |pieces|, |pieces[0]|
  {
    var p := pieces[0];
    if |p| == 0 {
      if |pieces| > 1 {
        SplitJoin(pieces[1..]);
        assert Join(pieces) == "/" + Join(pieces[1..]);
        assert ("/" + Join(pieces[1..]))[1..] == Join(pieces[1..]);
        assert pieces == [""] + pieces[1..];
      }
    } else {
      var shorter := [p[1..]] + pieces[1..];
      assert shorter[1..] == pieces[1..];
      SplitJoin(shorter);
      assert Join(pieces) == [p[0]] + Join(shorter) by {
        if |pieces| > 1 {
          assert Join(shorter) == p[1..] + "/" + Join(pieces[1..]);
        }
        assert p == [p[0]] + p[1..];
      }
      assert ([p[0]] + Join(shorter))[1..] == Join(shorter);
      assert p == [p[0]] + p[1..];
      assert pieces == [pieces[0]] + pieces[1..];
    }
  }

  /** Every character of an encoded path is either a '/' of the path, an
      unreserved character, or part of an escape, so decoding the path
      gives the original back. */
  lemma {:induction false} DecodeEncodePath(s: string)
    ensures DecodeURIComponent(EncodePath(s)) == Some(s)
  {
    if |s| > 0 {
      var e := if s[0] == '/' then "/" else EncodeChar(s[0]);
      var rest := EncodePath(s[1..]);
      if s[0] != '/' {
        DecodeOneEncoded(s[0], rest);
      }
      DecodeEncodePath(s[1..]);
      DecodeCons(s[0], e, rest, s[1..]);
      assert s == [s[0]] + s[1..];
    }
  }

  /** `s.replace(/%2F/g, '/')` */
  function ReplaceEncodedSlashes(s: string): string {
    if |s| < 3 then s
    else if s[0] == '%' && s[1] == '2' && s[2] == 'F' then "/" + ReplaceEncodedSlashes(s[3..])
    else [s[0]] + ReplaceEncodedSlashes(s[1..])
  }

  lemma ReplaceStep(c: char, rest: string)
    requires c != '%'
    ensures ReplaceEncodedSlashes([c] + rest) == [c] + ReplaceEncodedSlashes(rest)
  {
    assert ([c] + rest)[1..] == rest;
  }

  lemma EscapeIsNotSlash(b: Byte)
    requires b != 0x2F
    ensures Escape(b)[1] != '2' || Escape(b)[2] != 'F'
  {
    HexDigitValue(b / 16);
    HexDigitValue(b % 16);
    assert HexValue('2') == Some(2) && HexValue('F') == Some(15);
    assert b / 16 != 2 || b % 16 != 15;
    assert Escape(b)[1] != '2' || Escape(b)[2] != 'F';
  }

  /** A three-character escape other than `%2F` passes through the
      replacement unchanged. */
  lemma ReplaceThree(e: string, tail: string)
    requires |e| == 3 && e[1] != '%' && e[2] != '%' && (e[1] != '2' || e[2] != 'F')
    ensures ReplaceEncodedSlashes(e + tail) == e + ReplaceEncodedSlashes(tail)
  {
    var t := e + tail;
    var r1 := [e[2]] + tail;
    var r0 := [e[1]] + r1;
    assert t[1..] == r0 && t[1] == e[1] && t[2] == e[2];
    assert ReplaceEncodedSlashes(t) == [e[0]] + ReplaceEncodedSlashes(r0);
    ReplaceStep(e[1], r1);
    ReplaceStep(e[2], tail);
    assert [e[0]] + ([e[1]] + ([e[2]] + ReplaceEncodedSlashes(tail))) == e + ReplaceEncodedSlashes(tail);
  }

  lemma ReplaceEscape(b: Byte, tail: string)
    requires b != 0x2F
    ensures ReplaceEncodedSlashes(Escape(b) + tail) == Escape(b) + ReplaceEncodedSlashes(tail)
  {
    EscapeIsNotSlash(b);
    ReplaceThree(Escape(b), tail);
  }

  lemma {:induction false} ReplaceEscapes(bs: seq<Byte>, rest: string)
    requires forall k :: 0 <= k < |bs| ==> bs[k] != 0x2F
    ensures ReplaceEncodedSlashes(Escapes(bs) + rest) == Escapes(bs) + ReplaceEncodedSlashes(rest)
  {
    if |bs| == 0 {
      assert Escapes(bs) + rest == rest;
    } else {
      var e := Escape(bs[0]);
      var mid := Escapes(bs[1..]);
      assert Escapes(bs) == e + mid;
      calc {
        ReplaceEncodedSlashes(Escapes(bs) + rest);
        { assert Escapes(bs) + rest == e + (mid + rest); }
        ReplaceEncodedSlashes(e + (mid + rest));
        { ReplaceEscape(bs[0], mid + rest); }
        e + ReplaceEncodedSlashes(mid + rest);
        { ReplaceEscapes(bs[1..], rest); }
        e + (mid + ReplaceEncodedSlashes(rest));
      }
    }
  }

  /** An encoded path holds no `%2F`: '/' is never escaped inside a
      segment and multi-byte characters escape only bytes from 0x80 up, so
      the slash replacement changes nothing. */
  lemma {:induction false} ReplaceIsNoOp(s: string)
    ensures ReplaceEncodedSlashes(EncodePath(s)) == EncodePath(s)
  {
    if |s| > 0 {
      var rest := EncodePath(s[1..]);
      ReplaceIsNoOp(s[1..]);
      if s[0] == '/' || Unreserved(s[0]) {
        ReplaceStep(if s[0] == '/' then '/' else s[0], rest);
        assert EncodePath(s) == [if s[0] == '/' then '/' else s[0]] + rest;
      } else {
        var bs := Utf8(s[0]);
        assert forall k :: 0 <= k < |bs| ==> bs[k] != 0x2F;
        ReplaceEscapes(bs, rest);
      }
    }
  }

  // ---------------------------------------------------------------------
  // getPublicUrl
  // ---------------------------------------------------------------------

  const DefaultAppUrl: string := "https://staging.facelookshopping.in"

  /** The leading '/' the path is given when it lacks one. */
  function CleanPath(path: string): (r: string)
    ensures |r| > 0 && r[0] == '/'
  {
    if |path| > 0 && path[0] == '/' then path else "/" + path
  }

  /** `getPublicUrl(path)` of the try-on service. */
  function GetPublicUrl(path: string, appUrl: Option<string>): string {
    if path == "" then ""
    else if StartsWith(path, "http") then path
    else
      var base := OrElse(if appUrl.Some? then appUrl.value else "", DefaultAppUrl);
      base + ReplaceEncodedSlashes(Join(EncodeEach(Split(CleanPath(path)))))
  }

  /** An empty path stays empty and a URL that already starts with `http`
      is returned unchanged; any other path becomes the base URL followed by
      the slash-led path with each '/'-separated segment percent-encoded,
      the '/' separators kept, and nothing lost: decoding gives the path
      back. */
  lemma PublicUrlShape(path: string, appUrl: Option<string>)
    ensures path == "" ==> GetPublicUrl(path, appUrl) == ""
    ensures StartsWith(path, "http") ==> GetPublicUrl(path, appUrl) == path
    ensures path != "" && !StartsWith(path, "http") ==>
              var base := OrElse(if appUrl.Some? then appUrl.value else "", DefaultAppUrl);
              var url := GetPublicUrl(path, appUrl);
              && StartsWith(url, base)
              && Split(url[|base|..]) == EncodeEach(Split(CleanPath(path)))
              && DecodeURIComponent(url[|base|..]) == Some(CleanPath(path))
  {
    if path != "" && !StartsWith(path, "http") {
      var base := OrElse(if appUrl.Some? then appUrl.value else "", DefaultAppUrl);
      var clean := CleanPath(path);
      SegmentsEncodeInPlace(clean);
      ReplaceIsNoOp(clean);
      DecodeEncodePath(clean);
      var url := GetPublicUrl(path, appUrl);
      assert url == base + EncodePath(clean);
      assert url[|base|..] == EncodePath(clean);
      var segs := EncodeEach(Split(clean));
      forall k, i | 0 <= k < |segs| && 0 <= i < |segs[k]| ensures segs[k][i] != '/' {
        assert segs[k] == EncodeURIComponent(Split(clean)[k]);
      }
      SplitJoin(segs);
    }
  }

  lemma SpaceEscaped()
    ensures EncodeURIComponent(" ") == "%20"
  {
    assert Utf8(' ') == [0x20];
    assert Escape(0x20) == ['%', '2', '0'] by {
      assert HexDigit(2) == '2';
      assert HexDigit(0) == '0';
    }
    assert Escapes([0x20]) == Escape(0x20) + Escapes([0x20][1..]);
    assert EncodeURIComponent(" ") == EncodeChar(' ') + EncodeURIComponent("");
  }

  /** A file name with a space, such as `White Tee.jpg`, is served with
      the space escaped as `%20` and everything else as it was. */
  lemma SpaceInFileName(stem: string, rest: string)
    requires forall i :: 0 <= i < |stem| ==> Unreserved(stem[i])
    requires forall i :: 0 <= i < |rest| ==> Unreserved(rest[i])
    ensures EncodeURIComponent(stem + " " + rest) == stem + "%20" + rest
  {
    EncodeThree(stem, " ", rest);
    UnreservedUnchanged(stem);
    UnreservedUnchanged(rest);
    SpaceEscaped();
  }
}

=== FILE: users.dfy ===
/** User accounts: registration by phone or by email, password login,
    staff creation, the listing by role, the super-admin seed and partial
    updates. Phone numbers and e-mail addresses are unique columns that
    allow any number of NULLs. Password hashing and comparison are
    parameters. */
module Users {
  import opened Common
  import opened Roles

  datatype Account = Account(
    id: nat,
    phoneNumber: Option<string>,
    name: Option<string>,
    email: Option<string>,
    password: Option<string>,
    profilePicture: Option<string>,
    isVerified: bool,
    role: Role)

  function AccountId(a: Account): nat {
    a.id
  }

  predicate PhoneTaken(users: seq<Account>, phone: string) {
    exists i :: 0 <= i < |users| && users[i].phoneNumber == Some(phone)
  }

  predicate EmailTaken(users: seq<Account>, email: string) {
    exists i :: 0 <= i < |users| && users[i].email == Some(email)
  }

  /** The unique constraints on phone number and e-mail; NULLs never clash. */
  predicate ContactsUnique(users: seq<Account>) {
    forall i, j :: 0 <= i < j < |users| ==>
      && (users[i].phoneNumber.Some? ==> users[i].phoneNumber != users[j].phoneNumber)
      && (users[i].email.Some? ==> users[i].email != users[j].email)
  }

  /** Saving a new row: the database refuses a phone number or e-mail that
      is already stored, otherwise the row gets the next id. */
  function Insert(users: seq<Account>, a: Account): (r: Result<(seq<Account>, Account)>)
    ensures r.Ok? <==> (a.phoneNumber.None? || !PhoneTaken(users, a.phoneNumber.value))
                       && (a.email.None? || !EmailTaken(users, a.email.value))
    ensures r.Err? ==> r.error.InternalError?
    ensures r.Ok? ==> r.value.0 == users + [r.value.1] && r.value.1 == a.(id := r.value.1.id)
    ensures r.Ok? ==> forall i :: 0 <= i < |users| ==> users[i].id != r.value.1.id
    ensures r.Ok? && ContactsUnique(users) ==> ContactsUnique(r.value.0)
  {
    if a.phoneNumber.Some? && PhoneTaken(users, a.phoneNumber.value) then
      Err(InternalError("duplicate key value violates unique constraint on phoneNumber"))
    else if a.email.Some? && EmailTaken(users, a.email.value) then
      Err(InternalError("duplicate key value violates unique constraint on email"))
    else
      var row := a.(id := NextId(users, AccountId));
      var t := users + [row];
      assert ContactsUnique(users) ==> ContactsUnique(t) by {
        if ContactsUnique(users) {
          forall i, j | 0 <= i < j < |t|
            ensures && (t[i].phoneNumber.Some? ==> t[i].phoneNumber != t[j].phoneNumber)
                    && (t[i].email.Some? ==> t[i].email != t[j].email)
          {
            if j == |users| {
              assert t[i] == users[i];
            }
          }
        }
      }
      Ok((t, row))
  }

  /** A fresh account: unverified customer, no password, no picture. */
  function Blank(): Account {
    Account(0, None, None, None, None, None, false, User)
  }

  /** `createWithPhone`: a customer with only a phone number, unless that
      number is registered. */
  function CreateWithPhone(users: seq<Account>, phone: string): (r: Result<(seq<Account>, Account)>)
    ensures r.Ok? <==> !PhoneTaken(users, phone)
    ensures r.Err? ==> r.error == BadRequest("Phone number already registered")
    ensures r.Ok? ==> var a := r.value.1;
              && r.value.0 == users + [a]
              && a.phoneNumber == Some(phone) && a.email.None? && a.password.None?
              && a.role == User && !a.isVerified
  {
    if PhoneTaken(users, phone) then Err(BadRequest("Phone number already registered"))
    else Insert(users, Blank().(phoneNumber := Some(phone)))
  }

  /** `createWithEmail`: a customer with e-mail, phone, name and the hash of
      the password, never any other role; the e-mail is checked first. */
  function CreateWithEmail(users: seq<Account>, email: string, password: string, phone: string, name: string,
                           hash: string -> string): (r: Result<(seq<Account>, Account)>)
    ensures r.Ok? <==> !EmailTaken(users, email) && !PhoneTaken(users, phone)
    ensures EmailTaken(users, email) ==> r == Err(Conflict("Email already registered"))
    ensures !EmailTaken(users, email) && PhoneTaken(users, phone) ==> r == Err(Conflict("Phone number already registered"))
    ensures r.Ok? ==> var a := r.value.1;
              && r.value.0 == users + [a]
              && a.email == Some(email) && a.phoneNumber == Some(phone) && a.name == Some(name)
              && a.password == Some(hash(password))
              && a.role == User && !a.isVerified
  {
    if EmailTaken(users, email) then Err(Conflict("Email already registered"))
    else if PhoneTaken(users, phone) then Err(Conflict("Phone number already registered"))
    else
      Insert(users, Blank().(email := Some(email), phoneNumber := Some(phone), name := Some(name),
                             password := Some(hash(password))))
  }

  /** The first account with this e-mail, as `findOne({ where: { email } })`. */
  function FindByEmail(users: seq<Account>, email: string): (r: Option<nat>)
    ensures r.Some? ==> r.value < |users| && users[r.value].email == Some(email)
    ensures r.Some? ==> forall i :: 0 <= i < r.value ==> users[i].email != Some(email)
    ensures r.None? <==> !EmailTaken(users, email)
  {
    if |users| == 0 then None
    else if users[0].email == Some(email) then Some(0)
    else
      match FindByEmail(users[1..], email)
      case Some(i) =>
        assert forall k :: 1 <= k <= i ==> users[k] == users[1..][k - 1];
        Some(i + 1)
      case None =>
        assert forall k :: 1 <= k < |users| ==> users[k] == users[1..][k - 1];
        None
  }

  /** `validateUser`: the account with that e-mail when it has a stored
      password that the given one matches; nothing otherwise. */
  function ValidateUser(users: seq<Account>, email: string, password: string, matches: (string, string) -> bool)
    : (r: Option<Account>)
    ensures r.Some? <==> var k := FindByEmail(users, email);
                         k.Some? && users[k.value].password.Some? && matches(password, users[k.value].password.value)
    ensures r.Some? ==> r.value.email == Some(email) && r.value in users
  {
    match FindByEmail(users, email)
    case None => None
    case Some(k) =>
      var a := users[k];
      if a.password.Some? && matches(password, a.password.value) then Some(a) else None
  }

  /** Registering by e-mail and then logging in with the same password
      finds the new account, whenever the comparison accepts what the hash
      produced. */
  lemma RegisterThenLogin(users: seq<Account>, email: string, password: string, phone: string, name: string,
                          hash: string -> string, matches: (string, string) -> bool)
    requires forall p :: matches(p, hash(p))
    requires CreateWithEmail(users, email, password, phone, name, hash).Ok?
    ensures var created := CreateWithEmail(users, email, password, phone, name, hash).value;
            ValidateUser(created.0, email, password, matches) == Some(created.1)
  {
    var created := CreateWithEmail(users, email, password, phone, name, hash).value;
    var t := created.0;
    assert t == users + [created.1];
    assert !EmailTaken(users, email);
    assert forall i :: 0 <= i < |users| ==> t[i] == users[i];
    assert FindByEmail(t, email) == Some(|users|) by {
      assert EmailTaken(t, email) by { assert t[|users|].email == Some(email); }
      assert forall k :: 0 <= k < |users| ==> t[k].email != Some(email);
    }
  }

  /** A staff account as the admin form sends it. */
  datatype CreateStaff = CreateStaff(email: string, name: string, password: string, phoneNumber: string, role: Role)

  /** `createStaff`: the account with the requested role, verified, unless
      the e-mail exists. The phone number is not checked beforehand, so a
      registered one fails at the database's unique constraint. */
  function CreateStaffAccount(users: seq<Account>, dto: CreateStaff, hash: string -> string)
    : (r: Result<(seq<Account>, Account)>)
    ensures r.Ok? <==> !EmailTaken(users, dto.email) && !PhoneTaken(users, dto.phoneNumber)
    ensures EmailTaken(users, dto.email) ==> r == Err(Conflict("Email already exists"))
    ensures !EmailTaken(users, dto.email) && PhoneTaken(users, dto.phoneNumber) ==> r.Err? && r.error.InternalError?
    ensures r.Ok? ==> var a := r.value.1;
              && r.value.0 == users + [a]
              && a.email == Some(dto.email) && a.phoneNumber == Some(dto.phoneNumber) && a.name == Some(dto.name)
              && a.password == Some(hash(dto.password))
              && a.role == dto.role && a.isVerified
  {
    if EmailTaken(users, dto.email) then Err(Conflict("Email already exists"))
    else
      Insert(users, Blank().(email := Some(dto.email), phoneNumber := Some(dto.phoneNumber), name := Some(dto.name),
                             password := Some(hash(dto.password)), role := dto.role, isVerified := true))
  }

  /** `findAll(role)`: every account when the query names no role, else the
      accounts with that role. A value outside the role enum is refused by
      the database's enum type. */
  function FindAll(users: seq<Account>, role: Option<string>): (r: Result<seq<Account>>)
    ensures role.None? || role == Some("") ==> r == Ok(users)
    ensures r.Err? <==> role.Some? && role.value != "" && ParseRole(role.value).None?
    ensures r.Err? ==> r.error.InternalError?
    ensures r.Ok? && role.Some? && role.value != "" ==>
              forall a :: a in r.value <==> a in users && RoleValue(a.role) == role.value
  {
    if role.None? || role.value == "" then Ok(users)
    else
      match ParseRole(role.value)
      case None => Err(InternalError("invalid input value for enum users_role_enum: \"" + role.value + "\""))
      case Some(want) => Ok(Filter(users, (a: Account) => a.role == want))
  }

  const SuperEmail: string := "superadmin@gmail.com"
  const SuperPassword: string := "123456"

  /** The super-admin the seed creates. */
  function SuperAdminAccount(hash: string -> string): Account {
    Blank().(email := Some(SuperEmail), password := Some(hash(SuperPassword)), name := Some("Super Admin"),
             phoneNumber := Some("+919876543210"), role := SuperAdmin, isVerified := true)
  }

  /** `seedSuperAdmin`: adds the super-admin only when its e-mail is not
      registered; a customer already holding its phone number makes the
      insert fail. */
  function SeedSuperAdmin(users: seq<Account>, hash: string -> string): (r: Result<seq<Account>>)
    ensures EmailTaken(users, SuperEmail) ==> r == Ok(users)
    ensures r.Ok? ==> EmailTaken(r.value, SuperEmail)
    ensures r.Ok? && !EmailTaken(users, SuperEmail) ==>
              && |r.value| == |users| + 1 && r.value[..|users|] == users
              && r.value[|users|] == SuperAdminAccount(hash).(id := r.value[|users|].id)
    ensures r.Err? <==> !EmailTaken(users, SuperEmail) && PhoneTaken(users, "+919876543210")
  {
    if EmailTaken(users, SuperEmail) then Ok(users)
    else
      var t :- Insert(users, SuperAdminAccount(hash));
      assert t.0[|users|].email == Some(SuperEmail);
      Ok(t.0)
  }

  /** Seeding is idempotent: the second run finds the account and adds nothing. */
  lemma SeedIdempotent(users: seq<Account>, hash: string -> string)
    requires SeedSuperAdmin(users, hash).Ok?
    ensures SeedSuperAdmin(SeedSuperAdmin(users, hash).value, hash) == SeedSuperAdmin(users, hash)
  {
  }

  /** The columns an update may set; `None` leaves a column alone. */
  datatype AccountPatch = AccountPatch(
    phoneNumber: Option<string>,
    name: Option<string>,
    email: Option<string>,
    password: Option<string>,
    profilePicture: Option<string>,
    isVerified: Option<bool>,
    role: Option<Role>)

  const NoChanges: AccountPatch := AccountPatch(None, None, None, None, None, None, None)

  function Pick<T>(o: Option<T>, old_: T): T {
    if o.Some? then o.value else old_
  }

  function PickSome<T>(o: Option<T>, old_: Option<T>): Option<T> {
    if o.Some? then o else old_
  }

  function ApplyPatch(a: Account, p: AccountPatch): (r: Account)
    ensures r.id == a.id
    ensures p.password.None? ==> r.password == a.password
    ensures p == NoChanges.(isVerified := p.isVerified) ==> r == a.(isVerified := Pick(p.isVerified, a.isVerified))
    ensures r.phoneNumber == if p.phoneNumber.Some? then p.phoneNumber else a.phoneNumber
    ensures r.name == if p.name.Some? then p.name else a.name
    ensures r.email == if p.email.Some? then p.email else a.email
    ensures r.password == if p.password.Some? then p.password else a.password
    ensures r.profilePicture == if p.profilePicture.Some? then p.profilePicture else a.profilePicture
    ensures p.isVerified.Some? ==> r.isVerified == p.isVerified.value
    ensures p.isVerified.None? ==> r.isVerified == a.isVerified
    ensures p.role.Some? ==> r.role == p.role.value
    ensures p.role.None? ==> r.role == a.role
  {
    a.(phoneNumber := PickSome(p.phoneNumber, a.phoneNumber), name := PickSome(p.name, a.name),
       email := PickSome(p.email, a.email), password := PickSome(p.password, a.password),
       profilePicture := PickSome(p.profilePicture, a.profilePicture),
       isVerified := Pick(p.isVerified, a.isVerified), role := Pick(p.role, a.role))
  }

  predicate HasAccount(users: seq<Account>, id: int) {
    exists i :: 0 <= i < |users| && users[i].id == id
  }

  function FindById(users: seq<Account>, id: int): (r: Option<nat>)
    ensures r.Some? ==> r.value < |users| && users[r.value].id == id
    ensures r.None? <==> !HasAccount(users, id)
  {
    if |users| == 0 then None
    else if users[0].id == id then Some(0)
    else
      match FindById(users[1..], id)
      case Some(i) => Some(i + 1)
      case None =>
        assert forall k :: 1 <= k < |users| ==> users[k] == users[1..][k - 1];
        None
  }

  /** `update(id, data)` then `findById(id)`: an unknown id updates nothing
      and is then not found; otherwise only that row's supplied columns
      change. An empty patch still stamps `updatedAt` (a column this model
      leaves out), so it returns the account as it was. Moving a phone
      number or e-mail onto another account breaks the unique constraint. */
  function Update(users: seq<Account>, id: int, p: AccountPatch): (r: Result<(seq<Account>, Account)>)
    ensures p == NoChanges ==> (r.Ok? <==> HasAccount(users, id))
    ensures p == NoChanges && r.Ok? ==> r.value.0 == users && r.value.1 == users[FindById(users, id).value]
    ensures !HasAccount(users, id) ==> r == Err(NotFound("User not found"))
    ensures r.Ok? ==> HasAccount(users, id) && |r.value.0| == |users|
    ensures r.Ok? ==> var k := FindById(users, id).value;
              && r.value.0 == users[k := ApplyPatch(users[k], p)] && r.value.1 == ApplyPatch(users[k], p)
    ensures r.Ok? <==> && HasAccount(users, id)
                       && var k := FindById(users, id).value;
                       && (p.phoneNumber.Some? && p.phoneNumber != users[k].phoneNumber ==> !PhoneTaken(users, p.phoneNumber.value))
                       && (p.email.Some? && p.email != users[k].email ==> !EmailTaken(users, p.email.value))
    ensures r.Err? && r.error.InternalError? ==>
              r.error.msg == "duplicate key value violates unique constraint on phoneNumber"
              || r.error.msg == "duplicate key value violates unique constraint on email"
  {
    match FindById(users, id)
    case None => Err(NotFound("User not found"))
    case Some(k) =>
      var a := ApplyPatch(users[k], p);
      if a.phoneNumber.Some? && a.phoneNumber != users[k].phoneNumber && PhoneTaken(users, a.phoneNumber.value) then
        Err(InternalError("duplicate key value violates unique constraint on phoneNumber"))
      else if a.email.Some? && a.email != users[k].email && EmailTaken(users, a.email.value) then
        Err(InternalError("duplicate key value violates unique constraint on email"))
      else
        assert p == NoChanges ==> a == users[k];
        Ok((users[k := a], a))
  }

  /** An update never breaks the unique constraints: the database refuses
      exactly the updates that would. */
  lemma UpdateKeepsContactsUnique(users: seq<Account>, id: int, p: AccountPatch)
    requires ContactsUnique(users)
    requires Update(users, id, p).Ok?
    ensures ContactsUnique(Update(users, id, p).value.0)
  {
    var k := FindById(users, id).value;
    var a := ApplyPatch(users[k], p);
    var t := users[k := a];
    assert Update(users, id, p).value.0 == t;
    forall i, j | 0 <= i < j < |t|
      ensures && (t[i].phoneNumber.Some? ==> t[i].phoneNumber != t[j].phoneNumber)
              && (t[i].email.Some? ==> t[i].email != t[j].email)
    {
      if i == k {
        assert t[j] == users[j];
      } else if j == k {
        assert t[i] == users[i];
      } else {
        assert t[i] == users[i] && t[j] == users[j];
      }
    }
  }

  /** `delete(id)`: removes the account with that id, if any, silently.
      Addresses, carts, favourites and try-on records go with it (their
      `user` relations cascade), but an order's `user` column has no
      `ON DELETE` rule, so the database refuses to delete a user who has
      placed an order; `withOrders` holds the ids of those users. */
  function Delete(users: seq<Account>, id: int, withOrders: set<nat>): (r: Result<seq<Account>>)
    ensures r.Err? <==> FindById(users, id).Some? && id >= 0 && id as nat in withOrders
    ensures r.Err? ==> r.error == ForeignKeyViolation
    ensures r.Ok? ==> forall a :: a in r.value <==> a in users && a.id != id
    ensures FindById(users, id).None? ==> r.Ok? && r.value == users
  {
    if FindById(users, id).Some? && id >= 0 && id as nat in withOrders then Err(ForeignKeyViolation)
    else
      var r := Filter(users, (a: Account) => a.id != id);
      assert FindById(users, id).None? ==> r == users by {
        if FindById(users, id).None? {
          FilterAll(users, (a: Account) => a.id != id);
        }
      }
      Ok(r)
  }

  /** A user who has placed an order cannot be deleted; one who has not
      can. */
  lemma DeleteRefusedWithOrders(users: seq<Account>, i: nat)
    requires i < |users|
    ensures Delete(users, users[i].id, {users[i].id}) == Err(ForeignKeyViolation)
    ensures Delete(users, users[i].id, {}).Ok?
    ensures users[i] !in Delete(users, users[i].id, {}).value
  {
    assert FindById(users, users[i].id).Some?;
  }
}

=== FILE: users_admin.dfy ===
/** The admin endpoints over user accounts: each one behind the roles
    guard with its own list of roles, then the account operation. */
module UsersAdmin {
  import opened Common
  import opened Roles
  import opened Users

  const StaffRoles: seq<Role> := [SuperAdmin, Admin]
  const ListRoles: seq<Role> := [SuperAdmin, Admin, Support]
  const UpdateRoles: seq<Role> := [SuperAdmin]
  const StatusRoles: seq<Role> := [SuperAdmin, Admin]
  const DeleteRoles: seq<Role> := [SuperAdmin]

  /** An endpoint of this controller: roles on the handler, none on the class. */
  function Endpoint(roles: seq<Role>): RolesMetadata {
    RolesMetadata(Some(roles), None)
  }

  /** `POST admin/users/staff`: super-admins and admins may create staff,
      but only a super-admin may create a super-admin. */
  function CreateStaffAs(users: seq<Account>, caller: Option<Role>, dto: CreateStaff, hash: string -> string)
    : (r: Result<(seq<Account>, Account)>)
    ensures caller.None? ==> r == Err(Unauthorized("User not authenticated"))
    ensures caller.Some? && caller.value !in StaffRoles ==> r.Err? && r.error.Forbidden?
    ensures caller == Some(Admin) && dto.role == SuperAdmin ==> r == Err(Forbidden("Cannot create SuperAdmin"))
    ensures r.Ok? <==> caller.Some? && (caller.value == SuperAdmin || (caller.value == Admin && dto.role != SuperAdmin))
                       && CreateStaffAccount(users, dto, hash).Ok?
    ensures r.Ok? ==> r.value.1.role == dto.role && r.value.1.isVerified
    ensures r.Ok? && r.value.1.role == SuperAdmin ==> caller == Some(SuperAdmin)
  {
    var _ :- Guard(Endpoint(StaffRoles), caller);
    if caller.value != SuperAdmin && dto.role == SuperAdmin then Err(Forbidden("Cannot create SuperAdmin"))
    else CreateStaffAccount(users, dto, hash)
  }

  /** Every role except super-admin is open to an admin: with an unused
      e-mail and phone number the account is created with that role. */
  lemma AdminCreatesBelowSuperAdmin(users: seq<Account>, dto: CreateStaff, hash: string -> string)
    requires dto.role != SuperAdmin
    requires !EmailTaken(users, dto.email) && !PhoneTaken(users, dto.phoneNumber)
    ensures var r := CreateStaffAs(users, Some(Admin), dto, hash);
            r.Ok? && r.value.1.role == dto.role && r.value.0 == users + [r.value.1]
  {
    assert Admin in StaffRoles;
  }

  /** `GET admin/users`: the role-filtered list, for super-admins, admins
      and support. */
  function ListUsers(users: seq<Account>, caller: Option<Role>, role: Option<string>): (r: Result<seq<Account>>)
    ensures r.Ok? <==> caller.Some? && caller.value in ListRoles && FindAll(users, role).Ok?
    ensures r.Ok? ==> r == FindAll(users, role)
    ensures caller == Some(Finance) || caller == Some(Marketing) || caller == Some(User) ==> r.Err? && r.error.Forbidden?
  {
    var _ :- Guard(Endpoint(ListRoles), caller);
    FindAll(users, role)
  }

  /** `PATCH admin/users/:id`: a super-admin's update with any password in
      the body discarded, so an admin edit never changes a password; a body
      holding only a password becomes an empty update, which returns the
      account unchanged. */
  function UpdateUser(users: seq<Account>, caller: Option<Role>, id: int, p: AccountPatch)
    : (r: Result<(seq<Account>, Account)>)
    ensures caller != Some(SuperAdmin) ==> r.Err? && (r.error.Unauthorized? || r.error.Forbidden?)
    ensures caller == Some(SuperAdmin) ==> r == Update(users, id, p.(password := None))
    ensures r.Ok? ==> var k := FindById(users, id).value;
              r.value.1.password == users[k].password && r.value.1.id == id
    ensures caller == Some(SuperAdmin) && p == NoChanges.(password := p.password) ==>
              (r.Ok? <==> HasAccount(users, id)) && (r.Ok? ==> r.value.0 == users && r.value.1 == users[FindById(users, id).value])
  {
    var _ :- Guard(Endpoint(UpdateRoles), caller);
    Update(users, id, p.(password := None))
  }

  /** `PATCH admin/users/:id/status`: sets only the verified flag. A body
      without the flag still sends `{ isVerified: undefined }`, which the
      driver writes as NULL into the NOT NULL column: the row it matches
      refuses it, and with no row matched the account is not found. */
  function ToggleBanStatus(users: seq<Account>, caller: Option<Role>, id: int, isVerified: Option<bool>)
    : (r: Result<(seq<Account>, Account)>)
    ensures r.Ok? <==> caller.Some? && caller.value in StatusRoles && isVerified.Some? && HasAccount(users, id)
    ensures caller.Some? && caller.value in StatusRoles && isVerified.None? && HasAccount(users, id) ==>
              r == Err(NotNullViolation)
    ensures caller.Some? && caller.value in StatusRoles && !HasAccount(users, id) ==>
              r == Err(NotFound("User not found"))
    ensures r.Ok? ==> var k := FindById(users, id).value;
              && r.value.1 == users[k].(isVerified := isVerified.value)
              && r.value.0 == users[k := r.value.1]
  {
    var _ :- Guard(Endpoint(StatusRoles), caller);
    if isVerified.None? && HasAccount(users, id) then Err(NotNullViolation)
    else Update(users, id, NoChanges.(isVerified := isVerified))
  }

  /** The NOT NULL refusal of `isVerified`, an HTTP 500. */
  const NotNullViolation: Error := InternalError("null value in column \"isVerified\" violates not-null constraint")

  /** `DELETE admin/users/:id`: super-admins only; removes the account if
      any, unless the user has placed an order (see Users.Delete). */
  function DeleteUser(users: seq<Account>, caller: Option<Role>, id: int, withOrders: set<nat>): (r: Result<seq<Account>>)
    ensures r.Ok? <==> caller == Some(SuperAdmin) && Delete(users, id, withOrders).Ok?
    ensures r.Ok? ==> forall a :: a in r.value <==> a in users && a.id != id
  {
    var _ :- Guard(Endpoint(DeleteRoles), caller);
    Delete(users, id, withOrders)
  }
}

=== FILE: variant_sync.dfy ===
/** The variant subscriber: after every insert, update and removal of a
    `ProductVariant` row it recomputes the parent product's aggregate
    `stock` (the sum of its variants' stock) and `colors` (the distinct
    variant colours, in first-occurrence order). Product creation cascades
    its variants through the same trigger. */
module VariantSync {
  import opened Common
  import opened Catalog

  /** `SELECT SUM(stock) ... WHERE productId = pid`, with an empty sum read as 0. */
  function SumStock(vs: seq<Variant>, pid: int): int {
    if |vs| == 0 then 0
    else (if vs[0].productId == pid then vs[0].stock else 0) + SumStock(vs[1..], pid)
  }

  /** The colours of `pid`'s variants, in table order. */
  function ColorsOf(vs: seq<Variant>, pid: int): seq<string> {
    if |vs| == 0 then []
    else (if vs[0].productId == pid then [vs[0].color] else []) + ColorsOf(vs[1..], pid)
  }

  /** Position of the first occurrence of `c`. */
  function IndexOf(cs: seq<string>, c: string): (k: nat)
    requires c in cs
    ensures k < |cs| && cs[k] == c
    ensures forall m :: 0 <= m < k ==> cs[m] != c
  {
    if cs[0] == c then 0 else 1 + IndexOf(cs[1..], c)
  }

  lemma {:induction false} IndexOfPrefix(cs: seq<string>, c: string, n: nat)
    requires n <= |cs| && c in cs[..n]
    ensures IndexOf(cs, c) == IndexOf(cs[..n], c)
  {
    var k := IndexOf(cs[..n], c);
    assert cs[k] == c;
    assert forall m :: 0 <= m < k ==> cs[m] == cs[..n][m];
  }

  /** `[...new Set(cs)]`: each colour once, in order of first occurrence. */
  function Distinct(cs: seq<string>): seq<string> {
    if |cs| == 0 then []
    else
      var d := Distinct(cs[..|cs| - 1]);
      if cs[|cs| - 1] in d then d else d + [cs[|cs| - 1]]
  }

  /** The de-duplicated list holds every colour of the input exactly once,
      in the order the colours first occur. */
  lemma {:induction false} DistinctFacts(cs: seq<string>)
    ensures forall i, j :: 0 <= i < j < |Distinct(cs)| ==> Distinct(cs)[i] != Distinct(cs)[j]
    ensures forall c :: c in Distinct(cs) <==> c in cs
    ensures forall i, j :: 0 <= i < j < |Distinct(cs)| ==> IndexOf(cs, Distinct(cs)[i]) < IndexOf(cs, Distinct(cs)[j])
  {
    if |cs| > 0 {
      var init := cs[..|cs| - 1];
      var x := cs[|cs| - 1];
      DistinctFacts(init);
      var d := Distinct(init);
      assert cs == init + [x];
      if x !in d {
        forall i | 0 <= i < |d|
          ensures IndexOf(cs, d[i]) == IndexOf(init, d[i])
        {
          IndexOfPrefix(cs, d[i], |cs| - 1);
        }
        assert IndexOf(cs, x) == |cs| - 1;
      }
    }
  }

  /** The aggregates of product `p` agree with the variant table. */
  predicate AggregatesMatch(p: Product, vs: seq<Variant>) {
    p.stock == SumStock(vs, p.id) && p.colors == Distinct(ColorsOf(vs, p.id))
  }

  /** Every product's aggregates agree with its variants. */
  predicate Synced(c: Catalog) {
    forall i :: 0 <= i < |c.products| ==> AggregatesMatch(c.products[i], c.variants)
  }

  /** Keys as the database enforces them: product ids are positive (a falsy
      id never names a product) and a variant's foreign key is null (0) or
      names a product. */
  predicate KeysValid(c: Catalog) {
    && (forall i :: 0 <= i < |c.products| ==> c.products[i].id != 0)
    && (forall j :: 0 <= j < |c.variants| ==>
          c.variants[j].productId == 0 || HasProduct(c.products, c.variants[j].productId))
  }

  function SetAggregates(ps: seq<Product>, pid: int, stock: int, colors: seq<string>): (r: seq<Product>)
    ensures |r| == |ps|
    ensures forall i :: 0 <= i < |ps| ==>
              r[i] == (if ps[i].id == pid then ps[i].(stock := stock, colors := colors) else ps[i])
  {
    if |ps| == 0 then []
    else
      [if ps[0].id == pid then ps[0].(stock := stock, colors := colors) else ps[0]]
      + SetAggregates(ps[1..], pid, stock, colors)
  }

  /** `syncStock(pid)`: a falsy id does nothing; otherwise the `stock` and
      `colors` of product `pid` are written, and afterwards they agree with
      its variants. The `updatedAt` stamp the same update writes is not
      modelled: this keeps every other field. */
  function SyncStock(c: Catalog, pid: nat): (r: Catalog)
    ensures r.variants == c.variants
    ensures |r.products| == |c.products|
    ensures pid == 0 ==> r == c
    ensures forall i :: 0 <= i < |c.products| && c.products[i].id != pid ==>
              r.products[i] == c.products[i]
    ensures forall i :: 0 <= i < |c.products| && c.products[i].id == pid && pid != 0 ==>
              && r.products[i].(stock := c.products[i].stock, colors := c.products[i].colors) == c.products[i]
              && AggregatesMatch(r.products[i], r.variants)
  {
    if pid == 0 then c
    else
      Catalog(SetAggregates(c.products, pid, SumStock(c.variants, pid), Distinct(ColorsOf(c.variants, pid))),
              c.variants)
  }

  lemma SyncIdempotent(c: Catalog, pid: nat)
    ensures SyncStock(SyncStock(c, pid), pid) == SyncStock(c, pid)
  {
    var once := SyncStock(c, pid);
    var twice := SyncStock(once, pid);
    assert |twice.products| == |once.products|;
    forall i | 0 <= i < |once.products|
      ensures twice.products[i] == once.products[i]
    {
    }
  }

  // ---------------------------------------------------------------------
  // The triggers
  // ---------------------------------------------------------------------

  /** `event.entity?.productId || event.databaseEntity?.productId` */
  function EventProductId(entity: Option<Variant>, databaseEntity: Option<Variant>): nat {
    var current := if entity.Some? then entity.value.productId else 0;
    if current != 0 then current
    else if databaseEntity.Some? then databaseEntity.value.productId
    else 0
  }

  predicate SkuTaken(vs: seq<Variant>, sku: string) {
    exists j :: 0 <= j < |vs| && vs[j].sku == sku
  }

  /** An `INSERT` of variant `v` followed by `afterInsert`. The database
      refuses a duplicate SKU or a dangling product key, and the trigger then
      never runs. */
  function InsertVariant(c: Catalog, v: Variant): (r: Result<Catalog>)
    ensures r.Ok? <==> !SkuTaken(c.variants, v.sku) && (v.productId == 0 || HasProduct(c.products, v.productId))
    ensures r.Err? ==> r.error.InternalError?
    ensures r.Ok? ==> r.value.variants == c.variants + [v]
  {
    if SkuTaken(c.variants, v.sku) then
      Err(InternalError("duplicate key value violates unique constraint on sku"))
    else if v.productId != 0 && !HasProduct(c.products, v.productId) then
      Err(InternalError("insert violates foreign key constraint on productId"))
    else
      Ok(SyncStock(Catalog(c.products, c.variants + [v]), v.productId))
  }

  /** An `UPDATE` of the variant at index `i` to `v` followed by
      `afterUpdate`: only the new product id is re-synced, or the old one
      when the new one is falsy. */
  function UpdateVariant(c: Catalog, i: nat, v: Variant): (r: Catalog)
    requires i < |c.variants|
    ensures r.variants == c.variants[i := v]
  {
    SyncStock(Catalog(c.products, c.variants[i := v]), EventProductId(Some(v), Some(c.variants[i])))
  }

  /** A `DELETE` of the variant at index `i` followed by `afterRemove`. */
  function RemoveVariant(c: Catalog, i: nat): (r: Catalog)
    requires i < |c.variants|
    ensures r.variants == c.variants[..i] + c.variants[i + 1..]
  {
    var gone := c.variants[i];
    SyncStock(Catalog(c.products, c.variants[..i] + c.variants[i + 1..]), EventProductId(Some(gone), Some(gone)))
  }

  // ---------------------------------------------------------------------
  // Sums and colour lists over concatenations
  // ---------------------------------------------------------------------

  lemma {:induction false} SumConcat(a: seq<Variant>, b: seq<Variant>, pid: int)
    ensures SumStock(a + b, pid) == SumStock(a, pid) + SumStock(b, pid)
    ensures ColorsOf(a + b, pid) == ColorsOf(a, pid) + ColorsOf(b, pid)
  {
    if |a| > 0 {
      assert (a + b)[1..] == a[1..] + b;
      SumConcat(a[1..], b, pid);
    } else {
      assert a + b == b;
    }
  }

  lemma SingleOther(v: Variant, pid: int)
    requires v.productId != pid
    ensures SumStock([v], pid) == 0 && ColorsOf([v], pid) == []
  {
    assert [v][1..] == [];
  }

  /** Removing, adding or replacing a row of another product leaves the
      sums of `pid` alone. */
  lemma AggregatesOfOthers(a: seq<Variant>, mid: seq<Variant>, b: seq<Variant>, pid: int)
    requires forall k :: 0 <= k < |mid| ==> mid[k].productId != pid
    ensures SumStock(a + mid + b, pid) == SumStock(a + b, pid)
    ensures ColorsOf(a + mid + b, pid) == ColorsOf(a + b, pid)
  {
    SumConcat(a + mid, b, pid);
    SumConcat(a, mid, pid);
    SumConcat(a, b, pid);
    NoneOf(mid, pid);
  }

  lemma {:induction false} NoneOf(vs: seq<Variant>, pid: int)
    requires forall k :: 0 <= k < |vs| ==> vs[k].productId != pid
    ensures SumStock(vs, pid) == 0 && ColorsOf(vs, pid) == []
  {
    if |vs| > 0 {
      NoneOf(vs[1..], pid);
    }
  }

  // ---------------------------------------------------------------------
  // The invariant across the triggers
  // ---------------------------------------------------------------------

  /** If only rows of product `pid` (or of no product) changed and `pid` was
      re-synced, every product's aggregates agree again. */
  lemma ResyncRestores(c: Catalog, vs: seq<Variant>, pid: nat)
    requires Synced(c) && KeysValid(c)
    requires forall i :: 0 <= i < |c.products| && c.products[i].id != pid ==>
               SumStock(vs, c.products[i].id) == SumStock(c.variants, c.products[i].id)
               && ColorsOf(vs, c.products[i].id) == ColorsOf(c.variants, c.products[i].id)
    ensures Synced(SyncStock(Catalog(c.products, vs), pid))
  {
    var r := SyncStock(Catalog(c.products, vs), pid);
    forall i | 0 <= i < |r.products|
      ensures AggregatesMatch(r.products[i], r.variants)
    {
      if c.products[i].id != pid {
        assert r.products[i] == c.products[i];
        assert AggregatesMatch(c.products[i], c.variants);
      }
    }
  }

  lemma InsertPreservesSynced(c: Catalog, v: Variant)
    requires Synced(c) && KeysValid(c)
    requires InsertVariant(c, v).Ok?
    ensures Synced(InsertVariant(c, v).value) && KeysValid(InsertVariant(c, v).value)
  {
    var vs := c.variants + [v];
    forall i | 0 <= i < |c.products| && c.products[i].id != v.productId
      ensures SumStock(vs, c.products[i].id) == SumStock(c.variants, c.products[i].id)
      ensures ColorsOf(vs, c.products[i].id) == ColorsOf(c.variants, c.products[i].id)
    {
      AggregatesOfOthers(c.variants, [v], [], c.products[i].id);
      assert c.variants + [v] + [] == vs && c.variants + [] == c.variants;
    }
    ResyncRestores(c, vs, v.productId);
    InsertKeepsKeys(c, v);
  }

  lemma InsertKeepsKeys(c: Catalog, v: Variant)
    requires KeysValid(c)
    requires InsertVariant(c, v).Ok?
    ensures KeysValid(InsertVariant(c, v).value)
  {
    var r := InsertVariant(c, v).value;
    assert |r.products| == |c.products|;
    assert forall k :: 0 <= k < |c.products| ==> r.products[k].id == c.products[k].id;
    forall j | 0 <= j < |r.variants|
      ensures r.variants[j].productId == 0 || HasProduct(r.products, r.variants[j].productId)
    {
      var pid := r.variants[j].productId;
      if pid != 0 {
        assert HasProduct(c.products, pid);
        var k :| 0 <= k < |c.products| && c.products[k].id == pid;
        assert r.products[k].id == pid;
      }
    }
  }

  lemma RemovePreservesSynced(c: Catalog, i: nat)
    requires i < |c.variants|
    requires Synced(c) && KeysValid(c)
    ensures Synced(RemoveVariant(c, i)) && KeysValid(RemoveVariant(c, i))
  {
    var gone := c.variants[i];
    var vs := c.variants[..i] + c.variants[i + 1..];
    assert c.variants == c.variants[..i] + [gone] + c.variants[i + 1..];
    forall k | 0 <= k < |c.products| && c.products[k].id != gone.productId
      ensures SumStock(vs, c.products[k].id) == SumStock(c.variants, c.products[k].id)
      ensures ColorsOf(vs, c.products[k].id) == ColorsOf(c.variants, c.products[k].id)
    {
      AggregatesOfOthers(c.variants[..i], [gone], c.variants[i + 1..], c.products[k].id);
    }
    ResyncRestores(c, vs, gone.productId);
    var r := RemoveVariant(c, i);
    forall j | 0 <= j < |r.variants|
      ensures r.variants[j].productId == 0 || HasProduct(r.products, r.variants[j].productId)
    {
      var pid := r.variants[j].productId;
      assert r.variants[j] in c.variants;
      if pid != 0 {
        var m :| 0 <= m < |c.variants| && c.variants[m] == r.variants[j];
        var k :| 0 <= k < |c.products| && c.products[k].id == pid;
        assert r.products[k].id == pid;
      }
    }
  }

  /** An update that keeps the variant under the same product (or detaches
      it) keeps every product's aggregates right. */
  lemma UpdateInPlacePreservesSynced(c: Catalog, i: nat, v: Variant)
    requires i < |c.variants|
    requires v.productId == c.variants[i].productId || v.productId == 0
    requires Synced(c) && KeysValid(c)
    ensures Synced(UpdateVariant(c, i, v))
  {
    var old_ := c.variants[i];
    var vs := c.variants[i := v];
    var pid := EventProductId(Some(v), Some(old_));
    assert pid == old_.productId;
    assert c.variants == c.variants[..i] + [old_] + c.variants[i + 1..];
    assert vs == c.variants[..i] + [v] + c.variants[i + 1..];
    forall k | 0 <= k < |c.products| && c.products[k].id != pid
      ensures SumStock(vs, c.products[k].id) == SumStock(c.variants, c.products[k].id)
      ensures ColorsOf(vs, c.products[k].id) == ColorsOf(c.variants, c.products[k].id)
    {
      var q := c.products[k].id;
      assert q != 0;
      AggregatesOfOthers(c.variants[..i], [old_], c.variants[i + 1..], q);
      AggregatesOfOthers(c.variants[..i], [v], c.variants[i + 1..], q);
    }
    ResyncRestores(c, vs, pid);
  }

  // ---------------------------------------------------------------------
  // The triggers as written: no `productId` property to read
  // ---------------------------------------------------------------------

  /** ProductVariant declares its product only as the `product` relation,
      with no `productId` property, so on the entity objects the events
      carry `entity.productId` and `databaseEntity.productId` read as
      `undefined` and `syncStock` returns at once. The database row is
      written; the product's aggregates are not. */
  function UpdateVariantAsWritten(c: Catalog, i: nat, v: Variant): (r: Catalog)
    requires i < |c.variants|
    ensures r.variants == c.variants[i := v]
    ensures r.products == c.products
  {
    SyncStock(Catalog(c.products, c.variants[i := v]), 0)
  }

  /** As written, removing a variant leaves every product as it was. */
  function RemoveVariantAsWritten(c: Catalog, i: nat): (r: Catalog)
    requires i < |c.variants|
    ensures r.variants == c.variants[..i] + c.variants[i + 1..]
    ensures r.products == c.products
  {
    SyncStock(Catalog(c.products, c.variants[..i] + c.variants[i + 1..]), 0)
  }

  /** As written: selling two of the five units of product 1's only variant
      lowers the variant's stock to 3 while the product still shows 5; the
      trigger that reads the product id re-syncs it to 3. */
  lemma StockUpdateAsWrittenLeavesStaleStock()
    ensures var r := UpdateVariantAsWritten(SampleCatalog(), 0, SampleVariant(1).(stock := 3));
            r.products[0].stock == 5 && SumStock(r.variants, 1) == 3 && !Synced(r)
    ensures var r := UpdateVariant(SampleCatalog(), 0, SampleVariant(1).(stock := 3));
            Synced(r) && r.products[0].stock == 3
  {
    SampleCatalogSynced();
    var c := SampleCatalog();
    var v := SampleVariant(1).(stock := 3);
    var r := UpdateVariantAsWritten(c, 0, v);
    assert r.variants == [v];
    assert [v][1..] == [];
    assert SumStock(r.variants, 1) == 3;
    assert !AggregatesMatch(r.products[0], r.variants);
    UpdateInPlacePreservesSynced(c, 0, v);
    assert AggregatesMatch(UpdateVariant(c, 0, v).products[0], UpdateVariant(c, 0, v).variants);
  }

  // ---------------------------------------------------------------------
  // Re-parenting a variant
  // ---------------------------------------------------------------------

  function SampleProduct(id: nat, stock: int, colors: seq<string>): Product {
    Product(id, "Tee", "Cotton tee", 100.0, stock, Unisex, "Shirts", "Acme", colors, [], false, false, 0, 0)
  }

  function SampleVariant(productId: nat): Variant {
    Variant(7, productId, "M", "Red", 5, "TEE-RED-M", None)
  }

  /** One red variant with 5 in stock under product 1; product 2 has none. */
  function SampleCatalog(): Catalog {
    Catalog([SampleProduct(1, 5, ["Red"]), SampleProduct(2, 0, [])], [SampleVariant(1)])
  }

  lemma SampleCatalogSynced()
    ensures Synced(SampleCatalog()) && KeysValid(SampleCatalog())
  {
    var c := SampleCatalog();
    assert [SampleVariant(1)][1..] == [];
    assert ColorsOf(c.variants, 1) == ["Red"];
    assert ColorsOf(c.variants, 2) == [];
    assert Distinct(["Red"]) == ["Red"] by {
      assert ["Red"][..0] == [];
    }
    assert AggregatesMatch(c.products[0], c.variants);
    assert AggregatesMatch(c.products[1], c.variants);
    assert HasProduct(c.products, 1);
  }

  /** Moving a variant from product 1 to product 2 re-syncs only product 2:
      product 1 keeps counting the moved stock. */
  lemma MovedVariantLeavesStaleStock()
    ensures Synced(SampleCatalog()) && KeysValid(SampleCatalog())
    ensures var r := UpdateVariant(SampleCatalog(), 0, SampleVariant(2));
            r.products[0].stock == 5 && SumStock(r.variants, 1) == 0 && !Synced(r)
  {
    SampleCatalogSynced();
    var c := SampleCatalog();
    var r := UpdateVariant(c, 0, SampleVariant(2));
    assert r.variants == [SampleVariant(2)];
    assert [SampleVariant(2)][1..] == [];
    assert SumStock(r.variants, 1) == 0;
    assert r.products[0] == c.products[0];
    assert !AggregatesMatch(r.products[0], r.variants);
  }

  /** The intended trigger: re-sync both the product the variant now
      belongs to and the one it came from. */
  function UpdateVariantResyncBoth(c: Catalog, i: nat, v: Variant): (r: Catalog)
    requires i < |c.variants|
    ensures r.variants == c.variants[i := v]
  {
    SyncStock(SyncStock(Catalog(c.products, c.variants[i := v]), v.productId), c.variants[i].productId)
  }

  lemma UpdateResyncBothPreservesSynced(c: Catalog, i: nat, v: Variant)
    requires i < |c.variants|
    requires Synced(c) && KeysValid(c)
    ensures Synced(UpdateVariantResyncBoth(c, i, v))
  {
    var old_ := c.variants[i];
    var vs := c.variants[i := v];
    assert c.variants == c.variants[..i] + [old_] + c.variants[i + 1..];
    assert vs == c.variants[..i] + [v] + c.variants[i + 1..];
    var mid := SyncStock(Catalog(c.products, vs), v.productId);
    var r := SyncStock(mid, old_.productId);
    forall k | 0 <= k < |r.products|
      ensures AggregatesMatch(r.products[k], r.variants)
    {
      var q := c.products[k].id;
      if q == old_.productId {
        assert q != 0;
      } else if q == v.productId {
        assert r.products[k] == mid.products[k];
      } else {
        AggregatesOfOthers(c.variants[..i], [old_], c.variants[i + 1..], q);
        AggregatesOfOthers(c.variants[..i], [v], c.variants[i + 1..], q);
        assert r.products[k] == c.products[k];
        assert AggregatesMatch(c.products[k], c.variants);
      }
    }
  }
}
